=== FILE: README.md ===
# Tamil Nadu election dashboard — a Dafny model of its core

The dashboard shows Tamil Nadu's 234 assembly constituencies. It covers the
2011, 2016 and 2021 results and a 2026 forecast under five scenarios. The
scenarios are A (INC with DMK), B (INC with ADMK), C (INC alone), D (an INC+TVK
front) and E (INC with TVK). Besides these there is "no scenario" (NONE). This
project models the logic behind those views as pure Dafny functions, and proves
what that logic promises.

- **Scenario engine.** One function resolves a record's winner, margin and
  alliance under a scenario. The same resolver is copied into five places:
  `MapVisualization.tsx:103-128`, `AllianceBuilder.tsx:20-27`,
  `AnalyticsPanel.tsx:20-36`, `useRecommendation.ts:29-36` and
  `Timeline.tsx:17-24`. Module `Resolver` models all of them, and the lemmas
  say that each copy reads the scenario's fields in its precedence order.
  Around the resolver sit:
  - the 2026 loader, with its D merge and E reframing (`Transform`);
  - the seat tally, the swing, the swing list and the INC strongholds
    (`Tally`, `Queries`);
  - the sidebar's key metrics and blocs (`AllianceBuilder`);
  - the analytics charts (`Analytics`);
  - the party filter bar (`Timeline`);
  - the recommendation hook (`Recommendation`).
- **Colours and the fill overlay.** `Colors` holds:
  - the party table;
  - the heat-map, margin and confidence scales;
  - the tint.

  `MapView` holds the map's fill rule: the search and party-filter overlays,
  then the view mode. It also holds the tooltip placement and the detail
  panel.
- **Dashboard state and interaction.** `Dashboard` models the context
  provider's state and the active-scenario getter and setter.
  `MapInteraction` models:
  - the stroke updates of the mouse handlers and the hover-sync effect, as a
    state machine over events;
  - dragging the Chennai inset.
- **Map scripts.**
  - `GenMap` models `gen_map.cjs`: each grid point goes to its nearest
    constituency, then each constituency's cell becomes a convex hull and a
    GeoJSON ring. The ring rule is a parameter: `AsWritten` is the script's
    own, and `Corrected` is the repair described under Findings.
  - `ExtractMap` models `extract_tn_map.cjs`: the state filter, name
    normalisation, the manual, exact, prefix and containment match cascade,
    and the written features.
  - `FixNames` models `fix_names.cjs`: the shared-name fixes by number, the
    rename table, and the cross-check of names against the data.
- **Access whitelist.**
  - `AuthStore` models `authStore.ts`: the CSV list cached in memory for the life of a
    page, the local list, the admin accounts and the sessions.
  - `AdminPanel` and `AccessGate` model the two components that drive the
    store.
  - `EmailFormat` proves that the address validator accepts exactly the
    language of the regular expression the components use.

Shared modules model JavaScript behaviour:
- `Optional`: `null`/`undefined`, `??` and `||`.
- `JsString`: `trim`, `toLowerCase`, `includes`, `split`, and truthiness.
- `SeqUtil`: `filter` and `new Set`.
- `Sorting`: a stable `Array.prototype.sort` over a comparator.
- `StringOrder`: the default string sort order.

Collections that the source keeps as JavaScript objects are modelled as
sequences in insertion order. One example is the seat tally. Its key order is
the order in which `Object.keys` returns the keys, and that order shows on
screen.

## Model

| member | source | states |
|---|---|---|
| Records.DataFor | dashboard/data/realData.ts:176 | a year with no data reads as the empty record list, otherwise as that year's list |
| Records.BaselineData | dashboard/components/MapVisualization.tsx:95-98 | viewing 2026 compares against 2021; any other year compares against itself |
| Resolver.Winner | dashboard/components/MapVisualization.tsx:103-110 | a shown winner is never the empty string |
| Resolver.Margin | dashboard/components/MapVisualization.tsx:112-119 | a margin is missing only when the D or E field holds a stored null |
| Resolver.Alliance | dashboard/components/MapVisualization.tsx:121-128 | no scenario means no alliance; D and E read their own alliance field with JavaScript truthiness |
| Resolver.BaselineWinner | dashboard/components/MapVisualization.tsx:685 | the actual winner when there is one, otherwise scenario A's winner; never empty |
| Resolver.SwingMargin | dashboard/data/realData.ts:211-218 | A, B, C and NONE test their own scenario margins |
| Resolver.WinnerByPrecedence | dashboard/utils/useRecommendation.ts:29-36 | the winner is the first set field in the scenario's precedence list |
| Resolver.MarginByPrecedence | dashboard/components/MapVisualization.tsx:112-119 | the margin follows the same precedence list as the winner |
| Resolver.FallThroughToActual | dashboard/components/MapVisualization.tsx:103-128 | on a record without D/E fields, D and E show the actual result and no alliance |
| Resolver.WinnerFromRecord | TN-POC-WEB/src/components/AllianceBuilder.tsx:20-27 | every shown winner is one of the record's own winner fields |
| Resolver.SwingMarginAgrees | dashboard/data/realData.ts:205-220 | on a 2026 record, the margin the swing list tests is the margin the map shows |
| Resolver.SwingMarginOfNull | dashboard/data/realData.ts:211-218 | a D or E margin stored as null is tested as 0, so the swing list keeps it |
| Transform.FromRaw | dashboard/data/realData.ts:66-105 | the field mapping: B is filled from C, there is no actual result, and missing INC-layer and rho values default to 0 |
| Transform.MergeD | dashboard/data/realData.ts:107-120 | the D merge only changes the D winner and D alliance, and only of TVK seats |
| Transform.ReframeE | dashboard/data/realData.ts:121-124 | the E reframe only changes the E alliance |
| Transform.Load | dashboard/data/realData.ts:66-126 | one loaded record per forecast row, in order, each in the 2026 shape: the row's name and INC layer, B equal to C, no actual result, every TVK seat in the INC+TVK alliance under D and every other D result as filed, and no INC seat left in the DMK alliance under E |
| Transform.MergeDOutcome | dashboard/data/realData.ts:108-116 | which D outcome a TVK seat gets, by INC's share against TVK's and the leading rival's |
| Transform.MergeDExample | dashboard/data/realData.ts:108-113 | worked example: INC 0.30 against TVK 0.20, DMK 0.25 and ADMK 0.22 gives an INC seat of the INC+TVK front |
| Transform.ReframeEExact | dashboard/data/realData.ts:121-124 | the E alliance changes exactly for INC seats filed under DMK, and then to ADMK |
| Transform.RewriteIdempotent | dashboard/data/realData.ts:107-124 | applying both rewrites twice is applying them once |
| Transform.RowShape | dashboard/data/realData.ts:66-126 | mapping and then rewriting one forecast row gives it the 2026 shape |
| Tally.SeatsOfMissing | dashboard/data/realData.ts:172-185 | a party that is not a key has 0 seats |
| Tally.SeatsPositiveIsKey | dashboard/data/realData.ts:172-185 | only a key has seats |
| Tally.BumpKeys | dashboard/data/realData.ts:180-183 | a count bump keeps the key order and appends a party seen for the first time |
| Tally.BumpSeats | dashboard/data/realData.ts:180-183 | a bump adds one seat to its party and none to any other |
| Tally.BumpTotal | dashboard/data/realData.ts:180-183 | a bump adds one seat to the total |
| Tally.BumpWellFormed | dashboard/data/realData.ts:180-183 | a bump keeps the keys distinct and every count positive |
| Tally.TallyOf | dashboard/data/realData.ts:176-184 | the tally is well formed, and its total is the number of truthy winners |
| Tally.SeatsCount | dashboard/data/realData.ts:176-184 | a party's count is the number of records it won |
| Tally.KeysAreWinners | dashboard/data/realData.ts:176-184 | the keys are exactly the parties that won somewhere |
| Tally.Winners | dashboard/data/realData.ts:178 | one resolved winner per record, in order, never the empty name |
| Tally.BaselineWinners | TN-POC-WEB/src/components/AnalyticsPanel.tsx:42-45 | one baseline winner per record, in order: the actual winner when it is not empty, otherwise scenario A's; never the empty name |
| Tally.SeatTally | dashboard/data/realData.ts:172-185 | the tally is well formed, never counts more seats than records, and never has an empty key |
| Tally.CountPresentBound | dashboard/data/realData.ts:176-184 | there are never more truthy winners than records |
| Tally.SeatTallyTotal | dashboard/data/realData.ts:172-185 | the tally accounts for exactly the records that have a winner |
| Tally.SumSeatsSplit | dashboard/utils/useRecommendation.ts:56-70 | summing a bloc over a tally splits at the tally's first entry |
| Tally.SumSeatsBound | dashboard/utils/useRecommendation.ts:56-70 | the seats of several distinct parties never add up to more than the whole tally |
| Tally.SumSeatsOfEmpty | dashboard/utils/useRecommendation.ts:56-70 | an empty bloc has no seats |
| Tally.SumSeatsCons | dashboard/utils/useRecommendation.ts:56-70 | a bloc's seats are its first party's plus the rest's |
| Tally.SumSeatsAppend | dashboard/utils/useRecommendation.ts:56-70 | the seats of two joined blocs add up |
| Tally.SumSeatsCovers | TN-POC-WEB/src/components/AllianceBuilder.tsx:191-193 | parties covering every key account for every seat |
| Tally.UnionKeys | dashboard/data/realData.ts:194 | each party of either tally appears once, and no other party does |
| Tally.Swing | dashboard/data/realData.ts:190-200 | one change per party of either tally: projected minus baseline seats |
| Tally.SwingCoversUnion | dashboard/data/realData.ts:190-200 | each party of either tally has exactly one swing entry, and no other party has one |
| Queries.SwingConstituencies | dashboard/data/realData.ts:205-220 | the records whose absolute margin is below the threshold, in input order, one per such position |
| Queries.SwingConstituenciesUnique | dashboard/data/realData.ts:205-220 | any in-order selection of competitive records with one element per competitive position is the query's result |
| Queries.SwingThresholdMonotone | dashboard/data/realData.ts:205-220 | a larger threshold lists at least as many constituencies |
| Queries.SwingFallsBackToC | dashboard/data/realData.ts:211-218 | without D (or E) margins, the D (or E) query is the C query |
| Queries.FilterSameTest | dashboard/data/realData.ts:205-220 | two filters that agree on every record select the same records |
| Queries.IncStrongholds | dashboard/data/realData.ts:225-229 | every copy of each record whose INC correlation reaches the threshold and nothing else, ordered by INC mean share, largest first |
| Colors.TableColor | TN-POC-WEB/src/utils/colors.ts:1-20 | a colour exactly for the parties in the table, and that party's colour |
| Colors.LookUp | TN-POC-WEB/src/utils/colors.ts:42-45 | an object lookup finds a value exactly for the keys present, and the value stored with that key |
| Colors.PartyColor | TN-POC-WEB/src/utils/colors.ts:42-45 | no winner, a listed party and an unlisted party get the no-party, table and unknown colours |
| Colors.PartyColorLight | TN-POC-WEB/src/utils/colors.ts:50-54 | the light colour is the party colour plus the alpha suffix, or the background for no winner |
| Colors.HeatmapBand | TN-POC-WEB/src/utils/colors.ts:59-70 | the band always indexes the ten-colour palette |
| Colors.HeatmapColor | TN-POC-WEB/src/utils/colors.ts:59-70 | the lightest colour exactly for shares of 0 or less, the darkest exactly from 0.40 up |
| Colors.HeatmapBandArithmetic | TN-POC-WEB/src/utils/colors.ts:59-70 | a positive share below 0.40 falls in the 0.05-wide band it lies in |
| Colors.HeatmapMonotone | TN-POC-WEB/src/utils/colors.ts:59-70 | more share never means a lighter colour |
| Colors.Abs | TN-POC-WEB/src/utils/colors.ts:77 | the absolute value is non-negative and is the value or its negation |
| Colors.MarginBand | TN-POC-WEB/src/utils/colors.ts:76-86 | the band always indexes the eight-colour palette |
| Colors.MarginColor | TN-POC-WEB/src/utils/colors.ts:76-86 | the colour is the palette entry numbered by how many of the cut points (2, 5, 8, 10, 15, 20 and 30 points) the absolute margin reaches: the darkest red exactly under 2 points, the lightest exactly from 30 points, whatever the sign |
| Colors.CutsReached | TN-POC-WEB/src/utils/colors.ts:76-86 | a value reaches at most every cut point |
| Colors.MarginBandCounts | TN-POC-WEB/src/utils/colors.ts:76-86 | the band is the number of cut points at or below the absolute margin |
| Colors.MarginSymmetric | TN-POC-WEB/src/utils/colors.ts:76-100 | a margin and its negation get the same colour and the same label |
| Colors.MarginMonotone | TN-POC-WEB/src/utils/colors.ts:76-86 | a wider margin never gets a darker colour |
| Colors.MarginLabel | TN-POC-WEB/src/utils/colors.ts:91-100 | the label is one of the listed labels, and "Safe" exactly from 20 points |
| Colors.LabelFollowsBand | TN-POC-WEB/src/utils/colors.ts:76-100 | labels follow the colour bands, and the two widest colours share "Safe" |
| Colors.HexDigit | TN-POC-WEB/src/utils/colors.ts:110-112 | a hex digit is worth its position in `0123456789abcdef`, either case accepted, so less than 16 |
| Colors.ParseHexColor | TN-POC-WEB/src/utils/colors.ts:110-112 | each channel lies in 0-255, and its two base-16 digits spell the channel's two hex characters, lower-cased |
| Colors.TableColorsAreHex | TN-POC-WEB/src/utils/colors.ts:1-20 | every table colour is a `#rrggbb` string, so the tint can parse it |
| Colors.Clamp01 | TN-POC-WEB/src/utils/colors.ts:114 | the result lies in [0, 1], equals the input inside that range, and is the nearer end outside it |
| Colors.Round | TN-POC-WEB/src/utils/colors.ts:116-118 | the nearest integer, with halves rounding up |
| Colors.TintedColor | TN-POC-WEB/src/utils/colors.ts:107-120 | every channel lies between the party colour's channel and white; an intensity of 0 or less gives white, and 1 or more the party colour itself |
| Colors.BaseHex | TN-POC-WEB/src/utils/colors.ts:107-112 | the tint starts from a parseable colour, and from the party's colour when there is a winner |
| Colors.BlendBetween | TN-POC-WEB/src/utils/colors.ts:116-118 | a blended channel lies between the party channel and white, at white for t = 0 and at the party channel for t = 1 |
| Colors.ConfidenceColor | TN-POC-WEB/src/utils/colors.ts:125-129 | high and medium get their own colours, and everything else, missing included, gets the low colour |
| Colors.ConfidenceBg | TN-POC-WEB/src/utils/colors.ts:131-135 | high and medium get their own backgrounds, and everything else, missing included, gets the low background |
| Colors.Level | TN-POC-WEB/src/utils/colors.ts:125-135 | the badge level is high exactly for `high`, medium exactly for `medium`, and low otherwise |
| Colors.ConfidenceBadgeAgrees | TN-POC-WEB/src/utils/colors.ts:125-135 | two confidences share a badge colour exactly when they share a badge background |
| Dashboard.Initial | dashboard/store/DashboardContext.tsx:81-92 | the provider starts on the 2026 forecast, scenario A, party view, with nothing hovered, selected, searched or filtered |
| Dashboard.DeriveV8Scenario | dashboard/store/DashboardContext.tsx:71-78 | no partners means NONE, DMK among them means A, ADMK without DMK means B, anything else means C |
| Dashboard.ActiveScenario | dashboard/store/DashboardContext.tsx:96-99 | 2026 uses the direct choice; other years derive the scenario from the alliance list |
| Dashboard.SetActiveScenario | dashboard/store/DashboardContext.tsx:101-111 | 2026 changes only the direct choice; other years change only the alliance list, to DMK, ADMK or empty |
| Dashboard.SetThenGet | dashboard/store/DashboardContext.tsx:96-111 | a scenario set is the one read back, except C, D and E outside 2026, which read back as NONE |
| Dashboard.GetThenSet | dashboard/store/DashboardContext.tsx:96-111 | writing back the active scenario keeps it, or makes it NONE; in 2026 it changes nothing |
| MapView.ProjShare | dashboard/components/MapVisualization.tsx:146-160 | the DMK side uses DMK's projected share, TVK its own share (0.15 by default) |
| MapView.Min | dashboard/components/MapVisualization.tsx:146-160 | the minimum is at most both inputs and is one of them |
| MapView.FillColor | dashboard/components/MapVisualization.tsx:131-143 | no record, or a region the search or party filter dims, gets the neutral fill |
| MapView.FillByViewMode | dashboard/components/MapVisualization.tsx:131-180 | a region that is not dimmed is coloured by the view mode alone: the party colour; the margin colour, or neutral without a margin; the INC heat colour or the winner tinted by projected share; the winner tinted by TVK's share; or the winner tinted by the size of the crystallisation gap |
| MapView.TvkViewShading | dashboard/components/MapVisualization.tsx:165-170 | in the TVK view no TVK share is white and a share of 25% or more is the winner's full colour |
| MapView.CrystalViewShading | dashboard/components/MapVisualization.tsx:171-176 | in the crystallisation view no gap is white and a gap of 50 points or more, either way, is the winner's full colour |
| MapView.NoOverlayNoDimming | dashboard/components/MapVisualization.tsx:132-143 | with no search and no party filter nothing is dimmed |
| MapView.SearchHit | dashboard/components/MapVisualization.tsx:132-136 | a search that occurs in the name, ignoring case, never dims the region |
| MapView.BlocLabel | dashboard/components/MapVisualization.tsx:311 | the joint front is shown as is, INC alone as "INC (Solo)", and any other alliance with a "+" |
| MapView.BlocLabelInjective | dashboard/components/MapVisualization.tsx:311 | different alliances never get the same label |
| MapView.TooltipPosition | dashboard/components/MapVisualization.tsx:404-413 | the tooltip flips left near the right edge and up near the bottom, never above 8px |
| MapView.TooltipStaysInside | dashboard/components/MapVisualization.tsx:404-413 | when the tooltip is placed to the right it ends inside the container, and when placed to the left it starts left of the pointer |
| MapView.InsetTooltipPosition | dashboard/components/MapVisualization.tsx:531-537 | the inset tooltip sits left of the inset, at least 8px from the edge |
| MapView.DataByName | dashboard/components/MapVisualization.tsx:20-24 | the lookup has exactly the record names as keys, and each key maps to a record of that name |
| MapView.DataByNameLast | dashboard/components/MapVisualization.tsx:20-24 | the record looked up is the last record with that name |
| MapView.Backdrop | dashboard/components/MapVisualization.tsx:846-852 | a backdrop click clears the selection only, and the detail panel is then closed |
| MapView.ComparisonWinner | dashboard/components/MapVisualization.tsx:685 | the comparison panel shows the actual winner when it is not empty, otherwise scenario A's, never the empty name: the same baseline as the analytics panel |
| MapView.ComparisonMargin | dashboard/components/MapVisualization.tsx:686 | the actual margin when there is one, otherwise scenario A's |
| MapInteraction.AllDefault | dashboard/components/MapVisualization.tsx:256-260 | every path gets the default stroke |
| MapInteraction.Handle | dashboard/components/MapVisualization.tsx:264-552 | an event handler keeps one stroke per path and never renames paths |
| MapInteraction.Step | dashboard/components/MapVisualization.tsx:455-469 | a handler followed by the sync effect keeps one stroke per path |
| MapInteraction.Run | dashboard/components/MapVisualization.tsx:264-552 | any sequence of events keeps one stroke per path |
| MapInteraction.StepPreservesInvariant | dashboard/components/MapVisualization.tsx:264-552 | after any event, only paths of the hovered constituency are marked, and at most one of them carries the pointer emphasis |
| MapInteraction.RunPreservesInvariant | dashboard/components/MapVisualization.tsx:264-552 | the same holds after any sequence of events |
| MapInteraction.SyncMarksHovered | dashboard/components/MapVisualization.tsx:455-469 | after an event that changes the hovered name, exactly the paths of the new hovered name are highlighted, none if it is empty, and no path keeps the pointer emphasis |
| MapInteraction.InsetEnterHighlights | dashboard/components/MapVisualization.tsx:492-509 | entering an inset path emphasises it alone on the inset and highlights every main-map path of that name, an empty name included, unless the entry changed the hover to the empty name, after which the sync effect clears them |
| MapInteraction.LeaveMapClears | dashboard/components/MapVisualization.tsx:439-443 | leaving the map clears the hover and every main-map stroke |
| MapInteraction.EnterMarksOnlyThatConstituency | dashboard/components/MapVisualization.tsx:264-273 | entering a path emphasises it, and only paths of its constituency stay marked |
| MapInteraction.HoverHoverLeave | dashboard/components/MapVisualization.tsx:264-273 | hovering A, then B, then leaving the map leaves every path at the default stroke |
| MapInteraction.ClickSelects | dashboard/components/MapVisualization.tsx:434-436 | a click selects exactly the clicked path's name and changes nothing else |
| MapInteraction.Max0 | dashboard/components/MapVisualization.tsx:71-76 | the clamp is non-negative, at least the input, and is 0 or the input |
| MapInteraction.DragStart | dashboard/components/MapVisualization.tsx:60-69 | the drag starts from the pinned top-right spot or from the current position, and adds a listener pair |
| MapInteraction.DragMove | dashboard/components/MapVisualization.tsx:71-76 | without a drag nothing moves; during a drag the inset is at its start position plus the pointer's travel, clamped |
| MapInteraction.DragEnd | dashboard/components/MapVisualization.tsx:77-81 | mouse-up ends the drag, removes every listener and keeps the position |
| MapInteraction.DragInvariantKept | dashboard/components/MapVisualization.tsx:60-84 | a drag is in progress exactly while listeners are registered, and the inset never leaves the top-left quadrant |
| MapInteraction.FirstDragRoundTrip | dashboard/components/MapVisualization.tsx:60-84 | a full drag from the pinned spot moves the inset by the pointer's travel and leaves no listener behind |
| AllianceBuilder.IncSeatsCount | TN-POC-WEB/src/components/AllianceBuilder.tsx:30-38 | INC's seat count is the number of records INC wins |
| AllianceBuilder.SumIncShareBounds | TN-POC-WEB/src/components/AllianceBuilder.tsx:58-60 | shares bounded by lo and hi sum to between n*lo and n*hi |
| AllianceBuilder.IncAvgShareBounds | TN-POC-WEB/src/components/AllianceBuilder.tsx:58-60 | the average INC share lies between the smallest and the largest share |
| AllianceBuilder.KpiStats | TN-POC-WEB/src/components/AllianceBuilder.tsx:41-67 | metrics exist only for the 2026 forecast; the swing seats are the records whose shown margin is a number under 10 points, the high-confidence seats those forecast "high", the INC average is the mean INC share (0 for no records), and INC's seats are its wins |
| AllianceBuilder.SwingSeatsCount | TN-POC-WEB/src/components/AllianceBuilder.tsx:53-56 | the filter keeps one record per swing seat: all of them exactly when every seat swings, none exactly when none does |
| AllianceBuilder.HighConfidenceCount | TN-POC-WEB/src/components/AllianceBuilder.tsx:62 | the filter keeps one record per high-confidence seat, and none exactly when no seat is high-confidence |
| AllianceBuilder.IncAvgShareTimes | TN-POC-WEB/src/components/AllianceBuilder.tsx:58-60 | the INC average times the number of records is the total INC share |
| AllianceBuilder.SumSeatsSingle | TN-POC-WEB/src/components/AllianceBuilder.tsx:85-92 | a one-party bloc has that party's seats |
| AllianceBuilder.BlocPartiesSum | TN-POC-WEB/src/components/AllianceBuilder.tsx:85-92 | the blocs' parties sum, party by party |
| AllianceBuilder.BlocsWithinTally | TN-POC-WEB/src/components/AllianceBuilder.tsx:85-92 | the blocs shown, plus the third bloc of scenario D, never exceed the tally |
| AllianceBuilder.MajorSum | TN-POC-WEB/src/components/AllianceBuilder.tsx:191-193 | the seats the bars subtract are the sum of the bar parties' seats |
| AllianceBuilder.BarPartiesDistinct | TN-POC-WEB/src/components/AllianceBuilder.tsx:191-193 | no party has two bars |
| AllianceBuilder.OthersBounds | TN-POC-WEB/src/components/AllianceBuilder.tsx:191-193 | "Others" counts at least the seats without a winner, and is never negative on a real tally |
| AllianceBuilder.OthersExact | TN-POC-WEB/src/components/AllianceBuilder.tsx:191-193 | when only the bar parties win, "Others" is exactly the seats without a winner |
| AllianceBuilder.BannerUnambiguous | TN-POC-WEB/src/components/AllianceBuilder.tsx:239-240 | two blocs cannot both reach a majority, so the order of the banner's tests does not matter |
| AllianceBuilder.ToggleParty | TN-POC-WEB/src/components/AllianceBuilder.tsx:69-78 | a chosen party is dropped everywhere; a new party is appended, and a new front replaces its rival |
| AllianceBuilder.ToggleFront | TN-POC-WEB/src/components/AllianceBuilder.tsx:69-78 | choosing a front drops the rival front and appends the chosen one |
| AllianceBuilder.ToggleTwice | TN-POC-WEB/src/components/AllianceBuilder.tsx:69-78 | toggling a new party twice restores the list, less the rival front |
| AllianceBuilder.ToggleExclusive | TN-POC-WEB/src/components/AllianceBuilder.tsx:69-78 | the list never holds both DMK and ADMK unless it started with both |
| AllianceBuilder.ToggleKeepsDistinct | TN-POC-WEB/src/components/AllianceBuilder.tsx:69-78 | the list stays free of duplicates |
| AllianceBuilder.ToggleFrontSelectsScenario | TN-POC-WEB/src/components/AllianceBuilder.tsx:69-78 | choosing DMK makes A the active scenario, and choosing ADMK makes B |
| AllianceBuilder.PresetScenario | TN-POC-WEB/src/components/AllianceBuilder.tsx:284-286 | each preset card's list derives its own scenario; the third-front card derives NONE |
| Analytics.BaselineChoice | TN-POC-WEB/src/components/AnalyticsPanel.tsx:13-16 | in 2026 the baseline tally is always the 2021 one, whatever the scenario |
| Analytics.ChartRows | TN-POC-WEB/src/components/AnalyticsPanel.tsx:52-57 | one row per party of either tally, in key order |
| Analytics.ChartData | TN-POC-WEB/src/components/AnalyticsPanel.tsx:52-58 | a permutation of the rows, sorted by simulated seats, most first |
| Analytics.ChartDataRows | TN-POC-WEB/src/components/AnalyticsPanel.tsx:52-58 | every chart row is its party's true entry, for a party of either tally |
| Analytics.ChartDataCovers | TN-POC-WEB/src/components/AnalyticsPanel.tsx:52-58 | every party of either tally has a chart row |
| Analytics.TopPartyHasMostSeats | TN-POC-WEB/src/components/AnalyticsPanel.tsx:71 | the top party has at least as many simulated seats as any party |
| Analytics.PieData | TN-POC-WEB/src/components/AnalyticsPanel.tsx:73-77 | every slice has a positive value and its party's colour |
| Analytics.PieDataValues | TN-POC-WEB/src/components/AnalyticsPanel.tsx:73-77 | every slice shows its party's simulated seat count |
| Analytics.PieDataMembers | TN-POC-WEB/src/components/AnalyticsPanel.tsx:73-77 | a party gets a slice exactly when it won a seat |
| Analytics.PieDataHasWinner | TN-POC-WEB/src/components/AnalyticsPanel.tsx:73-77 | a party that won a seat has a slice |
| Analytics.SwingSeatsAgree | TN-POC-WEB/src/components/AnalyticsPanel.tsx:64-67 | the panel and the sidebar report the same swing count for the 2026 forecast |
| Analytics.FixedBlocs | TN-POC-WEB/src/components/AnalyticsPanel.tsx:80-81 | the panel's DMK bloc is the sidebar's scenario-A bloc without MDMK; its ADMK bloc is the sidebar's outside E; the two blocs and TVK together never exceed the tally |
| Analytics.WithMargin | TN-POC-WEB/src/components/AnalyticsPanel.tsx:98-104 | every row describes a record with a numeric shown margin |
| Analytics.WithMarginComplete | TN-POC-WEB/src/components/AnalyticsPanel.tsx:98-104 | every record with a numeric margin has its row |
| Analytics.SwingConstituencies | TN-POC-WEB/src/components/AnalyticsPanel.tsx:98-104 | rows that match the search and describe records, closest margin first |
| Analytics.SwingConstituenciesComplete | TN-POC-WEB/src/components/AnalyticsPanel.tsx:98-104 | every record with a numeric margin whose name matches the search is listed |
| Timeline.PartySeatsCount | TN-POC-WEB/src/components/Timeline.tsx:27-36 | a chip's count is the number of records the party wins |
| Timeline.SortedAmong | TN-POC-WEB/src/components/Timeline.tsx:39-43 | exactly the listed parties that won a seat, each once, most seats first |
| Timeline.SortedParties | TN-POC-WEB/src/components/Timeline.tsx:39-43 | exactly the filter-bar parties that won a seat, each once, most seats first |
| Timeline.NoJointTicketChip | TN-POC-WEB/src/components/Timeline.tsx:39-43 | the joint INC+TVK ticket never gets a chip |
| Timeline.ToggleFilter | TN-POC-WEB/src/components/Timeline.tsx:45-51 | a filtered party is removed everywhere, and any other party is appended |
| Timeline.ToggleFlips | TN-POC-WEB/src/components/Timeline.tsx:45-51 | toggling flips the party's membership and no other party's |
| Timeline.ToggleTwice | TN-POC-WEB/src/components/Timeline.tsx:45-51 | toggling twice restores the filter as a set, and exactly when the party was not filtered before |
| Timeline.ClearFilter | TN-POC-WEB/src/components/Timeline.tsx:53 | clearing empties the filter |
| Timeline.ClearLightsAll | TN-POC-WEB/src/components/Timeline.tsx:64 | after clearing, every chip is lit |
| Timeline.ChipMatchesMap | TN-POC-WEB/src/components/Timeline.tsx:64 | without a search, the map dims a party's seat exactly when that party's chip is dark |
| Recommendation.Rate | dashboard/utils/useRecommendation.ts:77-83 | a bloc is rated positive exactly when it reaches the majority mark |
| Recommendation.V8Assessment | dashboard/utils/useRecommendation.ts:110-142 | A and B are rated on their front's seats; INC alone is "caution" exactly from 80 seats and "negative" below |
| Recommendation.AssessAsWritten | dashboard/utils/useRecommendation.ts:39-142 | no scenario is neutral; in scenario E of the 2026 forecast the bloc adds INC's seats a second time |
| Recommendation.Assess | dashboard/utils/useRecommendation.ts:39-142 | no scenario is neutral; each scenario's bloc is counted once and rated on the majority mark |
| Recommendation.NoScenarioIsNeutral | dashboard/utils/useRecommendation.ts:39-41 | without a scenario the assessment is neutral, whatever the data |
| Recommendation.AsWrittenDiffersOnlyInE | dashboard/utils/useRecommendation.ts:99-105 | the hook and the corrected version agree everywhere except scenario E of the 2026 forecast |
| Recommendation.DoubleCountExample | dashboard/utils/useRecommendation.ts:70 | ADMK with 40 seats and INC with 60 are credited as 160 by the hook, against the 100 they hold |
| Recommendation.SeatsWithinTally | dashboard/utils/useRecommendation.ts:46-54 | one party never holds more seats than the tally |
| Recommendation.AdmkFrontWithinTally | dashboard/utils/useRecommendation.ts:113-116 | the ADMK front never holds more seats than the tally |
| Recommendation.AssessWithinTally | dashboard/utils/useRecommendation.ts:56-105 | counted once, no alliance is credited with more seats than the tally holds |
| GenMap.Missing | TN-POC-WEB/scripts/gen_map.cjs:120-121 | exactly the data names without a coordinate |
| GenMap.FirstNearestUnique | TN-POC-WEB/scripts/gen_map.cjs:133-141 | ties go to the first name, so the nearest name is unique |
| GenMap.Nearest | TN-POC-WEB/scripts/gen_map.cjs:133-141 | no name only for an empty name list; otherwise the first nearest name |
| GenMap.GatherStep | TN-POC-WEB/scripts/gen_map.cjs:142 | a grid point joins the list of its nearest name, unless that name is empty, and no other list changes |
| GenMap.OwnersStep | TN-POC-WEB/scripts/gen_map.cjs:133-141 | giving the next grid point its first nearest name keeps every earlier owner right |
| GenMap.Assign | TN-POC-WEB/scripts/gen_map.cjs:131-143 | every grid point goes to its first nearest name, and each name's cell holds its points in grid order |
| GenMap.LexLessOrder | TN-POC-WEB/scripts/gen_map.cjs:148 | the (x, y) comparator is a strict order |
| GenMap.SortPoints | TN-POC-WEB/scripts/gen_map.cjs:148 | the sorted points are a permutation of the input in (x, y) order |
| GenMap.PopWhilePrefix | TN-POC-WEB/scripts/gen_map.cjs:151-153 | popping leaves a prefix of the chain whose last two points turn towards the new point |
| GenMap.PrefixTurns | TN-POC-WEB/scripts/gen_map.cjs:150-154 | a prefix of a chain keeps the turn test |
| GenMap.PushTurns | TN-POC-WEB/scripts/gen_map.cjs:150-154 | pushing a point that passes the test keeps the chain turning |
| GenMap.ChainTurns | TN-POC-WEB/scripts/gen_map.cjs:150-159 | every consecutive triple of a chain passes the turn test |
| GenMap.ChainMembers | TN-POC-WEB/scripts/gen_map.cjs:150-159 | every chain point is an input point |
| GenMap.ChainEnds | TN-POC-WEB/scripts/gen_map.cjs:150-159 | a chain starts with the first input and ends with the last |
| GenMap.Reverse | TN-POC-WEB/scripts/gen_map.cjs:155 | the upper pass visits the points in the opposite order |
| GenMap.Hull | TN-POC-WEB/scripts/gen_map.cjs:150-161 | the hull of three or more sorted points has at least two points |
| GenMap.ConvexHull | TN-POC-WEB/scripts/gen_map.cjs:146-162 | fewer than three points come back as they are; otherwise the chains of the sorted points |
| GenMap.HullChainEnds | TN-POC-WEB/scripts/gen_map.cjs:150-161 | the lower chain runs from the least point to the greatest, and the upper chain back again |
| GenMap.HullChainsTurnLeft | TN-POC-WEB/scripts/gen_map.cjs:149-159 | both chains turn strictly left at every point |
| GenMap.HullPointsFromChains | TN-POC-WEB/scripts/gen_map.cjs:160-161 | every hull point is a sorted input point |
| GenMap.HullMembers | TN-POC-WEB/scripts/gen_map.cjs:146-162 | every hull point is an input point |
| GenMap.Pop | TN-POC-WEB/scripts/gen_map.cjs:151-158 | the inner loop drops points exactly as the chain definition does |
| GenMap.LowerChain | TN-POC-WEB/scripts/gen_map.cjs:150-154 | the script's loop computes the lower chain |
| GenMap.UpperChain | TN-POC-WEB/scripts/gen_map.cjs:155-159 | the script's loop computes the upper chain |
| GenMap.ConvexHullLoops | TN-POC-WEB/scripts/gen_map.cjs:146-162 | the script's loops compute the hull |
| GenMap.RingAsWritten | TN-POC-WEB/scripts/gen_map.cjs:167-176 | the ring as written is closed but may have only three positions |
| GenMap.CollinearSorted | TN-POC-WEB/scripts/gen_map.cjs:148 | the three collinear points are already in order |
| GenMap.CollinearLower | TN-POC-WEB/scripts/gen_map.cjs:150-154 | the lower chain of three collinear points keeps only the two ends |
| GenMap.CollinearUpper | TN-POC-WEB/scripts/gen_map.cjs:155-159 | the upper chain keeps only the two ends too |
| GenMap.ChainOfThree | TN-POC-WEB/scripts/gen_map.cjs:150-159 | a chain of three points whose middle one fails the turn test is the two end points |
| GenMap.HullOfThree | TN-POC-WEB/scripts/gen_map.cjs:150-161 | three sorted points with no left turn either way have a hull of just the two ends |
| GenMap.CollinearHull | TN-POC-WEB/scripts/gen_map.cjs:146-162 | the hull of three collinear points has two points |
| GenMap.CollinearRingAsWritten | TN-POC-WEB/scripts/gen_map.cjs:167-176 | the script writes a three-position ring for three collinear points |
| GenMap.Ring | TN-POC-WEB/scripts/gen_map.cjs:167-176 | a closed ring of at least four positions, using only cell or fallback points |
| GenMap.CollinearRing | TN-POC-WEB/scripts/gen_map.cjs:167-172 | the corrected ring uses the fallback for a collinear cell |
| GenMap.Features | TN-POC-WEB/scripts/gen_map.cjs:164-182 | one feature per name, in name order, with the centroid written as `[lng, lat]` and the ring of the name's cell under the chosen rule: always closed, and of at least four positions under the corrected rule |
| GenMap.Build | TN-POC-WEB/scripts/gen_map.cjs:127-182 | with every coordinate present, every grid point goes to its first nearest name and each name's feature, in name order, has the ring of exactly the points it owns: closed under the script's rule, and of at least four positions under the corrected one |
| GenMap.GenerateMap | TN-POC-WEB/scripts/gen_map.cjs:119-182 | the script, run with the `AsWritten` rule, aborts exactly when a name lacks a coordinate, and then lists exactly those names; otherwise one feature per name with a closed ring, of at least four positions under the corrected rule |
| ExtractMap.StateOf | TN-POC-WEB/scripts/extract_tn_map.cjs:41-45 | the first truthy state attribute, and empty only when none is set |
| ExtractMap.TamilNaduIff | TN-POC-WEB/scripts/extract_tn_map.cjs:41-45 | a feature is kept exactly when its lower-cased state contains "tamil" or "tn"; a feature without a state is dropped |
| ExtractMap.TamilNaduRecognised | TN-POC-WEB/scripts/extract_tn_map.cjs:41-45 | "Tamil Nadu" in any case in the first state attribute is recognised |
| ExtractMap.KeepLetters | TN-POC-WEB/scripts/extract_tn_map.cjs:141 | only the letters a-z remain |
| ExtractMap.NormalizeName | TN-POC-WEB/scripts/extract_tn_map.cjs:141 | a normalized name holds only the letters a-z |
| ExtractMap.NormalizeNameIsLowerThenLetters | TN-POC-WEB/scripts/extract_tn_map.cjs:141 | the one-pass form is the script's lower-case-then-strip |
| ExtractMap.NormalizeNameIdempotent | TN-POC-WEB/scripts/extract_tn_map.cjs:141 | normalizing twice is normalizing once |
| ExtractMap.LettersNormalized | TN-POC-WEB/scripts/extract_tn_map.cjs:141 | a string of letters a-z normalizes to itself |
| ExtractMap.Find | TN-POC-WEB/scripts/extract_tn_map.cjs:159-169 | `find` fails exactly when no element passes, and otherwise returns an element that passes |
| ExtractMap.FindShift | TN-POC-WEB/scripts/extract_tn_map.cjs:159-169 | the same for the search that starts one element further on |
| ExtractMap.FindListed | TN-POC-WEB/scripts/extract_tn_map.cjs:159-169 | a hit is a listed name |
| ExtractMap.CascadeListed | TN-POC-WEB/scripts/extract_tn_map.cjs:158-169 | a hit of the cascade is a non-empty listed name |
| ExtractMap.CascadeNoneIff | TN-POC-WEB/scripts/extract_tn_map.cjs:158-169 | with nested tests and no empty name, the cascade fails exactly when the widest test fails everywhere |
| ExtractMap.CascadeFirst | TN-POC-WEB/scripts/extract_tn_map.cjs:159 | the first name the first test accepts wins |
| ExtractMap.CascadeSecond | TN-POC-WEB/scripts/extract_tn_map.cjs:162-164 | with no hit for the first test, the first name the second accepts wins |
| ExtractMap.Match | TN-POC-WEB/scripts/extract_tn_map.cjs:150-169 | a non-empty manual entry wins; any other hit is a non-empty listed name |
| ExtractMap.StartsWithIncludes | TN-POC-WEB/scripts/extract_tn_map.cjs:162-169 | a prefix is contained |
| ExtractMap.TestsNest | TN-POC-WEB/scripts/extract_tn_map.cjs:159-169 | the exact test implies the prefix test, and the prefix test implies the containment test |
| ExtractMap.UnmatchedIff | TN-POC-WEB/scripts/extract_tn_map.cjs:150-169 | without a manual entry, a name is unmatched exactly when no listed name is contained either way |
| ExtractMap.ExactMatchWins | TN-POC-WEB/scripts/extract_tn_map.cjs:159 | an exact normalized match, when there is one, is the first such name |
| ExtractMap.LetterlessNameCaptures | TN-POC-WEB/scripts/extract_tn_map.cjs:162-164 | a listed name with no letters is a prefix of everything, so it captures every unmatched name |
| ExtractMap.BuildNameMap | TN-POC-WEB/scripts/extract_tn_map.cjs:143-178 | every feature's name gets an entry: its match or itself; the counts split the features into matched and unmatched |
| ExtractMap.NameMapLoop | TN-POC-WEB/scripts/extract_tn_map.cjs:143-178 | for any matcher: the map's keys are exactly the features' names, each mapped to its match or to itself, and the matched count is the number of features whose name matches |
| ExtractMap.HitCountStep | TN-POC-WEB/scripts/extract_tn_map.cjs:171-177 | one more feature adds one to the matched count exactly when its name matches |
| ExtractMap.NameMapStep | TN-POC-WEB/scripts/extract_tn_map.cjs:171-177 | recording one more feature keeps the map's keys and values right |
| ExtractMap.TruthyNum | TN-POC-WEB/scripts/extract_tn_map.cjs:211 | a number attribute is truthy exactly when present and non-zero |
| ExtractMap.Output | TN-POC-WEB/scripts/extract_tn_map.cjs:204-215 | the written name is the mapped one, or the original when the entry is empty; the shapefile name and geometry are kept; the number is `AC_NO` when it is present and non-zero, else `ac_no` when that is, else none |
| ExtractMap.Extract | TN-POC-WEB/scripts/extract_tn_map.cjs:41-215 | no output exactly when no feature is in Tamil Nadu; otherwise one written feature per Tamil Nadu feature, in order, with its matched name, its number and its geometry |
| ExtractMap.ExtractTamilNadu | TN-POC-WEB/scripts/extract_tn_map.cjs:105-151 | run with the script's own manual table, every Tamil Nadu feature named in the table is written under the table's name |
| ExtractMap.ManualEntriesWin | TN-POC-WEB/scripts/extract_tn_map.cjs:105-151 | a shapefile name in the manual table is matched to its entry, whatever the data's names |
| ExtractMap.ExtractWith | TN-POC-WEB/scripts/extract_tn_map.cjs:41-215 | the same, for any state test and any matcher: each written feature carries its matched name, its number (`AC_NO`, else `ac_no`, when non-zero) and its geometry |
| FixNames.DuplicateFix | TN-POC-WEB/scripts/fix_names.cjs:35-56 | number 140 is western Tiruchirappalli and every other number the eastern one; Tiruppattur is renamed only for number 185 |
| FixNames.FixName | TN-POC-WEB/scripts/fix_names.cjs:43-64 | a shared name is resolved by number, else a listed spelling is renamed, else the name is kept; each is counted as such |
| FixNames.FixFeature | TN-POC-WEB/scripts/fix_names.cjs:43-64 | only the name changes |
| FixNames.FixAll | TN-POC-WEB/scripts/fix_names.cjs:43-64 | every feature is fixed in place, and the two counters count the renamed and number-fixed features |
| FixNames.FixLoop | TN-POC-WEB/scripts/fix_names.cjs:43-64 | for any per-name fix: each feature keeps everything but its name, which becomes the fixed one, and each counter counts the features given that kind of change |
| FixNames.ChangeCountStep | TN-POC-WEB/scripts/fix_names.cjs:48-62 | one more feature adds one to a counter exactly when its fix is of that kind |
| FixNames.RenamedNamesAreFinal | TN-POC-WEB/scripts/fix_names.cjs:12-29 | no replacement spelling is itself a shared name or a listed spelling |
| FixNames.FixNameIdempotent | TN-POC-WEB/scripts/fix_names.cjs:12-64 | a fixed name is kept by a second pass |
| FixNames.FixAllIdempotent | TN-POC-WEB/scripts/fix_names.cjs:43-64 | running the pass on its own output keeps every feature and counts no change |
| FixNames.KnownFixes | TN-POC-WEB/scripts/fix_names.cjs:12-56 | the two shared names and a few other names, case by case |
| FixNames.Flatten | TN-POC-WEB/scripts/fix_names.cjs:70 | the data names are the names of all years together |
| FixNames.Names | TN-POC-WEB/scripts/fix_names.cjs:71 | the map's names, one per feature, in order |
| FixNames.OnlyIn | TN-POC-WEB/scripts/fix_names.cjs:73-74 | exactly the names of one side missing from the other, each once, in increasing order |
| FixNames.Verify | TN-POC-WEB/scripts/fix_names.cjs:69-74 | the two lists hold exactly the map-only and the data-only names, each once |
| FixNames.MismatchDisjoint | TN-POC-WEB/scripts/fix_names.cjs:69-74 | the two lists never share a name |
| FixNames.MismatchEmptyIff | TN-POC-WEB/scripts/fix_names.cjs:69-74 | both lists are empty exactly when the two sides have the same names |
| EmailFormat.ValidMatches | TN-POC-WEB/src/components/AdminPanel.tsx:92 | every address the validator accepts matches the regular expression |
| EmailFormat.MatchesValid | TN-POC-WEB/src/components/AdminPanel.tsx:92 | every address that matches the regular expression is accepted |
| EmailFormat.ValidEmailIff | dashboard/components/AccessGate.tsx:53 | the validator accepts exactly the language of the regular expression |
| EmailFormat.EmailExamples | dashboard/components/AccessGate.tsx:53 | "a@b.co" is accepted; a missing part, whitespace or a second `@` is refused |
| EmailFormat.MissingPartExamples | dashboard/components/AccessGate.tsx:53 | an address without a local part, a domain label or a dot in the domain is refused |
| EmailFormat.StrayCharacterExamples | dashboard/components/AccessGate.tsx:53 | an address with whitespace or a second `@` is refused |
| AuthStore.ParseCsv | TN-POC-WEB/src/auth/authStore.ts:72-75 | exactly the trimmed, lower-cased lines that are non-empty and contain an `@` |
| AuthStore.ParsedNormalized | TN-POC-WEB/src/auth/authStore.ts:72-75 | every loaded address is already trimmed and lower-cased |
| AuthStore.LoadCsv | TN-POC-WEB/src/auth/authStore.ts:66-80 | the cached list when there is one; else the parsed fetch, or an empty list when the fetch fails; the result is cached |
| AuthStore.LoadCsvCached | TN-POC-WEB/src/auth/authStore.ts:66-80 | once loaded, the CSV list never changes, whatever later fetches return |
| AuthStore.ListsLowerIff | TN-POC-WEB/src/auth/authStore.ts:107-109 | an address is listed exactly when some entry lower-cases to it |
| AuthStore.MergeAllowed | TN-POC-WEB/src/auth/authStore.ts:103-110 | the whitelist holds each lower-cased CSV or local address exactly once |
| AuthStore.AllowedEmails | TN-POC-WEB/src/auth/authStore.ts:103-110 | the whitelist merges the loaded CSV list and the local list |
| AuthStore.IsEmailAllowed | TN-POC-WEB/src/auth/authStore.ts:113-117 | an address is allowed exactly when its trimmed, lower-cased form is in either list |
| AuthStore.IsCsvEmail | TN-POC-WEB/src/auth/authStore.ts:120-123 | an address is a CSV address exactly when its normalized form was loaded |
| AuthStore.CsvEmailAllowed | TN-POC-WEB/src/auth/authStore.ts:113-123 | a CSV address is allowed however it is typed |
| AuthStore.AddAllowedEmail | TN-POC-WEB/src/auth/authStore.ts:125-133 | an empty or already-listed address is refused and changes nothing; otherwise it is appended, normalized |
| AuthStore.RemoveAllowedEmail | TN-POC-WEB/src/auth/authStore.ts:135-142 | removal succeeds exactly when the address is listed locally, and then drops every entry equal to it in any case |
| AuthStore.AddThenAllowed | TN-POC-WEB/src/auth/authStore.ts:113-133 | an address that was added is allowed from then on |
| AuthStore.RemoveRevokesLocal | TN-POC-WEB/src/auth/authStore.ts:135-142 | after removal the address is no longer listed locally |
| AuthStore.SeedIfNeeded | TN-POC-WEB/src/auth/authStore.ts:84-93 | the first visit installs the one seed admin and an empty local list; later visits change nothing |
| AuthStore.SeedIdempotent | TN-POC-WEB/src/auth/authStore.ts:84-93 | seeding twice is seeding once |
| AuthStore.AddAdmin | TN-POC-WEB/src/auth/authStore.ts:172-181 | an empty address or password, or an address already an admin's, is refused and changes nothing; otherwise the account is appended |
| AuthStore.AddAdminKeepsDistinct | TN-POC-WEB/src/auth/authStore.ts:172-181 | adding an admin keeps the addresses distinct |
| AuthStore.RemoveAdmin | TN-POC-WEB/src/auth/authStore.ts:183-191 | removal succeeds exactly when there are at least two admins and one has the address, and then drops that address |
| AuthStore.RemoveAdminKeepsOne | TN-POC-WEB/src/auth/authStore.ts:183-191 | with distinct addresses, removal always leaves at least one admin |
| AuthStore.RemoveAdminNeedsDistinct | TN-POC-WEB/src/auth/authStore.ts:183-191 | a store of two admins whose addresses both lower-case to the removed address loses both, leaving none |
| AuthStore.AdminLogin | TN-POC-WEB/src/auth/authStore.ts:150-162 | login succeeds exactly for an admin's address and matching password hash, and only then sets the session |
| AuthStore.SeededAdminLogsIn | TN-POC-WEB/src/auth/authStore.ts:84-162 | the seed account logs in with its password, typed in any case and with spaces around it |
| AuthStore.SetUserSession | TN-POC-WEB/src/auth/authStore.ts:199-201 | the user session becomes the normalized address, and nothing else changes |
| AuthStore.ClearAdminSession | TN-POC-WEB/src/auth/authStore.ts:168-170 | the admin session is cleared, and nothing else changes |
| AdminPanel.Open | TN-POC-WEB/src/components/AdminPanel.tsx:56-69 | the panel opens on the store's admins and the signed-in admin, listing the whitelist |
| AdminPanel.AddEmail | TN-POC-WEB/src/components/AdminPanel.tsx:88-108 | an address is added exactly when it is non-empty, well formed and accepted by the store; otherwise nothing changes |
| AdminPanel.AddedEmailPassesGate | TN-POC-WEB/src/components/AdminPanel.tsx:88-108 | an address the panel adds is let through from then on |
| AdminPanel.RemoveEmail | TN-POC-WEB/src/components/AdminPanel.tsx:110-115 | a row leaves the list only when the store dropped the address |
| AdminPanel.AddAdminAccount | TN-POC-WEB/src/components/AdminPanel.tsx:119-148 | an admin is added exactly when both fields are set, the address is well formed, the password has at least four characters and the store accepts it |
| AdminPanel.AddedAdminLogsIn | TN-POC-WEB/src/components/AdminPanel.tsx:119-148 | a newly added admin can sign in with the chosen password |
| AdminPanel.RemoveAdminAccount | TN-POC-WEB/src/components/AdminPanel.tsx:150-161 | an admin cannot remove their own account; any other removal goes to the store |
| AdminPanel.RemoveKeepsAnAdmin | TN-POC-WEB/src/components/AdminPanel.tsx:150-161 | after a removal through the panel, at least one admin remains and the addresses stay distinct |
| AdminPanel.SelfNeverRemoved | TN-POC-WEB/src/components/AdminPanel.tsx:150-161 | the signed-in admin's own account survives any removal through the panel |
| AccessGate.Mount | dashboard/components/AccessGate.tsx:24-42 | after seeding, an admin session or an allowed user session opens the gate; the form is untouched |
| AccessGate.Submit | dashboard/components/AccessGate.tsx:44-67 | an empty or malformed address shows an error; an allowed one opens the gate and records the session |
| AccessGate.Input | dashboard/components/AccessGate.tsx:121-124 | typing sets the field and clears any error |
| AccessGate.SessionSurvivesRemount | dashboard/components/AccessGate.tsx:24-67 | within one page, a granted address stays granted when the gate mounts again, the CSV list being cached in memory |
| AccessGate.SessionSurvivesReload | dashboard/components/AccessGate.tsx:24-67 | after a page reload, a granted address is let in again when the local list holds it or the new CSV fetch lists it |
| AccessGate.ReloadCanLoseCsvGrant | TN-POC-WEB/src/auth/authStore.ts:60-80 | an address granted on the cached CSV alone is shut out after a reload whose fetch fails |
| AuthStore.Reload | TN-POC-WEB/src/auth/authStore.ts:60 | a reload forgets the in-memory CSV cache and keeps everything in browser storage |
| AccessGate.SubmitNeedsValidEmail | dashboard/components/AccessGate.tsx:44-67 | the gate never opens on a malformed address, and an opened gate records the normalized address |
| JsString.TrimShape | TN-POC-WEB/src/auth/authStore.ts:114 | trimming keeps a contiguous piece of the input with non-whitespace ends, dropping only whitespace |
| JsString.TrimIdempotent | TN-POC-WEB/src/auth/authStore.ts:114 | trimming twice is trimming once |
| JsString.ToLowerProperties | TN-POC-WEB/src/auth/authStore.ts:114 | lower-casing leaves no capital, is idempotent, and changes nothing without capitals |
| JsString.TrimCommutesWithLower | TN-POC-WEB/src/auth/authStore.ts:114 | trimming and lower-casing commute |
| JsString.NormalizeIdempotent | TN-POC-WEB/src/auth/authStore.ts:114 | normalizing a normalized address changes nothing |
| JsString.IncludesIff | dashboard/components/MapVisualization.tsx:135 | `includes` holds exactly when the substring occurs at some offset |
| JsString.SplitJoin | TN-POC-WEB/src/auth/authStore.ts:73 | joining the pieces of a split restores the text |
| SeqUtil.Dedup | TN-POC-WEB/src/auth/authStore.ts:107-109 | each input value exactly once, and nothing else |
| SeqUtil.RemoveAll | TN-POC-WEB/src/components/AllianceBuilder.tsx:71 | every occurrence of the value goes, and everything else stays |
| SeqUtil.FilterSubsequence | dashboard/data/realData.ts:211-219 | filtering keeps the surviving elements in their order |
| SeqUtil.SubsequenceWithin | dashboard/data/realData.ts:211-219 | an in-order selection of passing elements is no longer than the filter, and as long only when it is the filter |
| SeqUtil.FilterMultiplicity | dashboard/data/realData.ts:225-229 | a filter keeps every copy of a passing value and no copy of a failing one |
| SeqUtil.FilterCountsHits | TN-POC-WEB/src/components/AllianceBuilder.tsx:53-56 | the length of a filtered list is the number of positions whose element passes the test |
| Sorting.Sort | TN-POC-WEB/src/components/AnalyticsPanel.tsx:58 | a permutation of the input in which no element comes after one it must precede |
| Sorting.SortSorted | TN-POC-WEB/scripts/gen_map.cjs:148 | a list already in order comes back unchanged |
| Sorting.InsertKeepsTies | TN-POC-WEB/src/components/AnalyticsPanel.tsx:58 | an inserted element lands after every element it ties with |
| Sorting.SortStable | TN-POC-WEB/src/components/AnalyticsPanel.tsx:58 | under a strict weak order, the elements tied with any one element come out in their input order |
| Analytics.ChartDataStable | TN-POC-WEB/src/components/AnalyticsPanel.tsx:52-58 | chart rows with the same simulated seat count keep their row order |
| Analytics.SwingConstituenciesStable | TN-POC-WEB/src/components/AnalyticsPanel.tsx:98-104 | rows with equally close margins keep the record order |
| Timeline.SortedAmongStable | TN-POC-WEB/src/components/Timeline.tsx:39-43 | parties with the same seat count keep the order of the party list |
| StringOrder.LessOrder | TN-POC-WEB/scripts/fix_names.cjs:73-74 | the default string order is a strict order |
| StringOrder.SortStrings | TN-POC-WEB/scripts/fix_names.cjs:73-74 | a sorted permutation of the names |
| StringOrder.SortDistinct | TN-POC-WEB/scripts/fix_names.cjs:73-74 | a list without duplicates sorts into strictly increasing order |

## Left out

- Rendering: React components, D3 drawing, Recharts charts, CSS and layout are
  not modelled. Only the values they display and the state they keep are.
- Browser and network: `fetch`, `localStorage`, `sessionStorage` and SHA-256 are
  outside the model. A fetch result is an `Option<string>` parameter, the
  stored data is a `Store` value, and the hash is a function parameter.
- Console output, toasts, timers and `async` sequencing are left out, and so are
  the loading spinners of the admin and analytics panels. They change no value the
  model describes. The access gate's loading flag is modelled.
- The seed admin's address and password are parameters, not constants of the
  model.
- GenMap.Assign: the grid, the cosine weight of the distance and the
  16-point circular fallback ring are parameters, because they are computed with
  floating point. `toFixed(4)` rounding of the written coordinates is not
  modelled.
- GenMap.GenerateMap: the `fs` reads and writes and the process exit are
  reduced to the `Aborted`/`Generated` result.
- ExtractMap.Extract: the shapefile reader and the choice among the
  name-attribute spellings are not modelled. A feature arrives with its name
  already picked. The manual name table is written out as `ManualMap`; `Extract`
  takes any table, and `ExtractTamilNadu` runs it with `ManualMap`.
- ExtractMap.Extract: the script reads the data names of every year from
  `realData`. Here they arrive as a list.
- FixNames.Verify: the per-year name lists arrive already extracted from the
  data file.
- The `dashboard` copy of the access gate imports `../auth/authStore`, and
  dashboard/auth/authStore.ts is not part of this model. The gate is modelled over
  the `TN-POC-WEB` store, whose functions it calls by the same names.
- JavaScript object prototype keys (`constructor`, `__proto__`) are not
  modelled as tally or lookup keys.
- Strings are sequences of Unicode code points, not UTF-16 code units.
  `toLowerCase` is modelled for ASCII letters only.
- The `avgConfidence` figure of the analytics panel divides by the number of
  records and is NaN for an empty list. Floating-point NaN is not modelled, so
  the figure is left out.
- Corrupt JSON in storage (`JSON.parse` throwing) is not modelled; stored
  values are well-formed.
- The mock data sets and `generate_map.cjs` are not part of this model.
- AuthStore.RemoveAdminKeepsOne: requires that no two admins share an address
  ignoring case. This is what `addAdmin` keeps. AuthStore.RemoveAdminNeedsDistinct
  shows the guarantee fails without it.
- AdminPanel.SelfNeverRemoved: requires that the address being removed carry no
  surrounding whitespace. This holds for the panel's rows, which show stored
  addresses. A padded address is trimmed by `removeAdmin` but not by the
  panel's self-check, and that case is not covered.

## Findings

| source | as written | input that shows it | evidently intended | confidence | as-written member | corrected member |
|---|---|---|---|---|---|---|
| dashboard/utils/useRecommendation.ts:70,99-105 | in scenario E of the 2026 forecast, the ADMK bloc already includes INC and the assessment adds INC's seats again | a tally with ADMK 40 seats and INC 60: the bloc is credited 160 seats and rated positive, while the bloc holds 100 | INC's seats counted once, so no bloc exceeds the tally | not executed | Recommendation.AssessAsWritten, Recommendation.DoubleCountExample | Recommendation.Assess, Recommendation.AssessWithinTally |
| TN-POC-WEB/scripts/gen_map.cjs:167,174-176 | the fallback ring is used only for cells with fewer than three points, so three collinear points give a two-point hull and a closed ring of three positions | the cell (0,0), (1,0), (2,0): the ring is (0,0), (2,0), (0,0) | every ring a linear ring of at least four positions, as section 3.1.6 of RFC 7946 requires | not executed | GenMap.RingAsWritten, GenMap.CollinearRingAsWritten | GenMap.Ring, GenMap.CollinearRing |

=== FILE: accessgate.dfy ===
/**
  The access gate in front of the dashboard: on mount it seeds the store and lets an
  existing session through; on submit it checks an address and, when the whitelist
  holds it, opens a user session.
 */
module AccessGate {
  import opened Optional
  import opened JsString
  import opened EmailFormat
  import opened AuthStore

  datatype GateError = EmptyEmail | InvalidEmail | AccessDenied

  datatype Gate = Gate(ready: bool, authenticated: bool, email: string, error: Option<GateError>, loading: bool)

  const Initial := Gate(false, false, "", None, false)

  datatype GateStep = GateStep(store: Store, gate: Gate)

  /** The seeding account and the password hash, which the gate passes to the store. */
  datatype Seed = Seed(email: string, password: string, hash: string -> string)

  /** The mount effect: after seeding, an admin session (a non-empty one) lets the visitor
      in whatever the user session holds; otherwise a non-empty user session does, if its
      address is still allowed. The gate is ready either way. */
  function Mount(s: Store, fetched: Option<string>, seed: Seed, g: Gate): (r: GateStep)
    ensures var t := SeedIfNeeded(s, seed.email, seed.password, seed.hash);
            && r.gate.ready
            && (Truthy(t.adminSession).Some? ==> r == GateStep(t, g.(authenticated := true, ready := true)))
            && (Truthy(t.adminSession).None? ==>
                 (r.gate.authenticated <==>
                    (g.authenticated
                     || (Truthy(t.userSession).Some? && IsEmailAllowed(t, fetched, t.userSession.value).ok))))
    ensures r.gate.(ready := g.ready, authenticated := g.authenticated) == g
  {
    var t := SeedIfNeeded(s, seed.email, seed.password, seed.hash);
    if Truthy(t.adminSession).Some? then GateStep(t, g.(authenticated := true, ready := true))
    else if Truthy(t.userSession).Some? then
      var allowed := IsEmailAllowed(t, fetched, t.userSession.value);
      if allowed.ok then GateStep(allowed.store, g.(authenticated := true, ready := true))
      else GateStep(allowed.store, g.(ready := true))
    else GateStep(t, g.(ready := true))
  }

  /** `handleSubmit`: the error is cleared first; an empty address, then a malformed one,
      is refused before the whitelist is consulted. An allowed address opens a user
      session under its trimmed, lower-cased form; any other is denied. Loading is off
      after every submit that reaches the whitelist. */
  function Submit(s: Store, fetched: Option<string>, g: Gate): (r: GateStep)
    ensures var n := Normalize(g.email);
            && (n == "" ==> r == GateStep(s, g.(error := Some(EmptyEmail))))
            && (n != "" && !ValidEmail(n) ==> r == GateStep(s, g.(error := Some(InvalidEmail))))
            && (n != "" && ValidEmail(n) ==>
                 var allowed := IsEmailAllowed(s, fetched, n);
                 !r.gate.loading
                 && (allowed.ok ==> r == GateStep(SetUserSession(allowed.store, n),
                                                  g.(error := None, authenticated := true, loading := false)))
                 && (!allowed.ok ==> r == GateStep(allowed.store, g.(error := Some(AccessDenied), loading := false))))
    ensures r.gate.email == g.email
  {
    var n := Normalize(g.email);
    var cleared := g.(error := None);
    if n == "" then GateStep(s, cleared.(error := Some(EmptyEmail)))
    else if !ValidEmail(n) then GateStep(s, cleared.(error := Some(InvalidEmail)))
    else
      var allowed := IsEmailAllowed(s, fetched, n);
      if allowed.ok then GateStep(SetUserSession(allowed.store, n), cleared.(authenticated := true, loading := false))
      else GateStep(allowed.store, cleared.(error := Some(AccessDenied), loading := false))
  }

  /** Typing clears any error. */
  function Input(g: Gate, value: string): (r: Gate)
    ensures r.email == value && r.error.None?
    ensures r.(email := g.email, error := g.error) == g
  {
    g.(email := value, error := None)
  }

  /** Within one page, a granted address stays granted: after a successful submit, a
      later mount of the gate lets the visitor straight in on the stored session, because
      the CSV list stays cached in memory. */
  lemma SessionSurvivesRemount(s: Store, fetched: Option<string>, later: Option<string>, seed: Seed, g: Gate, h: Gate)
    requires s.seeded
    requires Submit(s, fetched, g).gate.authenticated && !g.authenticated
    ensures Mount(Submit(s, fetched, g).store, later, seed, h).gate.authenticated
  {
    var n := Normalize(g.email);
    var allowed := IsEmailAllowed(s, fetched, n);
    var t := Submit(s, fetched, g).store;
    NormalizeIdempotent(g.email);
    assert t == SetUserSession(allowed.store, n);
    assert t.seeded && SeedIfNeeded(t, seed.email, seed.password, seed.hash) == t;
    if Truthy(t.adminSession).None? {
      assert t.userSession == Some(n);
      LoadCsvCached(s, fetched, later);
      assert LoadCsv(t, later).emails == LoadCsv(s, fetched).emails;
      assert IsEmailAllowed(t, later, n).ok;
    }
  }

  /** After a page reload the CSV is fetched again, so the stored session lets the
      visitor in when the local list holds the address or the new fetch lists it. */
  lemma SessionSurvivesReload(s: Store, fetched: Option<string>, later: Option<string>, seed: Seed, g: Gate, h: Gate)
    requires s.seeded
    requires Submit(s, fetched, g).gate.authenticated && !g.authenticated
    requires ListsLower(s.localEmails, Normalize(g.email))
             || (later.Some? && Normalize(g.email) in ParseCsv(later.value))
    ensures Mount(Reload(Submit(s, fetched, g).store), later, seed, h).gate.authenticated
  {
    var n := Normalize(g.email);
    var allowed := IsEmailAllowed(s, fetched, n);
    var t := Reload(Submit(s, fetched, g).store);
    NormalizeIdempotent(g.email);
    assert t == Reload(SetUserSession(allowed.store, n));
    assert t.seeded && SeedIfNeeded(t, seed.email, seed.password, seed.hash) == t;
    if Truthy(t.adminSession).None? {
      assert t.userSession == Some(n) && t.localEmails == s.localEmails;
      if !ListsLower(s.localEmails, n) {
        CsvEmailAllowed(t, later, n);
      }
      assert IsEmailAllowed(t, later, n).ok;
    }
  }

  /** A grant that rests on the CSV alone does not survive a reload whose fetch fails:
      with the CSV list already cached in the page, the address is let in on submit, and
      the gate stays shut on the next page. */
  lemma ReloadCanLoseCsvGrant(seed: Seed)
    ensures var s := Store(Some(["a@b.co"]), [], [], None, None, true);
            var g := Gate(true, false, "a@b.co", None, false);
            && Submit(s, None, g).gate.authenticated
            && !Mount(Reload(Submit(s, None, g).store), None, seed, Initial).gate.authenticated
  {
    var s := Store(Some(["a@b.co"]), [], [], None, None, true);
    var g := Gate(true, false, "a@b.co", None, false);
    EmailExamples();
    ExampleNormalized();
    CsvEmailAllowed(s, None, "a@b.co");
    assert Submit(s, None, g).gate.authenticated;
    var t := Reload(Submit(s, None, g).store);
    assert t.localEmails == [] && t.adminSession.None? && t.seeded;
    assert !IsEmailAllowed(t, None, "a@b.co").ok;
  }

  lemma ExampleNormalized()
    ensures Normalize("a@b.co") == "a@b.co"
  {
    var e := "a@b.co";
    assert !IsWhitespace(e[0]) && !IsWhitespace(e[|e| - 1]);
    assert TrimStart(e) == e && TrimEnd(e) == e;
    assert HasNoUpper(e);
    ToLowerProperties(e);
  }

  /** The gate never opens on a malformed address. */
  lemma SubmitNeedsValidEmail(s: Store, fetched: Option<string>, g: Gate)
    requires !g.authenticated
    requires Submit(s, fetched, g).gate.authenticated
    ensures ValidEmail(Normalize(g.email))
    ensures Submit(s, fetched, g).store.userSession == Some(Normalize(g.email))
  {
    NormalizeIdempotent(g.email);
  }
}

=== FILE: adminpanel.dfy ===
/**
  The admin panel's handlers: adding and removing allowed addresses and admin accounts.
  Each handler checks its input in a fixed order, calls the store only once every check
  has passed, and reports the outcome as a notice (the panel's toast).
 */
module AdminPanel {
  import opened Optional
  import opened SeqUtil
  import opened JsString
  import opened EmailFormat
  import opened AuthStore

  /** A row of the address list; addresses from the CSV file cannot be removed. */
  datatype EmailEntry = EmailEntry(email: string, fromCsv: bool)

  datatype Panel = Panel(
    entries: seq<EmailEntry>,
    admins: seq<Admin>,
    adminEmail: string,          // the signed-in admin, `""` when none
    newEmail: string,
    newAdminEmail: string,
    newAdminPassword: string,
    newAdminPasswordConfirm: string)

  /** The toast a handler shows; `Silent` when it shows none. */
  datatype Notice =
    | Silent
    | InvalidFormat          // "Invalid email format."
    | AlreadyAuthorized      // "Email already authorized."
    | AlreadyExists          // "Email already exists."
    | EmailAdded
    | EmailRemoved
    | FieldsRequired         // "Email and password are required."
    | PasswordTooShort       // "Password must be at least 4 characters."
    | PasswordsDiffer        // "Passwords do not match."
    | AdminExists            // "Admin already exists."
    | AdminAdded
    | CannotRemoveSelf       // "You can't remove yourself."
    | LastAdmin              // "Cannot remove — at least one admin is required."
    | AdminRemoved

  datatype Step = Step(store: Store, panel: Panel, notice: Notice)

  /** One row per address, marked when the store counts it as a CSV address. */
  function Rows(emails: seq<string>, s: Store, fetched: Option<string>): (rows: seq<EmailEntry>)
    ensures |rows| == |emails|
    ensures forall k :: 0 <= k < |emails| ==>
              rows[k].email == emails[k] && (rows[k].fromCsv <==> Normalize(emails[k]) in LoadCsv(s, fetched).emails)
  {
    seq(|emails|, k requires 0 <= k < |emails| => EmailEntry(emails[k], IsCsvEmail(s, fetched, emails[k]).ok))
  }

  /** The panel as it opens: the store's admins, the signed-in admin (or `""`), empty
      forms, and one row per allowed address, marked when it comes from the CSV. */
  function Open(s: Store, fetched: Option<string>): (r: Step)
    ensures r.store == LoadCsv(s, fetched).store && r.notice == Silent
    ensures r.panel.admins == s.admins && r.panel.adminEmail == s.adminSession.GetOr("")
    ensures var allowed := AllowedEmails(s, fetched).emails;
            |r.panel.entries| == |allowed|
            && forall k :: 0 <= k < |allowed| ==>
                 r.panel.entries[k].email == allowed[k]
                 && (r.panel.entries[k].fromCsv <==> Normalize(allowed[k]) in LoadCsv(s, fetched).emails)
  {
    var all := AllowedEmails(s, fetched);
    assert LoadCsv(all.store, fetched).emails == LoadCsv(s, fetched).emails;
    Step(all.store, Panel(Rows(all.emails, all.store, fetched), s.admins, s.adminSession.GetOr(""), "", "", "", ""), Silent)
  }

  /** `handleAddEmail`: an empty address does nothing; then the format, then the rows
      already shown, then the store's own check. Only a stored address becomes a new,
      removable row, and only then is the field cleared. */
  function AddEmail(s: Store, p: Panel): (r: Step)
    ensures var n := Normalize(p.newEmail);
            && (n == "" ==> r == Step(s, p, Silent))
            && (n != "" && !ValidEmail(n) ==> r == Step(s, p, InvalidFormat))
            && (n != "" && ValidEmail(n) && (exists k :: 0 <= k < |p.entries| && p.entries[k].email == n) ==>
                  r == Step(s, p, AlreadyAuthorized))
    ensures r.notice == EmailAdded <==>
      var n := Normalize(p.newEmail);
      n != "" && ValidEmail(n) && (forall k :: 0 <= k < |p.entries| ==> p.entries[k].email != n)
      && AddAllowedEmail(s, n).ok
    ensures r.notice == EmailAdded ==>
      r.store == AddAllowedEmail(s, p.newEmail).store
      && r.panel == p.(entries := p.entries + [EmailEntry(Normalize(p.newEmail), false)], newEmail := "")
    ensures r.notice != EmailAdded ==> r.store == s && r.panel == p
  {
    var n := Normalize(p.newEmail);
    NormalizeIdempotent(p.newEmail);
    if n == "" then Step(s, p, Silent)
    else if !ValidEmail(n) then Step(s, p, InvalidFormat)
    else if exists k :: 0 <= k < |p.entries| && p.entries[k].email == n then Step(s, p, AlreadyAuthorized)
    else
      var added := AddAllowedEmail(s, n);
      if added.ok then Step(added.store, p.(entries := p.entries + [EmailEntry(n, false)], newEmail := ""), EmailAdded)
      else Step(s, p, AlreadyExists)
  }

  /** An address the panel adds is let through the gate from then on. */
  lemma AddedEmailPassesGate(s: Store, p: Panel, fetched: Option<string>)
    requires AddEmail(s, p).notice == EmailAdded
    ensures IsEmailAllowed(AddEmail(s, p).store, fetched, p.newEmail).ok
  {
    AddThenAllowed(s, fetched, p.newEmail);
  }

  function NotEntry(email: string): EmailEntry -> bool {
    (e: EmailEntry) => e.email != email
  }

  /** `handleRemoveEmail`: the row leaves the list only when the store dropped the address. */
  function RemoveEmail(s: Store, p: Panel, email: string): (r: Step)
    ensures var removed := RemoveAllowedEmail(s, email);
            r.store == removed.store
            && (removed.ok ==> r.panel == p.(entries := Filter(p.entries, NotEntry(email))) && r.notice == EmailRemoved)
            && (!removed.ok ==> r.panel == p && r.notice == Silent)
    ensures forall k :: 0 <= k < |r.panel.entries| && r.panel != p ==> r.panel.entries[k].email != email
  {
    var removed := RemoveAllowedEmail(s, email);
    if removed.ok then Step(removed.store, p.(entries := Filter(p.entries, NotEntry(email))), EmailRemoved)
    else Step(s, p, Silent)
  }

  /** The admin form, emptied. */
  function ClearAdminForm(p: Panel): Panel {
    p.(newAdminEmail := "", newAdminPassword := "", newAdminPasswordConfirm := "")
  }

  /** `handleAddAdmin`: both fields, then the format, then a password of at least four
      characters, then the confirmation, and only then the store. The form is cleared only
      when the account was added. */
  function AddAdminAccount(s: Store, p: Panel, hash: string -> string): (r: Step)
    ensures var n := Normalize(p.newAdminEmail);
            var pw := p.newAdminPassword;
            && (n == "" || pw == "" ==> r == Step(s, p, FieldsRequired))
            && (n != "" && pw != "" && !ValidEmail(n) ==> r == Step(s, p, InvalidFormat))
            && (n != "" && ValidEmail(n) && 0 < |pw| < 4 ==> r == Step(s, p, PasswordTooShort))
            && (n != "" && ValidEmail(n) && |pw| >= 4 && pw != p.newAdminPasswordConfirm ==>
                  r == Step(s, p, PasswordsDiffer))
    ensures r.notice == AdminAdded <==>
      var n := Normalize(p.newAdminEmail);
      ValidEmail(n) && |p.newAdminPassword| >= 4 && p.newAdminPassword == p.newAdminPasswordConfirm
      && AddAdmin(s, n, p.newAdminPassword, hash).ok
    ensures r.notice == AdminAdded ==>
      r.store == AddAdmin(s, p.newAdminEmail, p.newAdminPassword, hash).store
      && r.panel == ClearAdminForm(p).(admins := r.store.admins)
    ensures r.notice != AdminAdded ==> r.store == s && r.panel == p
  {
    var n := Normalize(p.newAdminEmail);
    var pw := p.newAdminPassword;
    NormalizeIdempotent(p.newAdminEmail);
    if n == "" || pw == "" then Step(s, p, FieldsRequired)
    else if !ValidEmail(n) then Step(s, p, InvalidFormat)
    else if |pw| < 4 then Step(s, p, PasswordTooShort)
    else if pw != p.newAdminPasswordConfirm then Step(s, p, PasswordsDiffer)
    else
      var added := AddAdmin(s, n, pw, hash);
      if added.ok then Step(added.store, ClearAdminForm(p).(admins := added.store.admins), AdminAdded)
      else Step(s, p, AdminExists)
  }

  /** A newly added admin can sign in with the password just chosen. */
  lemma AddedAdminLogsIn(s: Store, p: Panel, hash: string -> string)
    requires AddAdminAccount(s, p, hash).notice == AdminAdded
    ensures AdminLogin(AddAdminAccount(s, p, hash).store, p.newAdminEmail, p.newAdminPassword, hash).ok
  {
    var t := AddAdminAccount(s, p, hash).store;
    var n := Normalize(p.newAdminEmail);
    ToLowerProperties(Trim(p.newAdminEmail));
    assert t.admins[|s.admins|] == Admin(n, hash(p.newAdminPassword));
  }

  /** `handleRemoveAdmin`: an admin cannot remove their own account (case ignored);
      otherwise the store decides. */
  function RemoveAdminAccount(s: Store, p: Panel, email: string): (r: Step)
    ensures ToLower(email) == ToLower(p.adminEmail) ==> r == Step(s, p, CannotRemoveSelf)
    ensures ToLower(email) != ToLower(p.adminEmail) ==>
      var removed := RemoveAdmin(s, email);
      r.store == removed.store
      && (removed.ok ==> r.panel == p.(admins := removed.store.admins) && r.notice == AdminRemoved)
      && (!removed.ok ==> r.panel == p && r.notice == LastAdmin)
  {
    if ToLower(email) == ToLower(p.adminEmail) then Step(s, p, CannotRemoveSelf)
    else
      var removed := RemoveAdmin(s, email);
      if removed.ok then Step(removed.store, p.(admins := removed.store.admins), AdminRemoved)
      else Step(s, p, LastAdmin)
  }

  /** Whatever is removed, the store keeps an admin and its addresses stay distinct. */
  lemma RemoveKeepsAnAdmin(s: Store, p: Panel, email: string)
    requires AdminsDistinct(s.admins) && |s.admins| >= 1
    ensures var t := RemoveAdminAccount(s, p, email).store;
            |t.admins| >= 1 && AdminsDistinct(t.admins)
  {
    RemoveAdminKeepsOne(s, email);
  }

  /** The signed-in admin's own account survives a removal through the panel, for any
      address without surrounding whitespace (the rows hold stored, trimmed addresses). */
  lemma SelfNeverRemoved(s: Store, p: Panel, email: string, k: int)
    requires Trim(email) == email
    requires 0 <= k < |s.admins| && ToLower(s.admins[k].email) == ToLower(p.adminEmail)
    ensures s.admins[k] in RemoveAdminAccount(s, p, email).store.admins
  {
    var r := RemoveAdmin(s, email);
    if ToLower(email) != ToLower(p.adminEmail) && r.ok {
      assert NotAdmin(Normalize(email))(s.admins[k]);
      FilterContents(s.admins, NotAdmin(Normalize(email)));
      assert s.admins[k] in multiset(r.store.admins);
    }
  }
}

=== FILE: alliancebuilder.dfy ===
/**
  The alliance builder sidebar: the seat tally of the active scenario, the key
  metrics of the 2026 forecast, the DMK-side and ADMK-side bloc totals with INC
  placed by the scenario, the "Others" bar, the majority banner, and the party
  toggles and presets of the 2011-2021 builder.
 */
module AllianceBuilder {
  import opened Optional
  import opened SeqUtil
  import opened Records
  import opened Tally
  import opened Dashboard
  import Resolver
  import Colors

  const DmkAllies: seq<string> := ["VCK", "CPM", "CPI", "MDMK"]
  const AdmkAllies: seq<string> := ["BJP", "PMK"]
  const MajorParties2026: seq<string> := ["DMK", "ADMK", "TVK", "BJP"]

  /** `stats.incSeats`: the seats INC wins on its own ticket. */
  function IncSeats(t: seq<Entry>): nat {
    Seats(t, "INC")
  }

  /** INC's seat count is the number of records whose shown winner is INC. */
  lemma IncSeatsCount(rs: seq<Record>, s: Scenario)
    ensures IncSeats(SeatTally(rs, s)) == multiset(Winners(rs, s))[Some("INC")]
  {
    SeatsCount(Winners(rs, s), "INC");
  }

  // ---------------------------------------------------------------------------
  // Key metrics (2026 only).
  // ---------------------------------------------------------------------------

  datatype Kpi = Kpi(swingSeats: nat, incAvgShare: real, highConfidence: nat, incSeatsWon: nat)

  /** A seat is a swing seat when its shown margin is a number below 10 points. */
  predicate IsSwingSeat(c: Record, s: Scenario) {
    var m := Resolver.Margin(c, s);
    m.Some? && Colors.Abs(m.value) < 0.10
  }

  function SwingTest(s: Scenario): Record -> bool {
    (c: Record) => IsSwingSeat(c, s)
  }

  function HighConfidenceTest(): Record -> bool {
    (c: Record) => c.confidenceA == Some("high")
  }

  /** The sum of INC's mean vote share over the records. */
  function SumIncShare(rs: seq<Record>): real {
    if |rs| == 0 then 0.0 else SumIncShare(rs[..|rs| - 1]) + rs[|rs| - 1].incLayer.meanShare
  }

  /** INC's average mean share; 0 for an empty list. */
  function IncAvgShare(rs: seq<Record>): real {
    if |rs| > 0 then SumIncShare(rs) / (|rs| as real) else 0.0
  }

  lemma {:induction false} SumIncShareBounds(rs: seq<Record>, lo: real, hi: real)
    requires forall i :: 0 <= i < |rs| ==> lo <= rs[i].incLayer.meanShare <= hi
    ensures (|rs| as real) * lo <= SumIncShare(rs) <= (|rs| as real) * hi
  {
    if |rs| > 0 {
      var init := rs[..|rs| - 1];
      assert forall i :: 0 <= i < |init| ==> init[i] == rs[i];
      SumIncShareBounds(init, lo, hi);
    }
  }

  /** The average lies between the smallest and the largest share. */
  lemma IncAvgShareBounds(rs: seq<Record>, lo: real, hi: real)
    requires |rs| > 0
    requires forall i :: 0 <= i < |rs| ==> lo <= rs[i].incLayer.meanShare <= hi
    ensures lo <= IncAvgShare(rs) <= hi
  {
    SumIncShareBounds(rs, lo, hi);
    var n := |rs| as real;
    var avg := SumIncShare(rs) / n;
    assert avg * n == SumIncShare(rs);
    if avg < lo {
      assert avg * n < lo * n;
    }
    if avg > hi {
      assert avg * n > hi * n;
    }
  }

  /** The positions of the swing seats. */
  function SwingSeatIndices(rs: seq<Record>, s: Scenario): set<int> {
    set i | 0 <= i < |rs| && IsSwingSeat(rs[i], s)
  }

  /** The positions of the seats forecast with high confidence. */
  function HighConfidenceIndices(rs: seq<Record>): set<int> {
    set i | 0 <= i < |rs| && rs[i].confidenceA == Some("high")
  }

  /** The swing-seat filter keeps one record per swing seat. */
  lemma SwingSeatsCount(rs: seq<Record>, s: Scenario)
    ensures |Filter(rs, SwingTest(s))| == |SwingSeatIndices(rs, s)|
    ensures |Filter(rs, SwingTest(s))| == |rs| <==> forall i :: 0 <= i < |rs| ==> IsSwingSeat(rs[i], s)
    ensures |Filter(rs, SwingTest(s))| == 0 <==> forall i :: 0 <= i < |rs| ==> !IsSwingSeat(rs[i], s)
  {
    FilterKeepsAll(rs, SwingTest(s));
    FilterKeepsNone(rs, SwingTest(s));
    FilterCountsHits(rs, SwingTest(s));
    assert Hits(rs, SwingTest(s)) == SwingSeatIndices(rs, s);
  }

  /** The confidence filter keeps one record per high-confidence seat. */
  lemma HighConfidenceCount(rs: seq<Record>)
    ensures |Filter(rs, HighConfidenceTest())| == |HighConfidenceIndices(rs)|
    ensures |Filter(rs, HighConfidenceTest())| == 0 <==> forall i :: 0 <= i < |rs| ==> rs[i].confidenceA != Some("high")
  {
    FilterKeepsNone(rs, HighConfidenceTest());
    FilterCountsHits(rs, HighConfidenceTest());
    assert Hits(rs, HighConfidenceTest()) == HighConfidenceIndices(rs);
  }

  /** `avg` is the mean of `n` values adding up to `total`: `n` copies of it make the total. */
  predicate MeanOf(avg: real, total: real, n: nat) {
    n > 0 ==> avg * (n as real) == total
  }

  /** INC's average share is the mean of the records' shares. */
  lemma IncAvgShareTimes(rs: seq<Record>)
    ensures MeanOf(IncAvgShare(rs), SumIncShare(rs), |rs|)
  {
  }

  /** `kpiStats`: no metrics outside the 2026 forecast. */
  function KpiStats(year: int, rs: seq<Record>, s: Scenario): (k: Option<Kpi>)
    ensures k.None? <==> !IsV10Year(year)
    ensures k.Some? ==> k.value.swingSeats <= |rs| && k.value.highConfidence <= |rs|
    ensures k.Some? ==>
      (k.value.swingSeats == |rs| <==> forall i :: 0 <= i < |rs| ==> IsSwingSeat(rs[i], s))
    ensures k.Some? ==>
      (k.value.swingSeats == 0 <==> forall i :: 0 <= i < |rs| ==> !IsSwingSeat(rs[i], s))
    ensures k.Some? ==>
      (k.value.highConfidence == 0 <==> forall i :: 0 <= i < |rs| ==> rs[i].confidenceA != Some("high"))
    ensures k.Some? ==> k.value.incSeatsWon == multiset(Winners(rs, s))[Some("INC")]
    ensures k.Some? && |rs| == 0 ==> k.value.incAvgShare == 0.0
    ensures k.Some? ==> k.value.swingSeats == |SwingSeatIndices(rs, s)|
    ensures k.Some? ==> k.value.highConfidence == |HighConfidenceIndices(rs)|
    ensures k.Some? ==> MeanOf(k.value.incAvgShare, SumIncShare(rs), |rs|)
  {
    if !IsV10Year(year) then None
    else
      SwingSeatsCount(rs, s);
      HighConfidenceCount(rs);
      IncAvgShareTimes(rs);
      IncSeatsCount(rs, s);
      var swing := Filter(rs, SwingTest(s));
      var high := Filter(rs, HighConfidenceTest());
      Some(Kpi(|swing|, IncAvgShare(rs), |high|, IncSeats(SeatTally(rs, s))))
  }

  // ---------------------------------------------------------------------------
  // Bloc totals (2026).
  // ---------------------------------------------------------------------------

  /** The DMK-side bloc: DMK and its allies, plus INC in scenario A. */
  function DmkBloc(t: seq<Entry>, s: Scenario): nat {
    Seats(t, "DMK") + SumSeats(t, DmkAllies) + (if s == A then IncSeats(t) else 0)
  }

  /** The ADMK-side bloc: ADMK and its allies, plus INC in scenario E. */
  function AdmkBloc(t: seq<Entry>, s: Scenario): nat {
    Seats(t, "ADMK") + SumSeats(t, AdmkAllies) + (if s == E then IncSeats(t) else 0)
  }

  /** INC's side: its own seats and the joint INC+TVK ticket's. */
  function TotalIncSide(t: seq<Entry>): nat {
    IncSeats(t) + Seats(t, "INC+TVK")
  }

  /** The third bloc shown in scenario D: INC's side together with TVK. */
  function ThirdBlocD(t: seq<Entry>): nat {
    TotalIncSide(t) + Seats(t, "TVK")
  }

  /** Every party the blocs draw on, each once. */
  const BlocParties: seq<string> :=
    ["DMK"] + DmkAllies + ["ADMK"] + AdmkAllies + ["INC"] + ["INC+TVK"] + ["TVK"]

  lemma SumSeatsSingle(t: seq<Entry>, p: string)
    ensures SumSeats(t, [p]) == Seats(t, p)
  {
    assert [p][1..] == [];
  }

  lemma BlocPartiesSum(t: seq<Entry>)
    ensures SumSeats(t, BlocParties)
         == Seats(t, "DMK") + SumSeats(t, DmkAllies) + Seats(t, "ADMK") + SumSeats(t, AdmkAllies)
          + Seats(t, "INC") + Seats(t, "INC+TVK") + Seats(t, "TVK")
  {
    var p1 := ["DMK"] + DmkAllies;
    var p2 := p1 + ["ADMK"];
    var p3 := p2 + AdmkAllies;
    var p4 := p3 + ["INC"];
    var p5 := p4 + ["INC+TVK"];
    SumSeatsAppend(t, ["DMK"], DmkAllies);
    SumSeatsAppend(t, p1, ["ADMK"]);
    SumSeatsAppend(t, p2, AdmkAllies);
    SumSeatsAppend(t, p3, ["INC"]);
    SumSeatsAppend(t, p4, ["INC+TVK"]);
    SumSeatsAppend(t, p5, ["TVK"]);
    SumSeatsSingle(t, "DMK");
    SumSeatsSingle(t, "ADMK");
    SumSeatsSingle(t, "INC");
    SumSeatsSingle(t, "INC+TVK");
    SumSeatsSingle(t, "TVK");
  }

  /** INC is counted in at most one bloc, so the blocs shown, the third bloc of
      scenario D included, never claim more seats than the tally holds. */
  lemma BlocsWithinTally(t: seq<Entry>, s: Scenario)
    requires WellFormed(t)
    ensures DmkBloc(t, s) + AdmkBloc(t, s) + (if s == D then ThirdBlocD(t) else 0) <= Total(t)
  {
    BlocPartiesSum(t);
    SumSeatsBound(t, BlocParties);
  }

  /** The "Others" bar: the constituencies not won by a major party or by INC's side. */
  function Others(t: seq<Entry>): int {
    TotalConstituencies - (SumSeats(t, MajorParties2026) + Seats(t, "INC") + Seats(t, "INC+TVK"))
  }

  lemma MajorSum(t: seq<Entry>)
    ensures SumSeats(t, MajorParties2026 + ["INC"] + ["INC+TVK"])
         == SumSeats(t, MajorParties2026) + Seats(t, "INC") + Seats(t, "INC+TVK")
  {
    SumSeatsAppend(t, MajorParties2026, ["INC"]);
    SumSeatsAppend(t, MajorParties2026 + ["INC"], ["INC+TVK"]);
    SumSeatsSingle(t, "INC");
    SumSeatsSingle(t, "INC+TVK");
  }

  /** The parties with their own bar. */
  const BarParties: seq<string> := MajorParties2026 + ["INC"] + ["INC+TVK"]

  lemma BarPartiesDistinct()
    ensures Distinct(BarParties)
  {
    assert BarParties == ["DMK", "ADMK", "TVK", "BJP", "INC", "INC+TVK"];
  }

  /** "Others" counts at least the constituencies without a winner, and is never
      negative for a tally of at most 234 seats. */
  lemma OthersBounds(t: seq<Entry>)
    requires WellFormed(t)
    ensures Others(t) >= TotalConstituencies - Total(t)
    ensures Total(t) <= TotalConstituencies ==> Others(t) >= 0
  {
    MajorSum(t);
    BarPartiesDistinct();
    SumSeatsBound(t, BarParties);
  }

  /** When the parties with a bar are the only winners, "Others" is exactly the
      constituencies without a winner. */
  lemma OthersExact(t: seq<Entry>)
    requires WellFormed(t)
    requires forall i :: 0 <= i < |t| ==> t[i].party in BarParties
    ensures Others(t) == TotalConstituencies - Total(t)
  {
    MajorSum(t);
    BarPartiesDistinct();
    SumSeatsCovers(t, BarParties);
  }

  // ---------------------------------------------------------------------------
  // Majority banner.
  // ---------------------------------------------------------------------------

  datatype Banner = DmkMajority | AdmkMajority | NoMajority

  /** The DMK side is tested first. */
  function MajorityBanner(dmk: nat, admk: nat): Banner {
    if dmk >= MajorityMark then DmkMajority
    else if admk >= MajorityMark then AdmkMajority
    else NoMajority
  }

  /** Two blocs cannot both reach 118 of 234 seats, so on a real tally the order of the
      tests never matters: the banner names a bloc exactly when that bloc has a majority. */
  lemma BannerUnambiguous(t: seq<Entry>, s: Scenario)
    requires WellFormed(t) && Total(t) <= TotalConstituencies
    ensures var b := MajorityBanner(DmkBloc(t, s), AdmkBloc(t, s));
            && (b == DmkMajority <==> DmkBloc(t, s) >= MajorityMark)
            && (b == AdmkMajority <==> AdmkBloc(t, s) >= MajorityMark)
            && (b == NoMajority <==> DmkBloc(t, s) < MajorityMark && AdmkBloc(t, s) < MajorityMark)
  {
    BlocsWithinTally(t, s);
  }

  // ---------------------------------------------------------------------------
  // The 2011-2021 builder: party toggles and presets.
  // ---------------------------------------------------------------------------

  /** `toggleParty`: a chosen party is dropped; a new one is appended, and choosing DMK
      or ADMK drops the other. */
  function ToggleParty(alliances: seq<string>, party: string): (r: seq<string>)
    ensures party in alliances ==> party !in r && multiset(r) == multiset(alliances)[party := 0]
    ensures party !in alliances ==> |r| > 0 && r[|r| - 1] == party
    ensures party !in alliances && party != "DMK" && party != "ADMK" ==> r == alliances + [party]
  {
    if party in alliances then RemoveAll(alliances, party)
    else if party == "DMK" then
      RemoveAllAppend(alliances, party, "ADMK");
      RemoveAll(alliances + [party], "ADMK")
    else if party == "ADMK" then
      RemoveAllAppend(alliances, party, "DMK");
      RemoveAll(alliances + [party], "DMK")
    else alliances + [party]
  }

  /** Choosing one of the two fronts appends it after dropping the other front. */
  lemma ToggleFront(alliances: seq<string>, party: string)
    requires party !in alliances && (party == "DMK" || party == "ADMK")
    ensures var rival := if party == "DMK" then "ADMK" else "DMK";
            ToggleParty(alliances, party) == RemoveAll(alliances, rival) + [party]
  {
    var rival := if party == "DMK" then "ADMK" else "DMK";
    RemoveAllAppend(alliances, party, rival);
  }

  /** Toggling a new party twice returns to the list before, less the rival front
      that choosing DMK or ADMK dropped. */
  lemma ToggleTwice(alliances: seq<string>, party: string)
    requires party !in alliances
    ensures ToggleParty(ToggleParty(alliances, party), party)
         == if party == "DMK" then RemoveAll(alliances, "ADMK")
            else if party == "ADMK" then RemoveAll(alliances, "DMK")
            else alliances
  {
    if party == "DMK" || party == "ADMK" {
      var rival := if party == "DMK" then "ADMK" else "DMK";
      ToggleFront(alliances, party);
      var kept := RemoveAll(alliances, rival);
      assert party !in kept by {
        assert multiset(kept) == multiset(alliances)[rival := 0];
        assert party !in multiset(alliances);
      }
      RemoveAllAppend(kept, party, party);
      assert RemoveAll(kept, party) == kept;
    } else {
      RemoveAllAppend(alliances, party, party);
      assert RemoveAll(alliances, party) == alliances;
    }
  }

  /** The builder never holds both DMK and ADMK unless it started with both. */
  lemma ToggleExclusive(alliances: seq<string>, party: string)
    requires !("DMK" in alliances && "ADMK" in alliances)
    ensures var r := ToggleParty(alliances, party);
            !("DMK" in r && "ADMK" in r)
  {
    var r := ToggleParty(alliances, party);
    if party in alliances {
      forall x | x in r ensures x in alliances {
        assert x in multiset(r);
      }
    } else if party == "DMK" || party == "ADMK" {
      ToggleFront(alliances, party);
      var rival := if party == "DMK" then "ADMK" else "DMK";
      assert rival !in RemoveAll(alliances, rival);
      assert rival !in r;
    }
  }

  /** The list stays free of duplicates. */
  lemma ToggleKeepsDistinct(alliances: seq<string>, party: string)
    requires Distinct(alliances)
    ensures Distinct(ToggleParty(alliances, party))
  {
    if party in alliances {
      DistinctRemoveAll(alliances, party);
    } else {
      DistinctAppend(alliances, party);
      if party == "DMK" {
        DistinctRemoveAll(alliances + [party], "ADMK");
      } else if party == "ADMK" {
        DistinctRemoveAll(alliances + [party], "DMK");
      }
    }
  }

  /** Choosing DMK always makes scenario A the active one, and choosing ADMK scenario B. */
  lemma ToggleFrontSelectsScenario(alliances: seq<string>, party: string)
    requires party !in alliances && (party == "DMK" || party == "ADMK")
    ensures DeriveV8Scenario(ToggleParty(alliances, party)) == if party == "DMK" then A else B
  {
    var r := ToggleParty(alliances, party);
    assert r[|r| - 1] == party;
  }

  /** The three preset cards' party lists. */
  function PresetParties(key: Scenario): seq<string> {
    if key == A then ["DMK"] else if key == B then ["ADMK"] else []
  }

  /** `applyPreset` replaces the list; the "Third Front" card's empty list derives no
      scenario at all, so the map then shows the recorded results rather than scenario C. */
  lemma PresetScenario(key: Scenario)
    requires key in {A, B, C}
    ensures DeriveV8Scenario(PresetParties(key)) == if key == C then NONE else key
  {
  }
}

=== FILE: analytics.dfy ===
/**
  The analytics panel: the baseline tally (the recorded result, or scenario A where
  none is recorded) against the simulated tally of the active scenario, the
  comparison chart sorted by simulated seats, the pie of seat winners, the fixed
  bloc sums, and the searchable list of close contests.
 */
module Analytics {
  import opened Optional
  import opened JsString
  import opened SeqUtil
  import opened Sorting
  import opened Records
  import opened Tally
  import Resolver
  import Colors
  import AllianceBuilder

  /** The baseline tally over the baseline data (2021 when viewing 2026). */
  function BaselineTally(ds: Dataset, year: int): seq<Entry> {
    TallyOf(BaselineWinners(BaselineData(ds, year)))
  }

  /** The simulated tally over the selected year's data. */
  function SimulatedTally(ds: Dataset, year: int, s: Scenario): seq<Entry> {
    SeatTally(DataFor(ds, year), s)
  }

  /** In 2026 the comparison is always against the 2021 results, whatever the scenario;
      in every other year, both tallies read the same records. */
  lemma BaselineChoice(ds: Dataset, year: int, s: Scenario)
    ensures year == 2026 ==> BaselineTally(ds, year) == TallyOf(BaselineWinners(DataFor(ds, 2021)))
    ensures year != 2026 ==>
      forall p :: Seats(BaselineTally(ds, year), p) == multiset(BaselineWinners(DataFor(ds, year)))[Some(p)]
  {
    if year != 2026 {
      forall p ensures Seats(BaselineTally(ds, year), p) == multiset(BaselineWinners(DataFor(ds, year)))[Some(p)] {
        SeatsCount(BaselineWinners(DataFor(ds, year)), p);
      }
    }
  }

  // ---------------------------------------------------------------------------
  // The comparison chart.
  // ---------------------------------------------------------------------------

  datatype ChartRow = ChartRow(name: string, seats: nat, baseline: nat, diff: int)

  /** The chart entry of one party. */
  function Row(base: seq<Entry>, sim: seq<Entry>, p: string): ChartRow {
    ChartRow(p, Seats(sim, p), Seats(base, p), Seats(sim, p) - Seats(base, p))
  }

  /** One row per party of either tally, in key order. */
  function ChartRows(base: seq<Entry>, sim: seq<Entry>): (rows: seq<ChartRow>)
    ensures |rows| == |UnionKeys(base, sim)|
    ensures forall i :: 0 <= i < |rows| ==> rows[i] == Row(base, sim, UnionKeys(base, sim)[i])
  {
    var ks := UnionKeys(base, sim);
    seq(|ks|, i requires 0 <= i < |ks| => Row(base, sim, ks[i]))
  }

  /** The comparator `(a, b) => b.seats - a.seats`. */
  function MoreSeats(): (ChartRow, ChartRow) -> bool {
    (a: ChartRow, b: ChartRow) => a.seats > b.seats
  }

  /** `chartData`: the rows sorted by simulated seats, most first. */
  function ChartData(base: seq<Entry>, sim: seq<Entry>): (r: seq<ChartRow>)
    ensures multiset(r) == multiset(ChartRows(base, sim))
    ensures forall i, j :: 0 <= i < j < |r| ==> r[i].seats >= r[j].seats
  {
    Sort(ChartRows(base, sim), MoreSeats())
  }

  /** Rows with the same simulated seat count keep their order: the parties of the
      baseline tally first, in its key order, then the new ones. */
  lemma ChartDataStable(base: seq<Entry>, sim: seq<Entry>, x: ChartRow)
    ensures Filter(ChartData(base, sim), TiedWith(MoreSeats(), x))
         == Filter(ChartRows(base, sim), TiedWith(MoreSeats(), x))
  {
    SortStable(ChartRows(base, sim), MoreSeats(), x);
  }

  /** Every chart row is the true entry of its party; the parties charted are exactly
      those of either tally, each once. */
  lemma ChartDataRows(base: seq<Entry>, sim: seq<Entry>)
    ensures var r := ChartData(base, sim);
            && (forall i :: 0 <= i < |r| ==> r[i] == Row(base, sim, r[i].name))
            && (forall i :: 0 <= i < |r| ==> r[i].name in Keys(base) || r[i].name in Keys(sim))
            && (forall i, j :: 0 <= i < j < |r| ==> r[i].name != r[j].name)
  {
    var r := ChartData(base, sim);
    var rows := ChartRows(base, sim);
    var ks := UnionKeys(base, sim);
    forall i | 0 <= i < |r|
      ensures r[i] == Row(base, sim, r[i].name)
      ensures r[i].name in Keys(base) || r[i].name in Keys(sim)
    {
      assert r[i] in multiset(rows);
      var k :| 0 <= k < |rows| && rows[k] == r[i];
      assert r[i].name == ks[k];
    }
    assert Distinct(rows) by {
      forall i, j | 0 <= i < j < |rows| ensures rows[i] != rows[j] {
        assert rows[i].name == ks[i] && rows[j].name == ks[j];
      }
    }
    SubMultisetKeepsDistinct(rows, r);
  }

  /** Every party of either tally has a chart row. */
  lemma ChartDataCovers(base: seq<Entry>, sim: seq<Entry>, p: string)
    requires p in Keys(base) || p in Keys(sim)
    ensures exists i :: 0 <= i < |ChartData(base, sim)| && ChartData(base, sim)[i].name == p
  {
    var r := ChartData(base, sim);
    var rows := ChartRows(base, sim);
    var ks := UnionKeys(base, sim);
    var k :| 0 <= k < |ks| && ks[k] == p;
    assert rows[k] in multiset(r);
    var i :| 0 <= i < |r| && r[i] == rows[k];
    assert r[i].name == p;
  }

  /** `topParty`, the first chart row, has at least as many simulated seats as any party. */
  lemma TopPartyHasMostSeats(base: seq<Entry>, sim: seq<Entry>, p: string)
    requires |ChartData(base, sim)| > 0
    ensures Seats(sim, p) <= ChartData(base, sim)[0].seats
  {
    var r := ChartData(base, sim);
    if p in Keys(base) || p in Keys(sim) {
      ChartDataCovers(base, sim, p);
      ChartDataRows(base, sim);
      var i :| 0 <= i < |r| && r[i].name == p;
      assert r[i] == Row(base, sim, p);
    } else {
      SeatsOfMissing(sim, p);
    }
  }

  // ---------------------------------------------------------------------------
  // The pie of seat winners.
  // ---------------------------------------------------------------------------

  datatype PieSlice = PieSlice(name: string, value: nat, fill: string)

  function HasSeats(): ChartRow -> bool {
    (d: ChartRow) => d.seats > 0
  }

  /** `pieData`: the charted parties that won a seat, in chart order, in party colours. */
  function PieData(chart: seq<ChartRow>): (r: seq<PieSlice>)
    ensures forall i :: 0 <= i < |r| ==> r[i].value > 0 && r[i].fill == Colors.PartyColor(Some(r[i].name))
  {
    var kept := Filter(chart, HasSeats());
    seq(|kept|, i requires 0 <= i < |kept| => PieSlice(kept[i].name, kept[i].seats, Colors.PartyColor(Some(kept[i].name))))
  }

  /** Every slice shows its party's simulated seat count. */
  lemma PieDataValues(base: seq<Entry>, sim: seq<Entry>)
    ensures var r := PieData(ChartData(base, sim));
            forall i :: 0 <= i < |r| ==> r[i].value == Seats(sim, r[i].name)
  {
    var chart := ChartData(base, sim);
    var kept := Filter(chart, HasSeats());
    var r := PieData(chart);
    FilterContents(chart, HasSeats());
    ChartDataRows(base, sim);
    forall i | 0 <= i < |r|
      ensures r[i].value == Seats(sim, r[i].name)
    {
      assert r[i].name == kept[i].name && r[i].value == kept[i].seats;
      assert kept[i] in multiset(chart);
      var k :| 0 <= k < |chart| && chart[k] == kept[i];
      assert chart[k] == Row(base, sim, chart[k].name);
    }
  }

  /** A party that won a seat gets a slice; one that did not gets none. */
  lemma PieDataMembers(base: seq<Entry>, sim: seq<Entry>, p: string)
    ensures var r := PieData(ChartData(base, sim));
            (exists i :: 0 <= i < |r| && r[i].name == p) <==> Seats(sim, p) > 0
  {
    PieDataValues(base, sim);
    if Seats(sim, p) > 0 {
      PieDataHasWinner(base, sim, p);
    }
  }

  lemma PieDataHasWinner(base: seq<Entry>, sim: seq<Entry>, p: string)
    requires Seats(sim, p) > 0
    ensures var r := PieData(ChartData(base, sim));
            exists i :: 0 <= i < |r| && r[i].name == p
  {
    var chart := ChartData(base, sim);
    var kept := Filter(chart, HasSeats());
    var r := PieData(chart);
    SeatsPositiveIsKey(sim, p);
    ChartDataCovers(base, sim, p);
    ChartDataRows(base, sim);
    var k :| 0 <= k < |chart| && chart[k].name == p;
    assert chart[k] == Row(base, sim, p);
    assert HasSeats()(chart[k]);
    FilterMember(chart, HasSeats(), chart[k]);
    assert chart[k] in kept;
    var i :| 0 <= i < |kept| && kept[i] == chart[k];
    assert r[i].name == p;
  }

  // ---------------------------------------------------------------------------
  // Counts and fixed blocs.
  // ---------------------------------------------------------------------------

  /** The swing count, with the same test as the sidebar's key metrics. */
  function SwingSeats(rs: seq<Record>, s: Scenario): nat {
    |Filter(rs, AllianceBuilder.SwingTest(s))|
  }

  /** The INC stronghold count: correlation of at least 0.5. */
  function IncStrongholds(rs: seq<Record>): nat {
    |Filter(rs, (c: Record) => c.incLayer.rho >= 0.5)|
  }

  /** The panel and the sidebar report the same swing count for the 2026 forecast. */
  lemma SwingSeatsAgree(rs: seq<Record>, s: Scenario)
    ensures AllianceBuilder.KpiStats(2026, rs, s).Some?
    ensures SwingSeats(rs, s) == AllianceBuilder.KpiStats(2026, rs, s).value.swingSeats
  {
  }

  /** The panel's DMK bloc: DMK, INC, VCK, CPM and CPI in every scenario. */
  function FixedDmkBloc(t: seq<Entry>): nat {
    SumSeats(t, ["DMK", "INC", "VCK", "CPM", "CPI"])
  }

  /** The panel's ADMK bloc: ADMK, BJP and PMK in every scenario. */
  function FixedAdmkBloc(t: seq<Entry>): nat {
    SumSeats(t, ["ADMK", "BJP", "PMK"])
  }

  /** The panel's DMK bloc is the sidebar's scenario-A bloc without MDMK, and its ADMK bloc
      the sidebar's bloc of every scenario but E; together with TVK they fit in the tally. */
  lemma FixedBlocs(t: seq<Entry>, s: Scenario)
    requires WellFormed(t)
    ensures FixedDmkBloc(t) + Seats(t, "MDMK") == AllianceBuilder.DmkBloc(t, A)
    ensures s != E ==> FixedAdmkBloc(t) == AllianceBuilder.AdmkBloc(t, s)
    ensures FixedDmkBloc(t) + FixedAdmkBloc(t) + Seats(t, "TVK") <= Total(t)
  {
    FixedDmkSide(t);
    FixedAdmkSide(t);
    FixedWithinTotal(t);
  }

  lemma FixedDmkSide(t: seq<Entry>)
    ensures FixedDmkBloc(t) + Seats(t, "MDMK") == AllianceBuilder.DmkBloc(t, A)
  {
    SumSeatsCons(t, "CPI", []);
    SumSeatsCons(t, "CPM", ["CPI"]);
    SumSeatsCons(t, "VCK", ["CPM", "CPI"]);
    SumSeatsCons(t, "INC", ["VCK", "CPM", "CPI"]);
    SumSeatsCons(t, "DMK", ["INC", "VCK", "CPM", "CPI"]);
    SumSeatsCons(t, "MDMK", []);
    SumSeatsCons(t, "CPI", ["MDMK"]);
    SumSeatsCons(t, "CPM", ["CPI", "MDMK"]);
    SumSeatsCons(t, "VCK", ["CPM", "CPI", "MDMK"]);
  }

  lemma FixedAdmkSide(t: seq<Entry>)
    ensures FixedAdmkBloc(t) == Seats(t, "ADMK") + SumSeats(t, AllianceBuilder.AdmkAllies)
  {
    SumSeatsCons(t, "PMK", []);
    SumSeatsCons(t, "BJP", ["PMK"]);
    SumSeatsCons(t, "ADMK", ["BJP", "PMK"]);
  }

  lemma FixedWithinTotal(t: seq<Entry>)
    requires WellFormed(t)
    ensures FixedDmkBloc(t) + FixedAdmkBloc(t) + Seats(t, "TVK") <= Total(t)
  {
    var ps := ["DMK", "INC", "VCK", "CPM", "CPI", "ADMK", "BJP", "PMK", "TVK"];
    assert SumSeats(t, ps) == FixedDmkBloc(t) + FixedAdmkBloc(t) + Seats(t, "TVK") by {
      SumSeatsAppend(t, ["DMK", "INC", "VCK", "CPM", "CPI"], ["ADMK", "BJP", "PMK", "TVK"]);
      SumSeatsCons(t, "TVK", []);
      SumSeatsAppend(t, ["ADMK", "BJP", "PMK"], ["TVK"]);
      assert ["DMK", "INC", "VCK", "CPM", "CPI"] + ["ADMK", "BJP", "PMK", "TVK"] == ps;
      assert ["ADMK", "BJP", "PMK"] + ["TVK"] == ["ADMK", "BJP", "PMK", "TVK"];
    }
    SumSeatsBound(t, ps);
  }

  // ---------------------------------------------------------------------------
  // The searchable list of close contests.
  // ---------------------------------------------------------------------------

  datatype SwingRow = SwingRow(c: Record, margin: real, winner: Option<string>)

  /** A row that truly describes one of the records. */
  predicate Listed(row: SwingRow, rs: seq<Record>, s: Scenario) {
    && row.c in rs
    && Resolver.Margin(row.c, s) == Some(row.margin)
    && row.winner == Resolver.Winner(row.c, s)
  }

  function RowOf(c: Record, s: Scenario): SwingRow
    requires Resolver.Margin(c, s).Some?
  {
    SwingRow(c, Resolver.Margin(c, s).value, Resolver.Winner(c, s))
  }

  /** The records whose shown margin is a number, with that margin and the shown winner. */
  function WithMargin(rs: seq<Record>, s: Scenario): (r: seq<SwingRow>)
    ensures forall k :: 0 <= k < |r| ==> Listed(r[k], rs, s)
  {
    if |rs| == 0 then []
    else
      var rest := WithMargin(rs[1..], s);
      assert forall k :: 0 <= k < |rest| ==> rest[k].c in rs;
      var m := Resolver.Margin(rs[0], s);
      if m.Some? then [RowOf(rs[0], s)] + rest else rest
  }

  function ListedIn(rs: seq<Record>, s: Scenario): SwingRow -> bool {
    (row: SwingRow) => Listed(row, rs, s)
  }

  /** Every record with a numeric margin has its row. */
  lemma {:induction false} WithMarginComplete(rs: seq<Record>, s: Scenario, k: int)
    requires 0 <= k < |rs| && Resolver.Margin(rs[k], s).Some?
    ensures RowOf(rs[k], s) in WithMargin(rs, s)
  {
    if k > 0 {
      assert rs[1..][k - 1] == rs[k];
      WithMarginComplete(rs[1..], s, k - 1);
    }
  }

  /** The search test: an empty query keeps every row. */
  function MatchesSearch(query: string): SwingRow -> bool {
    (row: SwingRow) => query == "" || Includes(ToLower(row.c.name), ToLower(query))
  }

  /** The comparator `(a, b) => |a.margin| - |b.margin|`. */
  function CloserFirst(): (SwingRow, SwingRow) -> bool {
    (a: SwingRow, b: SwingRow) => Colors.Abs(a.margin) < Colors.Abs(b.margin)
  }

  /** `swingConstituencies`: the rows with a margin that match the search, closest first. */
  function SwingConstituencies(rs: seq<Record>, s: Scenario, query: string): (r: seq<SwingRow>)
    ensures forall i, j :: 0 <= i < j < |r| ==> Colors.Abs(r[i].margin) <= Colors.Abs(r[j].margin)
    ensures forall k :: 0 <= k < |r| ==> Listed(r[k], rs, s)
    ensures forall k :: 0 <= k < |r| ==> MatchesSearch(query)(r[k])
  {
    var rows := WithMargin(rs, s);
    var found := Filter(rows, MatchesSearch(query));
    FilterContents(rows, MatchesSearch(query));
    var sorted := Sort(found, CloserFirst());
    SubMultisetKeeps(rows, found, ListedIn(rs, s));
    SubMultisetKeeps(found, sorted, ListedIn(rs, s));
    SubMultisetKeeps(found, sorted, MatchesSearch(query));
    sorted
  }

  /** Rows with equally close margins keep the record order. */
  lemma SwingConstituenciesStable(rs: seq<Record>, s: Scenario, query: string, x: SwingRow)
    ensures Filter(SwingConstituencies(rs, s, query), TiedWith(CloserFirst(), x))
         == Filter(Filter(WithMargin(rs, s), MatchesSearch(query)), TiedWith(CloserFirst(), x))
  {
    SortStable(Filter(WithMargin(rs, s), MatchesSearch(query)), CloserFirst(), x);
  }

  /** Every record with a numeric margin whose name matches the search is listed. */
  lemma SwingConstituenciesComplete(rs: seq<Record>, s: Scenario, query: string, k: int)
    requires 0 <= k < |rs| && Resolver.Margin(rs[k], s).Some?
    requires query == "" || Includes(ToLower(rs[k].name), ToLower(query))
    ensures RowOf(rs[k], s) in SwingConstituencies(rs, s, query)
  {
    var rows := WithMargin(rs, s);
    var row := RowOf(rs[k], s);
    WithMarginComplete(rs, s, k);
    var j :| 0 <= j < |rows| && rows[j] == row;
    assert MatchesSearch(query)(row);
    var found := Filter(rows, MatchesSearch(query));
    FilterContents(rows, MatchesSearch(query));
    assert row in multiset(found);
    var sorted := Sort(found, CloserFirst());
    assert row in multiset(sorted);
  }
}

=== FILE: authstore.dfy ===
/**
  The access-control store: a two-layer whitelist of email addresses (a static CSV file
  and a per-browser list that admins extend) and the admin accounts.

  The browser's storage becomes the fields of `Store`, and so does the loader's
  in-memory CSV cache, `csvCache`, which lives only as long as the page: `Reload` forgets
  it and keeps the rest. An absent stored list reads as the empty list. The fetched CSV text (`None` when the fetch fails) and the password
  hash function are parameters, and so is the account the first visit seeds.
 */
module AuthStore {
  import opened Optional
  import opened SeqUtil
  import opened JsString

  datatype Admin = Admin(email: string, passwordHash: string)

  datatype Store = Store(
    csvCache: Option<seq<string>>,   // the parsed CSV, once loaded; in memory only
    localEmails: seq<string>,        // addresses added by an admin
    admins: seq<Admin>,
    userSession: Option<string>,
    adminSession: Option<string>,
    seeded: bool)

  /** A fresh browser: nothing stored, nothing loaded. */
  const Empty := Store(None, [], [], None, None, false)

  // ---------------------------------------------------------------------------
  // The static CSV.
  // ---------------------------------------------------------------------------

  /** A line the CSV loader keeps: non-empty, with an `@` in it. */
  predicate IsEmailLine(l: string) {
    |l| > 0 && '@' in l
  }

  function NormalizeAll(lines: seq<string>): (r: seq<string>)
    ensures |r| == |lines| && forall k :: 0 <= k < |lines| ==> r[k] == Normalize(lines[k])
  {
    seq(|lines|, k requires 0 <= k < |lines| => Normalize(lines[k]))
  }

  function EmailLineTest(): string -> bool {
    (l: string) => IsEmailLine(l)
  }

  /** The CSV text as the loader reads it: split into lines at `\r\n` or `\n`, each
      line trimmed and lower-cased, keeping the lines that look like addresses. */
  function ParseCsv(text: string): (r: seq<string>)
    ensures forall x :: x in r <==> IsEmailLine(x) && x in NormalizeAll(SplitLines(text))
    ensures forall k :: 0 <= k < |r| ==> IsEmailLine(r[k])
  {
    var all := NormalizeAll(SplitLines(text));
    forall x
      ensures x in Filter(all, EmailLineTest()) <==> IsEmailLine(x) && x in all
    {
      FilterMember(all, EmailLineTest(), x);
    }
    Filter(all, EmailLineTest())
  }

  /** Every loaded address is already in the form the store compares: trimming and
      lower-casing it again changes nothing. */
  lemma ParsedNormalized(text: string, x: string)
    requires x in ParseCsv(text)
    ensures Normalize(x) == x && ToLower(x) == x
  {
    NormalizedLine(SplitLines(text), x);
  }

  /** A normalized line is a fixed point of normalizing and of lower-casing. */
  lemma NormalizedLine(lines: seq<string>, x: string)
    requires x in NormalizeAll(lines)
    ensures Normalize(x) == x && ToLower(x) == x
  {
    var k :| 0 <= k < |lines| && NormalizeAll(lines)[k] == x;
    NormalizeIdempotent(lines[k]);
    ToLowerProperties(Trim(lines[k]));
  }

  /** The loaded list and the store that caches it. */
  datatype Loaded = Loaded(store: Store, emails: seq<string>)

  /** `loadCsvEmails`: the cached list when there is one; otherwise the fetched text
      parsed (nothing when the fetch failed), which is then cached. */
  function LoadCsv(s: Store, fetched: Option<string>): (r: Loaded)
    ensures s.csvCache.Some? ==> r == Loaded(s, s.csvCache.value)
    ensures s.csvCache.None? && fetched.None? ==> r.emails == []
    ensures s.csvCache.None? && fetched.Some? ==> r.emails == ParseCsv(fetched.value)
    ensures r.store == s.(csvCache := Some(r.emails))
  {
    if s.csvCache.Some? then Loaded(s, s.csvCache.value)
    else
      var emails := if fetched.Some? then ParseCsv(fetched.value) else [];
      Loaded(s.(csvCache := Some(emails)), emails)
  }

  /** A page reload: the in-memory CSV cache starts out empty again, and everything kept
      in the browser's storage survives. */
  function Reload(s: Store): (r: Store)
    ensures r.csvCache.None?
    ensures r.(csvCache := s.csvCache) == s
  {
    s.(csvCache := None)
  }

  /** Once loaded, the CSV list never changes within the page, whatever later fetches
      would return. */
  lemma LoadCsvCached(s: Store, first: Option<string>, later: Option<string>)
    ensures var once := LoadCsv(s, first);
            LoadCsv(once.store, later) == once
  {
  }

  // ---------------------------------------------------------------------------
  // The allowed addresses.
  // ---------------------------------------------------------------------------

  function LowerAll(s: seq<string>): (r: seq<string>)
    ensures |r| == |s| && forall k :: 0 <= k < |s| ==> r[k] == ToLower(s[k])
  {
    seq(|s|, k requires 0 <= k < |s| => ToLower(s[k]))
  }

  /** Some entry of the list equals the address once lower-cased. */
  predicate ListsLower(list: seq<string>, x: string) {
    x in LowerAll(list)
  }

  lemma ListsLowerIff(list: seq<string>, x: string)
    ensures ListsLower(list, x) <==> exists k :: 0 <= k < |list| && ToLower(list[k]) == x
  {
    if ListsLower(list, x) {
      var k :| 0 <= k < |list| && LowerAll(list)[k] == x;
    }
  }

  /** The merged whitelist: the CSV's addresses then the local ones, lower-cased, each once. */
  function MergeAllowed(csv: seq<string>, local: seq<string>): (r: seq<string>)
    ensures Distinct(r)
    ensures forall x :: x in r <==> ListsLower(csv, x) || ListsLower(local, x)
  {
    var all := LowerAll(csv) + LowerAll(local);
    var r := Dedup(all);
    forall x
      ensures x in r <==> x in all
    {
      if x in r {
        var k :| 0 <= k < |r| && r[k] == x;
      }
      if x in all {
        var k :| 0 <= k < |all| && all[k] == x;
      }
    }
    r
  }

  /** `getAllowedEmails`. */
  function AllowedEmails(s: Store, fetched: Option<string>): (r: Loaded)
    ensures r.store == LoadCsv(s, fetched).store
    ensures r.emails == MergeAllowed(LoadCsv(s, fetched).emails, s.localEmails)
  {
    var csv := LoadCsv(s, fetched);
    Loaded(csv.store, MergeAllowed(csv.emails, s.localEmails))
  }

  /** A store's answer and the store after it. */
  datatype Answer = Answer(store: Store, ok: bool)

  /** `isEmailAllowed`: the address, trimmed and lower-cased, is in the merged whitelist. */
  function IsEmailAllowed(s: Store, fetched: Option<string>, email: string): (r: Answer)
    ensures r.store == LoadCsv(s, fetched).store
    ensures r.ok <==> (ListsLower(LoadCsv(s, fetched).emails, Normalize(email))
                       || ListsLower(s.localEmails, Normalize(email)))
  {
    var all := AllowedEmails(s, fetched);
    Answer(all.store, Normalize(email) in all.emails)
  }

  /** `isCsvEmail`: the address, trimmed and lower-cased, is one of the CSV's. */
  function IsCsvEmail(s: Store, fetched: Option<string>, email: string): (r: Answer)
    ensures r.store == LoadCsv(s, fetched).store
    ensures r.ok <==> Normalize(email) in LoadCsv(s, fetched).emails
  {
    var csv := LoadCsv(s, fetched);
    Answer(csv.store, Normalize(email) in csv.emails)
  }

  /** A CSV address is allowed however it is typed: spaces around it and capitals do not matter. */
  lemma CsvEmailAllowed(s: Store, fetched: Option<string>, email: string)
    requires Normalize(email) in LoadCsv(s, fetched).emails
    ensures IsEmailAllowed(s, fetched, email).ok
  {
    var csv := LoadCsv(s, fetched).emails;
    var k :| 0 <= k < |csv| && csv[k] == Normalize(email);
    ToLowerProperties(Trim(email));
    assert ToLower(csv[k]) == Normalize(email);
  }

  function NotLower(x: string): string -> bool {
    (e: string) => ToLower(e) != x
  }

  /** `addAllowedEmail`: refuses an empty address and one already listed locally (in any
      case); otherwise appends the trimmed, lower-cased address. */
  function AddAllowedEmail(s: Store, email: string): (r: Answer)
    ensures var n := Normalize(email);
            r.ok <==> n != "" && !ListsLower(s.localEmails, n)
    ensures r.ok ==> r.store == s.(localEmails := s.localEmails + [Normalize(email)])
    ensures !r.ok ==> r.store == s
  {
    var n := Normalize(email);
    ListsLowerIff(s.localEmails, n);
    if n == "" then Answer(s, false)
    else if exists k :: 0 <= k < |s.localEmails| && ToLower(s.localEmails[k]) == n then Answer(s, false)
    else Answer(s.(localEmails := s.localEmails + [n]), true)
  }

  /** `removeAllowedEmail`: drops every local entry equal to the address in any case, and
      reports whether anything was dropped. */
  function RemoveAllowedEmail(s: Store, email: string): (r: Answer)
    ensures r.ok <==> ListsLower(s.localEmails, Normalize(email))
    ensures r.ok ==> r.store == s.(localEmails := Filter(s.localEmails, NotLower(Normalize(email))))
    ensures !r.ok ==> r.store == s
  {
    var n := Normalize(email);
    var kept := Filter(s.localEmails, NotLower(n));
    FilterKeepsAll(s.localEmails, NotLower(n));
    ListsLowerIff(s.localEmails, n);
    if |kept| == |s.localEmails| then Answer(s, false)
    else Answer(s.(localEmails := kept), true)
  }

  /** An added address is allowed from then on, and removing it again revokes it locally. */
  lemma AddThenAllowed(s: Store, fetched: Option<string>, email: string)
    requires AddAllowedEmail(s, email).ok
    ensures IsEmailAllowed(AddAllowedEmail(s, email).store, fetched, email).ok
  {
    var t := AddAllowedEmail(s, email).store;
    var n := Normalize(email);
    ToLowerProperties(Trim(email));
    assert t.localEmails[|s.localEmails|] == n;
    assert ToLower(t.localEmails[|s.localEmails|]) == n;
  }

  lemma RemoveRevokesLocal(s: Store, email: string)
    ensures !ListsLower(RemoveAllowedEmail(s, email).store.localEmails, Normalize(email))
  {
    var n := Normalize(email);
    if RemoveAllowedEmail(s, email).ok {
      var kept := Filter(s.localEmails, NotLower(n));
      forall k | 0 <= k < |kept|
        ensures LowerAll(kept)[k] != n
      {
        assert NotLower(n)(kept[k]);
      }
    }
  }

  // ---------------------------------------------------------------------------
  // Admin accounts.
  // ---------------------------------------------------------------------------

  /** Some admin's address equals the given one once lower-cased. */
  predicate HasAdmin(admins: seq<Admin>, x: string) {
    exists k :: 0 <= k < |admins| && ToLower(admins[k].email) == x
  }

  /** No two admins share an address, case ignored: what `addAdmin` keeps. */
  predicate AdminsDistinct(admins: seq<Admin>) {
    DistinctBy(admins, AdminKey())
  }

  /** The address an admin is known by: its stored address, lower-cased. */
  function AdminKey(): Admin -> string {
    (a: Admin) => ToLower(a.email)
  }

  /** `seedIfNeeded`: on the first visit, one admin account and an empty local list; once
      the seeded flag is set, nothing. */
  function SeedIfNeeded(s: Store, seedEmail: string, seedPassword: string, hash: string -> string): (r: Store)
    ensures s.seeded ==> r == s
    ensures !s.seeded ==> r == s.(admins := [Admin(seedEmail, hash(seedPassword))], localEmails := [], seeded := true)
    ensures r.seeded && AdminsDistinct(r.admins) == (s.seeded ==> AdminsDistinct(s.admins))
  {
    if s.seeded then s
    else s.(admins := [Admin(seedEmail, hash(seedPassword))], localEmails := [], seeded := true)
  }

  /** Seeding twice is seeding once. */
  lemma SeedIdempotent(s: Store, seedEmail: string, seedPassword: string, hash: string -> string)
    ensures var once := SeedIfNeeded(s, seedEmail, seedPassword, hash);
            SeedIfNeeded(once, seedEmail, seedPassword, hash) == once
  {
  }

  function NotAdmin(x: string): Admin -> bool {
    KeyIsNot(AdminKey(), x)
  }

  /** `addAdmin`: refuses an empty address or password and an address already held by an
      admin in any case; otherwise appends the trimmed, lower-cased address with the
      password's hash. */
  function AddAdmin(s: Store, email: string, password: string, hash: string -> string): (r: Answer)
    ensures var n := Normalize(email);
            r.ok <==> n != "" && password != "" && !HasAdmin(s.admins, n)
    ensures r.ok ==> r.store == s.(admins := s.admins + [Admin(Normalize(email), hash(password))])
    ensures !r.ok ==> r.store == s
  {
    var n := Normalize(email);
    if n == "" || password == "" then Answer(s, false)
    else if exists k :: 0 <= k < |s.admins| && ToLower(s.admins[k].email) == n then Answer(s, false)
    else Answer(s.(admins := s.admins + [Admin(n, hash(password))]), true)
  }

  /** Adding an admin keeps the addresses distinct. */
  lemma AddAdminKeepsDistinct(s: Store, email: string, password: string, hash: string -> string)
    requires AdminsDistinct(s.admins)
    ensures AdminsDistinct(AddAdmin(s, email, password, hash).store.admins)
  {
    var r := AddAdmin(s, email, password, hash);
    if r.ok {
      var n := Normalize(email);
      ToLowerProperties(Trim(email));
      var a := r.store.admins;
      forall i, j | 0 <= i < j < |a|
        ensures ToLower(a[i].email) != ToLower(a[j].email)
      {
        if j == |s.admins| {
          assert ToLower(a[j].email) == n;
          assert a[i] == s.admins[i];
        }
      }
    }
  }

  /** `removeAdmin`: refuses while at most one admin exists and when no admin has the
      address; otherwise drops every admin with it. */
  function RemoveAdmin(s: Store, email: string): (r: Answer)
    ensures r.ok <==> |s.admins| > 1 && HasAdmin(s.admins, Normalize(email))
    ensures r.ok ==> r.store == s.(admins := Filter(s.admins, NotAdmin(Normalize(email))))
    ensures !r.ok ==> r.store == s
  {
    var n := Normalize(email);
    if |s.admins| <= 1 then Answer(s, false)
    else
      var kept := Filter(s.admins, NotAdmin(n));
      FilterKeepsAll(s.admins, NotAdmin(n));
      if |kept| == |s.admins| then Answer(s, false)
      else Answer(s.(admins := kept), true)
  }

  /** The last admin can never be removed: removal keeps at least one admin, and keeps the
      addresses distinct. */
  lemma RemoveAdminKeepsOne(s: Store, email: string)
    requires AdminsDistinct(s.admins)
    requires |s.admins| >= 1
    ensures |RemoveAdmin(s, email).store.admins| >= 1
    ensures AdminsDistinct(RemoveAdmin(s, email).store.admins)
  {
    var n := Normalize(email);
    if RemoveAdmin(s, email).ok {
      DropsAtMostOne(s.admins, AdminKey(), n);
      var kept := Filter(s.admins, NotAdmin(n));
      FilterKeepsDistinctBy(s.admins, AdminKey(), NotAdmin(n));
    }
  }

  /** The distinctness is what keeps the last admin: two stored accounts whose addresses
      differ only in case (say "a" and "A") are removed together, leaving no admin. */
  lemma RemoveAdminNeedsDistinct(s: Store, email: string)
    requires |s.admins| == 2
    requires ToLower(s.admins[0].email) == Normalize(email) && ToLower(s.admins[1].email) == Normalize(email)
    ensures RemoveAdmin(s, email).ok && RemoveAdmin(s, email).store.admins == []
  {
    var p := NotAdmin(Normalize(email));
    assert !p(s.admins[0]) && !p(s.admins[1]);
    assert HasAdmin(s.admins, Normalize(email));
    assert Filter(s.admins, p) == [] by {
      FilterKeepsNone(s.admins, p);
    }
  }

  /** `adminLogin`: succeeds exactly when some admin has the address (case ignored) and
      the password's hash; the admin session then holds the trimmed, lower-cased address. */
  function AdminLogin(s: Store, email: string, password: string, hash: string -> string): (r: Answer)
    ensures r.ok <==> exists k :: 0 <= k < |s.admins| && ToLower(s.admins[k].email) == Normalize(email)
                                  && s.admins[k].passwordHash == hash(password)
    ensures r.ok ==> r.store == s.(adminSession := Some(Normalize(email)))
    ensures !r.ok ==> r.store == s
  {
    var n := Normalize(email);
    var h := hash(password);
    if exists k :: 0 <= k < |s.admins| && ToLower(s.admins[k].email) == n && s.admins[k].passwordHash == h
    then Answer(s.(adminSession := Some(n)), true)
    else Answer(s, false)
  }

  /** The seeded account can log in with its own password, in any case and with spaces
      around the address. */
  lemma SeededAdminLogsIn(s: Store, seedEmail: string, seedPassword: string, hash: string -> string, typed: string)
    requires !s.seeded
    requires Normalize(typed) == ToLower(seedEmail)
    ensures AdminLogin(SeedIfNeeded(s, seedEmail, seedPassword, hash), typed, seedPassword, hash).ok
  {
    var t := SeedIfNeeded(s, seedEmail, seedPassword, hash);
    assert ToLower(t.admins[0].email) == Normalize(typed);
  }

  /** `setUserSession`: the trimmed, lower-cased address. */
  function SetUserSession(s: Store, email: string): (r: Store)
    ensures r.userSession == Some(Normalize(email))
    ensures r.(userSession := s.userSession) == s
  {
    s.(userSession := Some(Normalize(email)))
  }

  function ClearAdminSession(s: Store): (r: Store)
    ensures r.adminSession.None? && r.(adminSession := s.adminSession) == s
  {
    s.(adminSession := None)
  }
}

=== FILE: colors.dfy ===
/**
  Party colours, the banded heat-map and margin scales, margin labels, the
  white-to-party tint, and the confidence badge colours.
 */
module Colors {
  import opened Optional
  import opened JsString

  /** The party colour table, in declaration order. */
  const PartyColors: seq<(string, string)> := [
    ("DMK", "#b91c1c"), ("ADMK", "#15803d"), ("INC", "#0284c7"), ("INC+TVK", "#6d28d9"),
    ("BJP", "#ea580c"), ("TVK", "#7c3aed"), ("PMK", "#ca8a04"), ("DMDK", "#d97706"),
    ("VCK", "#4f46e5"), ("CPM", "#dc2626"), ("CPI", "#ef4444"), ("NTK", "#65a30d"),
    ("MNMK", "#059669"), ("AIFB", "#991b1b"), ("IUML", "#16a34a"), ("PT", "#9333ea"),
    ("MDMK", "#be123c"), ("Others", "#6b7280")
  ]

  const NoPartyColor := "#e2e8f0"
  const UnknownPartyColor := "#94a3b8"

  /** `PARTY_COLORS[party]`. */
  function TableColor(party: string): (r: Option<string>)
    ensures r.Some? <==> exists i :: 0 <= i < |PartyColors| && PartyColors[i].0 == party
    ensures r.Some? ==> exists i :: 0 <= i < |PartyColors| && PartyColors[i] == (party, r.value)
  {
    LookUp(PartyColors, party)
  }

  function LookUp(table: seq<(string, string)>, key: string): (r: Option<string>)
    ensures r.Some? <==> exists i :: 0 <= i < |table| && table[i].0 == key
    ensures r.Some? ==> exists i :: 0 <= i < |table| && table[i] == (key, r.value)
  {
    if |table| == 0 then None
    else if table[0].0 == key then Some(table[0].1)
    else
      var r := LookUp(table[1..], key);
      assert forall i :: 0 < i < |table| ==> table[i] == table[1..][i - 1];
      r
  }

  /** `getPartyColor`: no winner, a listed party, or an unlisted one. */
  function PartyColor(party: Option<string>): (c: string)
    ensures Truthy(party).None? ==> c == NoPartyColor
    ensures Truthy(party).Some? && TableColor(party.value).Some? ==> c == TableColor(party.value).value
    ensures Truthy(party).Some? && TableColor(party.value).None? ==> c == UnknownPartyColor
  {
    if Truthy(party).None? then NoPartyColor else TableColor(party.value).GetOr(UnknownPartyColor)
  }

  /** `getPartyColorLight`: the party colour with an alpha suffix. */
  function PartyColorLight(party: Option<string>): (c: string)
    ensures Truthy(party).None? ==> c == "#f8fafc"
    ensures Truthy(party).Some? ==> c == PartyColor(party) + "18"
  {
    if Truthy(party).None? then "#f8fafc" else TableColor(party.value).GetOr(UnknownPartyColor) + "18"
  }

  // ---------------------------------------------------------------------------
  // Heat-map scale.
  // ---------------------------------------------------------------------------

  const HeatPalette: seq<string> := [
    "#f8fafc", "#eff6ff", "#dbeafe", "#bfdbfe", "#93c5fd",
    "#60a5fa", "#3b82f6", "#2563eb", "#1d4ed8", "#1e40af"
  ]

  /** Which of the ten heat-map colours `getHeatmapColor` picks. */
  function HeatmapBand(share: real): (b: nat)
    ensures b < |HeatPalette|
  {
    if share <= 0.0 then 0
    else if share < 0.05 then 1
    else if share < 0.10 then 2
    else if share < 0.15 then 3
    else if share < 0.20 then 4
    else if share < 0.25 then 5
    else if share < 0.30 then 6
    else if share < 0.35 then 7
    else if share < 0.40 then 8
    else 9
  }

  function HeatmapColor(share: real): (c: string)
    ensures c == HeatPalette[HeatmapBand(share)]
    ensures share <= 0.0 <==> c == "#f8fafc"
    ensures share >= 0.40 <==> c == "#1e40af"
  {
    HeatPalette[HeatmapBand(share)]
  }

  /** A positive share falls in the half-open 0.05-wide band it lies in, capped at the last. */
  lemma HeatmapBandArithmetic(share: real)
    requires share > 0.0
    ensures HeatmapBand(share) == if share >= 0.40 then 9 else (share / 0.05).Floor + 1
  {
    var k := (share / 0.05).Floor;
    assert k as real <= share / 0.05 < k as real + 1.0;
    assert k as real * 0.05 <= share < (k as real + 1.0) * 0.05;
  }

  /** More share never means a lighter colour. */
  lemma HeatmapMonotone(a: real, b: real)
    requires a <= b
    ensures HeatmapBand(a) <= HeatmapBand(b)
  {
  }

  // ---------------------------------------------------------------------------
  // Margin scale and labels.
  // ---------------------------------------------------------------------------

  const MarginCuts: seq<real> := [0.02, 0.05, 0.08, 0.10, 0.15, 0.20, 0.30]
  const MarginPalette: seq<string> := [
    "#7f1d1d", "#991b1b", "#b91c1c", "#dc2626", "#ef4444", "#f87171", "#fca5a5", "#fecaca"
  ]
  const MarginLabels: seq<string> := [
    "Razor-thin", "Tight", "Competitive", "Leaning", "Comfortable", "Strong", "Safe"
  ]

  function Abs(x: real): (r: real)
    ensures r >= 0.0 && (r == x || r == -x)
  {
    if x < 0.0 then -x else x
  }

  /** Which of the eight margin colours `getMarginColor` picks. */
  function MarginBand(margin: real): (b: nat)
    ensures b < |MarginPalette|
  {
    var m := Abs(margin);
    if m < 0.02 then 0
    else if m < 0.05 then 1
    else if m < 0.08 then 2
    else if m < 0.10 then 3
    else if m < 0.15 then 4
    else if m < 0.20 then 5
    else if m < 0.30 then 6
    else 7
  }

  function MarginColor(margin: real): (c: string)
    ensures c == MarginPalette[MarginBand(margin)]
    ensures c == MarginPalette[CutsReached(MarginCuts, Abs(margin))]
    ensures Abs(margin) < 0.02 <==> c == "#7f1d1d"
    ensures Abs(margin) >= 0.30 <==> c == "#fecaca"
  {
    MarginBandCounts(margin);
    MarginPalette[MarginBand(margin)]
  }

  /** How many of the cut-points the value has reached. */
  function CutsReached(cuts: seq<real>, m: real): (n: nat)
    ensures n <= |cuts|
  {
    if |cuts| == 0 then 0 else (if cuts[0] <= m then 1 else 0) + CutsReached(cuts[1..], m)
  }

  /** The margin band is the number of cut-points at or below the absolute margin. */
  lemma MarginBandCounts(margin: real)
    ensures MarginBand(margin) == CutsReached(MarginCuts, Abs(margin))
  {
    var m := Abs(margin);
    var c := MarginCuts;
    assert CutsReached([], m) == 0;
    assert CutsReached(c[6..], m) == CutsReached([], m) + (if 0.30 <= m then 1 else 0) by {
      assert c[6..][1..] == [];
    }
    assert CutsReached(c[5..], m) == CutsReached(c[6..], m) + (if 0.20 <= m then 1 else 0) by {
      assert c[5..][1..] == c[6..];
    }
    assert CutsReached(c[4..], m) == CutsReached(c[5..], m) + (if 0.15 <= m then 1 else 0) by {
      assert c[4..][1..] == c[5..];
    }
    assert CutsReached(c[3..], m) == CutsReached(c[4..], m) + (if 0.10 <= m then 1 else 0) by {
      assert c[3..][1..] == c[4..];
    }
    assert CutsReached(c[2..], m) == CutsReached(c[3..], m) + (if 0.08 <= m then 1 else 0) by {
      assert c[2..][1..] == c[3..];
    }
    assert CutsReached(c[1..], m) == CutsReached(c[2..], m) + (if 0.05 <= m then 1 else 0) by {
      assert c[1..][1..] == c[2..];
    }
    assert CutsReached(c, m) == CutsReached(c[1..], m) + (if 0.02 <= m then 1 else 0);
  }

  /** A margin and its negation get the same colour and label. */
  lemma MarginSymmetric(margin: real)
    ensures MarginColor(-margin) == MarginColor(margin)
    ensures MarginLabel(-margin) == MarginLabel(margin)
  {
  }

  /** A wider margin never gets a darker colour. */
  lemma MarginMonotone(a: real, b: real)
    requires Abs(a) <= Abs(b)
    ensures MarginBand(a) <= MarginBand(b)
  {
  }

  /** `getMarginLabel`. */
  function MarginLabel(margin: real): (l: string)
    ensures l in MarginLabels
    ensures l == "Safe" <==> Abs(margin) >= 0.20
  {
    var m := Abs(margin);
    if m < 0.02 then "Razor-thin"
    else if m < 0.05 then "Tight"
    else if m < 0.08 then "Competitive"
    else if m < 0.10 then "Leaning"
    else if m < 0.15 then "Comfortable"
    else if m < 0.20 then "Strong"
    else "Safe"
  }

  /** Labels follow the colour bands, with the two widest colours sharing "Safe". */
  lemma LabelFollowsBand(margin: real)
    ensures MarginLabel(margin) == MarginLabels[if MarginBand(margin) < 6 then MarginBand(margin) else 6]
  {
  }

  // ---------------------------------------------------------------------------
  // Party tint.
  // ---------------------------------------------------------------------------

  datatype Rgb = Rgb(r: int, g: int, b: int)

  predicate IsHexDigit(ch: char) {
    '0' <= ch <= '9' || 'a' <= ch <= 'f' || 'A' <= ch <= 'F'
  }

  /** The hex digits in lower case, each at the position of its value. */
  const HexDigits: string := "0123456789abcdef"

  /** The value of a hex digit: the position of its lower-case spelling in `HexDigits`. */
  function HexDigit(ch: char): (v: nat)
    requires IsHexDigit(ch)
    ensures v < 16 && HexDigits[v] == LowerChar(ch)
  {
    if '0' <= ch <= '9' then ch as int - '0' as int
    else if 'a' <= ch <= 'f' then ch as int - 'a' as int + 10
    else ch as int - 'A' as int + 10
  }

  /** `#rrggbb`. */
  predicate IsHexColor(hex: string) {
    |hex| == 7 && hex[0] == '#' && forall k :: 1 <= k < 7 ==> IsHexDigit(hex[k])
  }

  /** `parseInt` of each two-digit pair. */
  function ParseHexColor(hex: string): (c: Rgb)
    requires IsHexColor(hex)
    ensures 0 <= c.r < 256 && 0 <= c.g < 256 && 0 <= c.b < 256
    ensures HexDigits[c.r / 16] == LowerChar(hex[1]) && HexDigits[c.r % 16] == LowerChar(hex[2])
    ensures HexDigits[c.g / 16] == LowerChar(hex[3]) && HexDigits[c.g % 16] == LowerChar(hex[4])
    ensures HexDigits[c.b / 16] == LowerChar(hex[5]) && HexDigits[c.b % 16] == LowerChar(hex[6])
  {
    PairDigits(HexDigit(hex[1]), HexDigit(hex[2]));
    PairDigits(HexDigit(hex[3]), HexDigit(hex[4]));
    PairDigits(HexDigit(hex[5]), HexDigit(hex[6]));
    Rgb(16 * HexDigit(hex[1]) + HexDigit(hex[2]),
        16 * HexDigit(hex[3]) + HexDigit(hex[4]),
        16 * HexDigit(hex[5]) + HexDigit(hex[6]))
  }

  /** A two-digit base-16 number splits back into its digits. */
  lemma PairDigits(hi: nat, lo: nat)
    requires hi < 16 && lo < 16
    ensures 0 <= 16 * hi + lo < 256
    ensures (16 * hi + lo) / 16 == hi && (16 * hi + lo) % 16 == lo
  {
  }

  lemma TableColorsAreHex(party: string)
    ensures TableColor(party).Some? ==> IsHexColor(TableColor(party).value)
  {
    forall i | 0 <= i < |PartyColors|
      ensures IsHexColor(PartyColors[i].1)
    {
    }
  }

  /** `Math.max(0, Math.min(1, x))`. */
  function Clamp01(x: real): (t: real)
    ensures 0.0 <= t <= 1.0
    ensures 0.0 <= x <= 1.0 ==> t == x
    ensures x < 0.0 ==> t == 0.0
    ensures x > 1.0 ==> t == 1.0
  {
    if x < 0.0 then 0.0 else if x > 1.0 then 1.0 else x
  }

  /** `Math.round`: the nearest integer, halves rounding up. */
  function Round(x: real): (n: int)
    ensures n as real - 0.5 <= x < n as real + 0.5
  {
    (x + 0.5).Floor
  }

  /** One channel blended from white (t = 0) to the party channel (t = 1). */
  function Blend(channel: int, t: real): int {
    Round(255.0 + (channel - 255) as real * t)
  }

  /** `getPartyTintedColor`, as the three channels of the `rgb(...)` string it builds. */
  function TintedColor(party: Option<string>, intensity: real): (c: Rgb)
    ensures var base := ParseHexColor(BaseHex(party));
            var t := Clamp01(intensity);
            c == Rgb(Blend(base.r, t), Blend(base.g, t), Blend(base.b, t))
    ensures var base := ParseHexColor(BaseHex(party));
            base.r <= c.r <= 255 && base.g <= c.g <= 255 && base.b <= c.b <= 255
    ensures intensity <= 0.0 ==> c == Rgb(255, 255, 255)
    ensures intensity >= 1.0 ==> c == ParseHexColor(BaseHex(party))
  {
    var base := ParseHexColor(BaseHex(party));
    var t := Clamp01(intensity);
    BlendBetween(base.r, t);
    BlendBetween(base.g, t);
    BlendBetween(base.b, t);
    Rgb(Blend(base.r, t), Blend(base.g, t), Blend(base.b, t))
  }

  /** The colour the tint starts from: the table colour, grey for unlisted or no party. */
  function BaseHex(party: Option<string>): (hex: string)
    ensures IsHexColor(hex)
    ensures Truthy(party).Some? ==> hex == PartyColor(party)
  {
    TableColorsAreHex(if party.Some? then party.value else "");
    if Truthy(party).Some? then TableColor(party.value).GetOr(UnknownPartyColor) else UnknownPartyColor
  }

  /** A blended channel always lies between the party channel and white. */
  lemma BlendBetween(channel: int, t: real)
    requires 0 <= channel <= 255 && 0.0 <= t <= 1.0
    ensures channel <= Blend(channel, t) <= 255
    ensures t == 0.0 ==> Blend(channel, t) == 255
    ensures t == 1.0 ==> Blend(channel, t) == channel
  {
    var a := (channel - 255) as real;
    ScaleBetween(a, t);
    var x := 255.0 + a * t;
    assert channel as real <= x <= 255.0;
  }

  /** Scaling a non-positive amount by a factor in [0, 1] keeps it between itself and 0. */
  lemma ScaleBetween(a: real, t: real)
    requires a <= 0.0 && 0.0 <= t <= 1.0
    ensures a <= a * t <= 0.0
  {
    assert a * t - a == a * (t - 1.0);
    assert a * (t - 1.0) >= 0.0;
  }

  // ---------------------------------------------------------------------------
  // Confidence badges.
  // ---------------------------------------------------------------------------

  /** The three badge levels: `high`, `medium`, and everything else (including missing). */
  datatype ConfidenceLevel = High | Medium | Low

  function Level(confidence: Option<string>): (l: ConfidenceLevel)
    ensures l == High <==> confidence == Some("high")
    ensures l == Medium <==> confidence == Some("medium")
  {
    if confidence == Some("high") then High
    else if confidence == Some("medium") then Medium
    else Low
  }

  /** One colour per level. */
  datatype LevelPalette = LevelPalette(high: string, medium: string, low: string)
  {
    function Pick(l: ConfidenceLevel): string {
      match l
      case High => high
      case Medium => medium
      case Low => low
    }
  }

  const BadgeText := LevelPalette("#16a34a", "#d97706", "#dc2626")
  const BadgeBackground := LevelPalette("#f0fdf4", "#fffbeb", "#fef2f2")

  /** `getConfidenceColor`. */
  function ConfidenceColor(confidence: Option<string>): (c: string)
    ensures confidence == Some("high") ==> c == "#16a34a"
    ensures confidence == Some("medium") ==> c == "#d97706"
    ensures confidence != Some("high") && confidence != Some("medium") ==> c == "#dc2626"
  {
    BadgeText.Pick(Level(confidence))
  }

  /** `getConfidenceBg`. */
  function ConfidenceBg(confidence: Option<string>): (c: string)
    ensures confidence == Some("high") ==> c == "#f0fdf4"
    ensures confidence == Some("medium") ==> c == "#fffbeb"
    ensures confidence != Some("high") && confidence != Some("medium") ==> c == "#fef2f2"
  {
    BadgeBackground.Pick(Level(confidence))
  }

  /** A badge's text colour and background always name the same level: two confidences
      share a colour exactly when they share a background. */
  lemma ConfidenceBadgeAgrees(a: Option<string>, b: Option<string>)
    ensures ConfidenceColor(a) == ConfidenceColor(b) <==> ConfidenceBg(a) == ConfidenceBg(b)
  {
  }
}

=== FILE: dashboard.dfy ===
/**
  The dashboard's shared state: the selected year, the alliance builder's party list,
  the directly chosen 2026 scenario, and the view controls; and how the active
  scenario is derived from it and written back to it.
 */
module Dashboard {
  import opened Optional
  import opened Records

  datatype ViewMode = PartyView | HeatmapView | MarginView | TvkView | CrystalView
  datatype HeatmapSubMode = AllParties | IncOnly

  datatype State = State(
    year: int,
    forecastMode: bool,
    alliances: seq<string>,
    directScenario: Scenario,
    hovered: Option<string>,
    selected: Option<string>,
    viewMode: ViewMode,
    heatmapSubMode: HeatmapSubMode,
    searchQuery: string,
    partyFilter: seq<string>,
    showComparison: bool,
    show2021Baseline: bool
  )

  /** The state the provider starts in. */
  function Initial(): (st: State)
    ensures st.year == 2026 && st.forecastMode
    ensures st.alliances == [] && st.directScenario == A
    ensures st.hovered.None? && st.selected.None?
    ensures st.viewMode == PartyView && st.heatmapSubMode == AllParties
    ensures st.searchQuery == "" && st.partyFilter == []
    ensures !st.showComparison && !st.show2021Baseline
  {
    State(2026, true, [], A, None, None, PartyView, AllParties, "", [], false, false)
  }

  /** `deriveV8Scenario`: the 2011-2021 scenario implied by INC's partners. */
  function DeriveV8Scenario(alliances: seq<string>): (s: Scenario)
    ensures s in {A, B, C, NONE}
    ensures s == NONE <==> |alliances| == 0
    ensures s == A <==> "DMK" in alliances
    ensures s == B <==> "DMK" !in alliances && "ADMK" in alliances
  {
    if |alliances| == 0 then NONE
    else if "DMK" in alliances then A
    else if "ADMK" in alliances then B
    else C
  }

  /** `activeScenario`. */
  function ActiveScenario(st: State): (s: Scenario)
    ensures st.year == 2026 ==> s == st.directScenario
    ensures st.year != 2026 ==> s == DeriveV8Scenario(st.alliances)
  {
    if st.year == 2026 then st.directScenario else DeriveV8Scenario(st.alliances)
  }

  /** `setActiveScenario`: in 2026 only the direct choice changes; otherwise the
      alliance list is replaced by the one standing for the scenario. */
  function SetActiveScenario(st: State, s: Scenario): (r: State)
    ensures st.year == 2026 ==> r == st.(directScenario := s)
    ensures st.year != 2026 ==> r.(alliances := st.alliances) == st
    ensures st.year != 2026 && s == A ==> r.alliances == ["DMK"]
    ensures st.year != 2026 && s == B ==> r.alliances == ["ADMK"]
    ensures st.year != 2026 && s !in {A, B} ==> r.alliances == []
  {
    if st.year == 2026 then st.(directScenario := s)
    else if s == A then st.(alliances := ["DMK"])
    else if s == B then st.(alliances := ["ADMK"])
    else st.(alliances := [])
  }

  /** Setting then reading the scenario: exact in 2026 and for A and B in other years;
      in other years every other choice reads back as no scenario. */
  lemma SetThenGet(st: State, s: Scenario)
    ensures st.year == 2026 ==> ActiveScenario(SetActiveScenario(st, s)) == s
    ensures st.year != 2026 && s in {A, B} ==> ActiveScenario(SetActiveScenario(st, s)) == s
    ensures st.year != 2026 && s !in {A, B} ==> ActiveScenario(SetActiveScenario(st, s)) == NONE
  {
  }

  /** Writing back the scenario just read changes nothing that can be read: the active
      scenario stays, and in 2026 the whole state is unchanged. */
  lemma GetThenSet(st: State)
    ensures ActiveScenario(SetActiveScenario(st, ActiveScenario(st))) in {ActiveScenario(st), NONE}
    ensures st.year == 2026 ==> SetActiveScenario(st, ActiveScenario(st)) == st
  {
  }
}

=== FILE: emailformat.dfy ===
/**
  The email shape both the access gate and the admin panel accept: the regular
  expression `^[^\s@]+@[^\s@]+\.[^\s@]+$`. A local part, one `@`, and a domain holding a
  dot with something on both sides of it; no whitespace and no second `@` anywhere.
 */
module EmailFormat {
  import opened JsString

  /** A run of `[^\s@]+`. */
  predicate Part(s: string) {
    |s| > 0 && forall k :: 0 <= k < |s| ==> !IsWhitespace(s[k]) && s[k] != '@'
  }

  /** The language of the regular expression: the string splits at some `@` (index `i`)
      and some later `.` (index `j`) into three non-empty runs. */
  ghost predicate MatchesPattern(s: string) {
    exists i, j :: 0 < i && i + 1 < j && j + 1 < |s| && s[i] == '@' && s[j] == '.'
      && Part(s[..i]) && Part(s[i + 1..j]) && Part(s[j + 1..])
  }

  /** A domain with a dot that is neither its first nor its last character. */
  predicate HasInnerDot(d: string) {
    exists k :: 1 <= k < |d| - 1 && d[k] == '.'
  }

  /** The validator: no whitespace, a first `@` that is not the first character and is
      the only one, and a domain with an inner dot. */
  predicate ValidEmail(s: string) {
    var i := IndexOf(s, '@');
    NoWhitespace(s) && 0 < i < |s| && '@' !in s[i + 1..] && HasInnerDot(s[i + 1..])
  }

  lemma IndexOfFirst(s: string, c: char, i: nat)
    requires i < |s| && s[i] == c
    requires forall k :: 0 <= k < i ==> s[k] != c
    ensures IndexOf(s, c) == i
  {
    var n := IndexOf(s, c);
    assert n <= i;
    assert n < |s| ==> s[n] == c;
  }

  lemma ValidMatches(s: string)
    requires ValidEmail(s)
    ensures MatchesPattern(s)
  {
    var i := IndexOf(s, '@');
    var d := s[i + 1..];
    var k :| 1 <= k < |d| - 1 && d[k] == '.';
    var j := i + 1 + k;
    var local, mid, top := s[..i], s[i + 1..j], s[j + 1..];
    assert s[j] == d[k];
    forall m | 0 <= m < |local|
      ensures !IsWhitespace(local[m]) && local[m] != '@'
    {
      assert local[m] == s[m];
    }
    forall m | 0 <= m < |mid|
      ensures !IsWhitespace(mid[m]) && mid[m] != '@'
    {
      assert mid[m] == d[m];
    }
    forall m | 0 <= m < |top|
      ensures !IsWhitespace(top[m]) && top[m] != '@'
    {
      assert top[m] == d[k + 1 + m];
    }
    assert Part(local) && Part(mid) && Part(top);
  }

  lemma MatchesValid(s: string, i: int, j: int)
    requires 0 < i && i + 1 < j && j + 1 < |s| && s[i] == '@' && s[j] == '.'
    requires Part(s[..i]) && Part(s[i + 1..j]) && Part(s[j + 1..])
    ensures ValidEmail(s)
  {
    var local, mid, top := s[..i], s[i + 1..j], s[j + 1..];
    forall m | 0 <= m < i
      ensures s[m] != '@'
    {
      assert s[m] == local[m];
    }
    IndexOfFirst(s, '@', i);
    var d := s[i + 1..];
    forall m | 0 <= m < |s|
      ensures !IsWhitespace(s[m])
    {
      if m < i {
        assert s[m] == local[m];
      } else if i < m < j {
        assert s[m] == mid[m - i - 1];
      } else if j < m {
        assert s[m] == top[m - j - 1];
      }
    }
    forall m | 0 <= m < |d|
      ensures d[m] != '@'
    {
      if i + 1 + m < j {
        assert d[m] == mid[m];
      } else if i + 1 + m > j {
        assert d[m] == top[m - (j - i)];
      }
    }
    assert d[j - i - 1] == '.';
  }

  /** The validator accepts exactly the strings of the regular expression's language. */
  lemma ValidEmailIff(s: string)
    ensures ValidEmail(s) <==> MatchesPattern(s)
  {
    if ValidEmail(s) {
      ValidMatches(s);
    }
    if MatchesPattern(s) {
      var i, j :| 0 < i && i + 1 < j && j + 1 < |s| && s[i] == '@' && s[j] == '.'
        && Part(s[..i]) && Part(s[i + 1..j]) && Part(s[j + 1..]);
      MatchesValid(s, i, j);
    }
  }

  /** Some addresses on either side of the line. */
  lemma EmailExamples()
    ensures ValidEmail("a@b.co")
    ensures !ValidEmail("a@b")
    ensures !ValidEmail("@b.co")
    ensures !ValidEmail("a@.co")
    ensures !ValidEmail("a@b.")
    ensures !ValidEmail("a b@c.de")
    ensures !ValidEmail("a@b@c.de")
  {
    assert ValidEmail("a@b.co") by {
      assert IndexOf("a@b.co", '@') == 1;
      assert "a@b.co"[2..][1] == '.';
    }
    MissingPartExamples();
    StrayCharacterExamples();
  }

  /** An empty local part, an empty domain label or no dot at all. */
  lemma MissingPartExamples()
    ensures !ValidEmail("a@b")
    ensures !ValidEmail("@b.co")
    ensures !ValidEmail("a@.co")
    ensures !ValidEmail("a@b.")
  {
    assert IndexOf("a@b", '@') == 1;
    assert IndexOf("@b.co", '@') == 0;
    assert IndexOf("a@.co", '@') == 1;
    assert IndexOf("a@b.", '@') == 1;
  }

  /** Whitespace, or a second `@`. */
  lemma StrayCharacterExamples()
    ensures !ValidEmail("a b@c.de")
    ensures !ValidEmail("a@b@c.de")
  {
    assert IsWhitespace("a b@c.de"[1]);
    assert IndexOf("a@b@c.de", '@') == 1;
    assert "a@b@c.de"[2..][1] == '@';
  }
}

=== FILE: extractmap.dfy ===
/**
  The shapefile extractor: keep the Tamil Nadu features of the India assembly
  shapefile, match each shapefile constituency name to a name of the prediction data
  (manual table first, then exact, prefix and containment matches on a normalized
  form), and write each feature with its matched name, its original name and its
  assembly number.

  Reading the shapefile, the choice of the attribute that holds the constituency name
  and the diagnostic listings are not modelled; the attribute values arrive as fields.
 */
module ExtractMap {
  import opened Optional
  import opened SeqUtil
  import opened JsString
  import opened StringOrder

  /** The attributes of one shapefile feature that the extractor reads. A missing or
      empty string attribute is `None`; a missing or zero number is `None` or `Some(0)`. */
  datatype ShpFeature<G> = ShpFeature(
    stName: Option<string>, stateNameTitle: Option<string>, stateNameLower: Option<string>, state: Option<string>,
    acName: string, acNoUpper: Option<int>, acNoLower: Option<int>, geometry: G)

  // ---------------------------------------------------------------------------
  // The Tamil Nadu filter.
  // ---------------------------------------------------------------------------

  /** `ST_NAME || State_Name || state_name || STATE || ''`. */
  function StateOf<G>(f: ShpFeature<G>): (s: string)
    ensures Truthy(f.stName).Some? ==> s == f.stName.value
    ensures s == "" <==> Truthy(f.stName).None? && Truthy(f.stateNameTitle).None?
                         && Truthy(f.stateNameLower).None? && Truthy(f.state).None?
  {
    OrElse(Truthy(f.stName), OrElse(Truthy(f.stateNameTitle), OrElse(Truthy(f.stateNameLower), Truthy(f.state)))).GetOr("")
  }

  predicate IsTamilNadu<G>(f: ShpFeature<G>) {
    var s := ToLower(StateOf(f));
    Includes(s, "tamil") || Includes(s, "tn")
  }

  function TamilNaduTest<G>(): ShpFeature<G> -> bool {
    (f: ShpFeature<G>) => IsTamilNadu(f)
  }

  /** A feature is kept exactly when its lower-cased state string contains "tamil" or
      "tn" somewhere; a feature with no state attribute is dropped. */
  lemma TamilNaduIff<G>(f: ShpFeature<G>)
    ensures IsTamilNadu(f) <==>
      (exists i :: OccursAt(ToLower(StateOf(f)), "tamil", i)) || (exists i :: OccursAt(ToLower(StateOf(f)), "tn", i))
    ensures StateOf(f) == "" ==> !IsTamilNadu(f)
  {
    IncludesIff(ToLower(StateOf(f)), "tamil");
    IncludesIff(ToLower(StateOf(f)), "tn");
  }

  /** Upper or lower case, "Tamil Nadu" in the first state attribute is recognised. */
  lemma TamilNaduRecognised<G>(f: ShpFeature<G>)
    requires f.stName == Some("Tamil Nadu") || f.stName == Some("TAMIL NADU")
    ensures IsTamilNadu(f)
  {
    var s := ToLower(StateOf(f));
    assert s == "tamil nadu";
    assert StartsWith(s, "tamil");
  }

  // ---------------------------------------------------------------------------
  // Name normalization.
  // ---------------------------------------------------------------------------

  predicate IsLetter(c: char) {
    'a' <= c <= 'z'
  }

  /** `s.replace(/[^a-z]/g, '')`. */
  function KeepLetters(s: string): (r: string)
    ensures |r| <= |s|
    ensures forall k :: 0 <= k < |r| ==> IsLetter(r[k])
  {
    if |s| == 0 then []
    else (if IsLetter(s[0]) then [s[0]] else []) + KeepLetters(s[1..])
  }


  /** `normalize` in one pass: each character lower-cased, kept when it is then a-z. */
  function NormalizeName(s: string): (r: string)
    ensures |r| <= |s|
    ensures forall k :: 0 <= k < |r| ==> IsLetter(r[k])
  {
    if |s| == 0 then []
    else (if IsLetter(LowerChar(s[0])) then [LowerChar(s[0])] else []) + NormalizeName(s[1..])
  }

  /** The one pass is `normalize` as written: lower-case the whole string, then drop
      everything but a-z. */
  lemma {:induction false} NormalizeNameIsLowerThenLetters(s: string)
    ensures NormalizeName(s) == KeepLetters(ToLower(s))
  {
    if |s| > 0 {
      NormalizeNameIsLowerThenLetters(s[1..]);
      assert ToLower(s)[1..] == ToLower(s[1..]);
    }
  }

  /** Normalizing twice is normalizing once. */
  lemma {:induction false} NormalizeNameIdempotent(s: string)
    ensures NormalizeName(NormalizeName(s)) == NormalizeName(s)
  {
    var r := NormalizeName(s);
    LettersNormalized(r);
  }

  /** A string of letters a-z normalizes to itself. */
  lemma {:induction false} LettersNormalized(s: string)
    requires forall k :: 0 <= k < |s| ==> IsLetter(s[k])
    ensures NormalizeName(s) == s
  {
    if |s| > 0 {
      LettersNormalized(s[1..]);
      assert s == [s[0]] + s[1..];
    }
  }

  // ---------------------------------------------------------------------------
  // The matching chain.
  // ---------------------------------------------------------------------------

  /** `list.find(p)`: the first element that satisfies `p`. */
  function Find(list: seq<string>, p: string -> bool): (r: Option<string>)
    ensures r.None? <==> forall k :: 0 <= k < |list| ==> !p(list[k])
    ensures r.Some? ==> exists i :: 0 <= i < |list| && list[i] == r.value && p(list[i])
                                    && forall k :: 0 <= k < i ==> !p(list[k])
  {
    if |list| == 0 then None
    else if p(list[0]) then Some(list[0])
    else
      var r := Find(list[1..], p);
      FindShift(list, p, r);
      r
  }

  lemma FindShift(list: seq<string>, p: string -> bool, r: Option<string>)
    requires |list| > 0 && !p(list[0])
    requires r.None? <==> forall k :: 0 <= k < |list[1..]| ==> !p(list[1..][k])
    requires r.Some? ==> exists i :: 0 <= i < |list[1..]| && list[1..][i] == r.value && p(list[1..][i])
                                     && forall k :: 0 <= k < i ==> !p(list[1..][k])
    ensures r.None? <==> forall k :: 0 <= k < |list| ==> !p(list[k])
    ensures r.Some? ==> exists i :: 0 <= i < |list| && list[i] == r.value && p(list[i])
                                    && forall k :: 0 <= k < i ==> !p(list[k])
  {
    var t := list[1..];
    if r.Some? {
      var i :| 0 <= i < |t| && t[i] == r.value && p(t[i]) && forall k :: 0 <= k < i ==> !p(t[k]);
      assert list[i + 1] == r.value;
      forall k | 0 <= k < i + 1 ensures !p(list[k]) {
        if k > 0 {
          assert list[k] == t[k - 1];
        }
      }
    } else {
      forall k | 0 <= k < |list| ensures !p(list[k]) {
        if k > 0 {
          assert list[k] == t[k - 1];
        }
      }
    }
  }

  function ExactTest(shpNorm: string): string -> bool {
    (n: string) => NormalizeName(n) == shpNorm
  }

  function PrefixTest(shpNorm: string): string -> bool {
    (n: string) => StartsWith(NormalizeName(n), shpNorm) || StartsWith(shpNorm, NormalizeName(n))
  }

  function ContainsTest(shpNorm: string): string -> bool {
    (n: string) => Includes(NormalizeName(n), shpNorm) || Includes(shpNorm, NormalizeName(n))
  }

  /** Three searches tried in turn: the first hit that is not the empty string. */
  function Cascade(list: seq<string>, first: string -> bool, second: string -> bool, third: string -> bool): Option<string> {
    var a := Truthy(Find(list, first));
    if a.Some? then a
    else
      var b := Truthy(Find(list, second));
      if b.Some? then b else Truthy(Find(list, third))
  }

  lemma FindListed(list: seq<string>, p: string -> bool)
    ensures Find(list, p).Some? ==> Find(list, p).value in list
  {
    if Find(list, p).Some? {
      var i :| 0 <= i < |list| && list[i] == Find(list, p).value && p(list[i])
               && forall k :: 0 <= k < i ==> !p(list[k]);
    }
  }

  /** A cascade hit is a non-empty listed name. */
  lemma CascadeListed(list: seq<string>, first: string -> bool, second: string -> bool, third: string -> bool)
    ensures var r := Cascade(list, first, second, third);
            r.Some? ==> r.value in list && r.value != ""
  {
    FindListed(list, first);
    FindListed(list, second);
    FindListed(list, third);
  }

  /** When the later searches accept whatever the earlier ones accept and no listed name is
      empty, the cascade finds nothing exactly when the last search finds nothing. */
  lemma CascadeNoneIff(list: seq<string>, first: string -> bool, second: string -> bool, third: string -> bool)
    requires forall k :: 0 <= k < |list| ==> list[k] != ""
    requires forall k :: 0 <= k < |list| ==> (first(list[k]) ==> third(list[k])) && (second(list[k]) ==> third(list[k]))
    ensures Cascade(list, first, second, third).None? <==> forall k :: 0 <= k < |list| ==> !third(list[k])
  {
    var e := Find(list, first);
    var p := Find(list, second);
    if e.Some? {
      var i :| 0 <= i < |list| && list[i] == e.value && first(list[i]) && forall k :: 0 <= k < i ==> !first(list[k]);
    }
    if p.Some? {
      var i :| 0 <= i < |list| && list[i] == p.value && second(list[i]) && forall k :: 0 <= k < i ==> !second(list[k]);
    }
  }

  /** The first name the first search accepts wins, when it is not empty. */
  lemma CascadeFirst(list: seq<string>, first: string -> bool, second: string -> bool, third: string -> bool, i: nat)
    requires i < |list| && list[i] != "" && first(list[i])
    requires forall k :: 0 <= k < i ==> !first(list[k])
    ensures Cascade(list, first, second, third) == Some(list[i])
  {
    var e := Find(list, first);
    var j :| 0 <= j < |list| && list[j] == e.value && first(list[j]) && forall k :: 0 <= k < j ==> !first(list[k]);
    assert !(j < i) && !(i < j);
  }

  /** With no name for the first search, the first name the second accepts wins. */
  lemma CascadeSecond(list: seq<string>, first: string -> bool, second: string -> bool, third: string -> bool, i: nat)
    requires forall k :: 0 <= k < |list| ==> !first(list[k])
    requires i < |list| && list[i] != "" && second(list[i])
    requires forall k :: 0 <= k < i ==> !second(list[k])
    ensures Cascade(list, first, second, third) == Some(list[i])
  {
    var e := Find(list, second);
    var j :| 0 <= j < |list| && list[j] == e.value && second(list[j]) && forall k :: 0 <= k < j ==> !second(list[k]);
    assert !(j < i) && !(i < j);
  }

  /** The automatic match of a shapefile name: exact, else prefix, else containment,
      each the first hit in `list`; a hit that is the empty string counts as none. */
  function AutoMatch(list: seq<string>, shpName: string): Option<string> {
    var shpNorm := NormalizeName(shpName);
    Cascade(list, ExactTest(shpNorm), PrefixTest(shpNorm), ContainsTest(shpNorm))
  }

  /** The name a shapefile name is mapped to: the manual table wins, then the automatic
      match; `None` when unmatched. */
  function Match(manual: map<string, string>, list: seq<string>, shpName: string): (m: Option<string>)
    ensures m.Some? ==> m.value != ""
    ensures shpName in manual && manual[shpName] != "" ==> m == Some(manual[shpName])
    ensures m.Some? && !(shpName in manual && manual[shpName] != "") ==> m.value in list
  {
    if shpName in manual && manual[shpName] != "" then Some(manual[shpName])
    else
      var shpNorm := NormalizeName(shpName);
      CascadeListed(list, ExactTest(shpNorm), PrefixTest(shpNorm), ContainsTest(shpNorm));
      AutoMatch(list, shpName)
  }

  lemma StartsWithIncludes(s: string, sub: string)
    requires StartsWith(s, sub)
    ensures Includes(s, sub)
  {
    if |s| > 0 {
      assert StartsWith(s, sub);
    }
  }

  /** Each step of the chain accepts at least what the step before it accepts. */
  lemma TestsNest(shpNorm: string, n: string)
    ensures ExactTest(shpNorm)(n) ==> PrefixTest(shpNorm)(n)
    ensures PrefixTest(shpNorm)(n) ==> ContainsTest(shpNorm)(n)
  {
    var m := NormalizeName(n);
    if StartsWith(m, shpNorm) {
      StartsWithIncludes(m, shpNorm);
    }
    if StartsWith(shpNorm, m) {
      StartsWithIncludes(shpNorm, m);
    }
    if m == shpNorm {
      assert m[..|shpNorm|] == m;
    }
  }

  /** When no listed name is empty, a name without a manual entry stays unmatched exactly
      when no listed name's normalized form contains, or is contained in, its own. */
  lemma UnmatchedIff(manual: map<string, string>, list: seq<string>, shpName: string)
    requires forall k :: 0 <= k < |list| ==> list[k] != ""
    requires shpName !in manual
    ensures Match(manual, list, shpName).None? <==>
      forall k :: 0 <= k < |list| ==> !ContainsTest(NormalizeName(shpName))(list[k])
  {
    var shpNorm := NormalizeName(shpName);
    forall k | 0 <= k < |list|
      ensures (ExactTest(shpNorm)(list[k]) ==> ContainsTest(shpNorm)(list[k]))
           && (PrefixTest(shpNorm)(list[k]) ==> ContainsTest(shpNorm)(list[k]))
    {
      TestsNest(shpNorm, list[k]);
    }
    CascadeNoneIff(list, ExactTest(shpNorm), PrefixTest(shpNorm), ContainsTest(shpNorm));
  }

  /** An exact normalized match, when there is one, is the first such name in the list;
      a prefix or containment match of an earlier name never takes its place. */
  lemma ExactMatchWins(manual: map<string, string>, list: seq<string>, shpName: string, i: nat)
    requires shpName !in manual
    requires i < |list| && list[i] != "" && NormalizeName(list[i]) == NormalizeName(shpName)
    requires forall k :: 0 <= k < i ==> NormalizeName(list[k]) != NormalizeName(shpName)
    ensures Match(manual, list, shpName) == Some(list[i])
  {
    var shpNorm := NormalizeName(shpName);
    CascadeFirst(list, ExactTest(shpNorm), PrefixTest(shpNorm), ContainsTest(shpNorm), i);
  }

  /** A listed name whose normalized form is empty is a prefix of every normalized name:
      when it comes first in the list, every name without a manual entry or an exact match
      is mapped to it. */
  lemma LetterlessNameCaptures(manual: map<string, string>, list: seq<string>, shpName: string)
    requires shpName !in manual
    requires |list| > 0 && list[0] != "" && NormalizeName(list[0]) == ""
    requires forall k :: 0 <= k < |list| ==> NormalizeName(list[k]) != NormalizeName(shpName)
    ensures Match(manual, list, shpName) == Some(list[0])
  {
    var shpNorm := NormalizeName(shpName);
    assert StartsWith(shpNorm, NormalizeName(list[0]));
    assert PrefixTest(shpNorm)(list[0]);
    CascadeSecond(list, ExactTest(shpNorm), PrefixTest(shpNorm), ContainsTest(shpNorm), 0);
  }

  // ---------------------------------------------------------------------------
  // The name map, the counts and the output.
  // ---------------------------------------------------------------------------

  function MatchedTest<G>(manual: map<string, string>, list: seq<string>): ShpFeature<G> -> bool {
    HitTest(MatchFn(manual, list))
  }

  /** The matcher as a value, so that the matching loop can be stated for any matcher. */
  function MatchFn(manual: map<string, string>, list: seq<string>): string -> Option<string> {
    (n: string) => Match(manual, list, n)
  }

  function HitTest<G>(matcher: string -> Option<string>): ShpFeature<G> -> bool {
    (f: ShpFeature<G>) => matcher(f.acName).Some?
  }

  /** The matching loop: every feature's name gets an entry, its match or itself, and is
      counted once, as matched or as unmatched. */
  method BuildNameMap<G>(features: seq<ShpFeature<G>>, manual: map<string, string>, list: seq<string>)
    returns (nameMap: map<string, string>, matched: nat, unmatched: nat)
    ensures matched + unmatched == |features|
    ensures matched == |Filter(features, MatchedTest(manual, list))|
    ensures forall n :: n in nameMap <==> exists k :: 0 <= k < |features| && features[k].acName == n
    ensures forall n :: n in nameMap ==> nameMap[n] == Match(manual, list, n).GetOr(n)
  {
    nameMap, matched, unmatched := NameMapLoop(features, MatchFn(manual, list));
  }

  /** The loop itself, for any matcher. */
  method NameMapLoop<G>(features: seq<ShpFeature<G>>, matcher: string -> Option<string>)
    returns (nameMap: map<string, string>, matched: nat, unmatched: nat)
    ensures matched + unmatched == |features|
    ensures matched == |Filter(features, HitTest(matcher))|
    ensures forall n :: n in nameMap <==> exists k :: 0 <= k < |features| && features[k].acName == n
    ensures forall n :: n in nameMap ==> nameMap[n] == matcher(n).GetOr(n)
  {
    nameMap := map[];
    matched, unmatched := 0, 0;
    var i := 0;
    while i < |features|
      invariant 0 <= i <= |features|
      invariant matched + unmatched == i
      invariant matched == |Filter(features[..i], HitTest(matcher))|
      invariant forall n :: n in nameMap <==> exists k :: 0 <= k < i && features[k].acName == n
      invariant forall n :: n in nameMap ==> nameMap[n] == matcher(n).GetOr(n)
    {
      var f := features[i];
      var m := matcher(f.acName);
      HitCountStep(features, i, matcher);
      NameMapStep(nameMap, features, i, matcher);
      nameMap := nameMap[f.acName := m.GetOr(f.acName)];
      if m.Some? {
        matched := matched + 1;
      } else {
        unmatched := unmatched + 1;
      }
      i := i + 1;
    }
    assert features[..|features|] == features;
  }

  /** One more feature adds one to the count of matched features exactly when its name matches. */
  lemma HitCountStep<G>(features: seq<ShpFeature<G>>, i: nat, matcher: string -> Option<string>)
    requires i < |features|
    ensures |Filter(features[..i + 1], HitTest(matcher))|
         == |Filter(features[..i], HitTest(matcher))| + (if matcher(features[i].acName).Some? then 1 else 0)
  {
    assert features[..i + 1] == features[..i] + [features[i]];
    FilterAppend(features[..i], features[i], HitTest(matcher));
  }

  /** Recording one more feature's name keeps a name map's keys and values right: every
      name seen so far is a key, mapped to its match or to itself. */
  lemma NameMapStep<G>(nameMap: map<string, string>, features: seq<ShpFeature<G>>, i: nat,
                       matcher: string -> Option<string>)
    requires i < |features|
    requires forall n :: n in nameMap <==> exists k :: 0 <= k < i && features[k].acName == n
    requires forall n :: n in nameMap ==> nameMap[n] == matcher(n).GetOr(n)
    ensures var key := features[i].acName;
            var next := nameMap[key := matcher(key).GetOr(key)];
            (forall n :: n in next <==> exists k :: 0 <= k < i + 1 && features[k].acName == n)
            && (forall n :: n in next ==> next[n] == matcher(n).GetOr(n))
  {
    var key := features[i].acName;
    var next := nameMap[key := matcher(key).GetOr(key)];
    forall n
      ensures n in next <==> exists k :: 0 <= k < i + 1 && features[k].acName == n
    {
      if n == key {
        assert features[i].acName == n;
      }
    }
  }


  /** The properties of a written feature. */
  datatype OutFeature<G> = OutFeature(name: string, shpName: string, acNo: Option<int>, geometry: G)

  /** A number attribute's truthiness: `0` is falsy. */
  function TruthyNum(o: Option<int>): (r: Option<int>)
    ensures r.Some? <==> o.Some? && o.value != 0
    ensures r.Some? ==> r == o
  {
    if o.Some? && o.value != 0 then o else None
  }

  /** The written feature: the mapped name (or the original when the entry is empty), the
      original name, and `AC_NO || ac_no || null`. */
  function Output<G>(nameMap: map<string, string>, f: ShpFeature<G>): (o: OutFeature<G>)
    ensures o.shpName == f.acName && o.geometry == f.geometry
    ensures o.name != "" || f.acName == ""
    ensures f.acName !in nameMap ==> o.name == f.acName
    ensures f.acName in nameMap ==> o.name == (if nameMap[f.acName] != "" then nameMap[f.acName] else f.acName)
    ensures o.acNo.Some? ==> o.acNo.value != 0 && (o.acNo == f.acNoUpper || o.acNo == f.acNoLower)
    ensures TruthyNum(f.acNoUpper).Some? ==> o.acNo == f.acNoUpper
    ensures TruthyNum(f.acNoUpper).None? ==> o.acNo == TruthyNum(f.acNoLower)
  {
    var mapped := if f.acName in nameMap then Present(nameMap[f.acName]) else None;
    OutFeature(mapped.GetOr(f.acName), f.acName, OrElse(TruthyNum(f.acNoUpper), TruthyNum(f.acNoLower)), f.geometry)
  }

  /** The whole extractor: no output when no feature is in Tamil Nadu; otherwise one
      written feature per Tamil Nadu feature, in order, named by its match against the
      sorted, duplicate-free list of the data's names. */
  method Extract<G>(all: seq<ShpFeature<G>>, manual: map<string, string>, dataNames: seq<string>)
    returns (out: Option<seq<OutFeature<G>>>)
    ensures out.None? <==> forall k :: 0 <= k < |all| ==> !IsTamilNadu(all[k])
    ensures out.Some? ==> |out.value| == |Filter(all, TamilNaduTest())|
    ensures out.Some? ==> forall k :: 0 <= k < |out.value| ==>
      var f := Filter(all, TamilNaduTest())[k];
      && out.value[k].shpName == f.acName
      && out.value[k].name == Match(manual, SortStrings(Dedup(dataNames)), f.acName).GetOr(f.acName)
      && out.value[k].acNo == OrElse(TruthyNum(f.acNoUpper), TruthyNum(f.acNoLower))
      && out.value[k].geometry == f.geometry
  {
    var list := SortStrings(Dedup(dataNames));
    out := ExtractWith(all, TamilNaduTest(), MatchFn(manual, list));
  }

  /** The extractor for any state test and any matcher. */
  method ExtractWith<G>(all: seq<ShpFeature<G>>, inState: ShpFeature<G> -> bool, matcher: string -> Option<string>)
    returns (out: Option<seq<OutFeature<G>>>)
    requires forall n :: matcher(n).Some? ==> matcher(n).value != ""
    ensures out.None? <==> forall k :: 0 <= k < |all| ==> !inState(all[k])
    ensures out.Some? ==> |out.value| == |Filter(all, inState)|
    ensures out.Some? ==> forall k :: 0 <= k < |out.value| ==>
      var f := Filter(all, inState)[k];
      && out.value[k].shpName == f.acName
      && out.value[k].name == matcher(f.acName).GetOr(f.acName)
      && out.value[k].acNo == OrElse(TruthyNum(f.acNoUpper), TruthyNum(f.acNoLower))
      && out.value[k].geometry == f.geometry
  {
    var tn := Filter(all, inState);
    FilterKeepsNone(all, inState);
    if |tn| == 0 {
      return None;
    }
    var nameMap, matched, unmatched := NameMapLoop(tn, matcher);
    var written := seq(|tn|, k requires 0 <= k < |tn| => Output(nameMap, tn[k]));
    forall k | 0 <= k < |tn|
      ensures written[k].name == matcher(tn[k].acName).GetOr(tn[k].acName)
    {
      assert tn[k].acName in nameMap;
    }
    out := Some(written);
  }

  /** The extractor as the script runs it, with its own manual table: a Tamil Nadu feature
      whose name is in the table is written under the table's name. */
  method ExtractTamilNadu<G>(all: seq<ShpFeature<G>>, dataNames: seq<string>)
    returns (out: Option<seq<OutFeature<G>>>)
    ensures out.None? <==> forall k :: 0 <= k < |all| ==> !IsTamilNadu(all[k])
    ensures out.Some? ==> |out.value| == |Filter(all, TamilNaduTest())|
    ensures out.Some? ==> forall k :: 0 <= k < |out.value| ==>
      var f := Filter(all, TamilNaduTest())[k];
      f.acName in ManualMap ==> out.value[k].name == ManualMap[f.acName]
  {
    out := Extract(all, ManualMap, dataNames);
    if out.Some? {
      forall k | 0 <= k < |out.value| && Filter(all, TamilNaduTest())[k].acName in ManualMap
        ensures out.value[k].name == ManualMap[Filter(all, TamilNaduTest())[k].acName]
      {
        ManualEntriesWin(SortStrings(Dedup(dataNames)), Filter(all, TamilNaduTest())[k].acName);
      }
    }
  }

  /** Every entry of the manual table is a non-empty name, so a listed shapefile name
      always takes its entry, whatever the data's names are. */
  lemma ManualEntriesWin(list: seq<string>, shpName: string)
    requires shpName in ManualMap
    ensures Match(ManualMap, list, shpName) == Some(ManualMap[shpName])
  {
    ManualValuesNonEmpty();
  }

  lemma ManualValuesNonEmpty()
    ensures forall n :: n in ManualMap ==> ManualMap[n] != ""
  {
  }

  /** The manual table of the extractor. */
  const ManualMap: map<string, string> := map[
    "Tiruvottiyur" := "Thiruvottiyur", "Thiyagarayanagar" := "T-Nagar", "Anaikattu" := "Anaicut",
    "Madurantakam (SC)" := "Maduranthakam", "Anthiyur" := "Andhiyur", "Viluppuram" := "Villupuram",
    "Vriddhachalam" := "Vridhachalam", "Mayiladuthurai" := "Mayuram", "Kinathukadavu" := "Kinathukkadavu",
    "Krishnarayapuram(SC)" := "Krishnarajapuram", "Udumalaipettai" := "Udumalpet",
    "Oddanchatram" := "Oddamchatram", "Thirumayam" := "Thirumaiyam", "Bodinayakanur" := "Bodinayakkanur",
    "Thiruparankundram" := "Thirupparankundram", "Colachel" := "Kollachal",
    "Chepauk-Thiruvalliken" := "Chepauk", "Dr.Radhakrishnan Naga" := "Dr. Radhakrishnan Nagar",
    "Coimbatore(North)" := "Coimbatore North", "Coimbatore(South)" := "Coimbatore South",
    "Erode (East)" := "Erode East", "Erode (West)" := "Erode West", "Salem (North)" := "Salem North",
    "Salem (South)" := "Salem South", "Salem (West)" := "Salem West", "Tiruppur (North)" := "Tiruppur North",
    "Tiruppur (South)" := "Tiruppur South", "Attur(SC)" := "Attur",
    "Kilvaithinankuppam(SC" := "Kilvaithinankuppam", "Ulundurpettai" := "Ulundurpet", "Yercaud (ST)" := "Yercaud"
  ]
}

=== FILE: fixnames.dfy ===
/**
  The name-fixing pass over the generated constituency map: two names that the
  shapefile uses for two constituencies each are told apart by their assembly
  constituency number, sixteen spellings are replaced by the data's, and the names left
  on one side only are listed, sorted.

  Only a feature's name changes; its number and every other property are carried
  through untouched.
 */
module FixNames {
  import opened Optional
  import opened SeqUtil
  import opened StringOrder

  /** A map feature: its name, its `ac_no` (absent or `null` as `None`) and the rest. */
  datatype GeoFeature<P> = GeoFeature(name: string, acNo: Option<int>, rest: P)

  /** The shapefile spellings replaced by the data's spelling. */
  const RenameTable: map<string, string> := map[
    "Anaikattu" := "Anaicut", "Anthiyur" := "Andhiyur", "Bodinayakanur" := "Bodinayakkanur",
    "Colachel" := "Kollachal", "Kinathukadavu" := "Kinathukkadavu",
    "Krishnarayapuram(SC)" := "Krishnarajapuram", "Madurantakam (SC)" := "Maduranthakam",
    "Mayiladuthurai" := "Mayuram", "Oddanchatram" := "Oddamchatram", "Thirumayam" := "Thirumaiyam",
    "Thiruparankundram" := "Thirupparankundram", "Thiyagarayanagar" := "T-Nagar",
    "Tiruvottiyur" := "Thiruvottiyur", "Udumalaipettai" := "Udumalpet", "Viluppuram" := "Villupuram",
    "Vriddhachalam" := "Vridhachalam"
  ]

  /** The names shared by two constituencies, resolved by number. */
  predicate IsDuplicateName(name: string) {
    name == "Tiruchirappalli" || name == "Tiruppattur"
  }

  /** The number-based resolution of a shared name: number 140 is the western
      Tiruchirappalli seat and every other number the eastern one; number 185 is
      Tirupathur and every other number keeps Tiruppattur. */
  function DuplicateFix(name: string, acNo: Option<int>): (r: string)
    requires IsDuplicateName(name)
    ensures name == "Tiruchirappalli" ==>
      r == (if acNo == Some(140) then "Tiruchirappalli West" else "Tiruchirappalli East")
    ensures name == "Tiruppattur" ==> (r == name <==> acNo != Some(185))
    ensures r != name ==> r in {"Tiruchirappalli West", "Tiruchirappalli East", "Tirupathur"}
  {
    if name == "Tiruchirappalli" then
      if acNo == Some(140) then "Tiruchirappalli West" else "Tiruchirappalli East"
    else if acNo == Some(185) then "Tirupathur" else "Tiruppattur"
  }

  /** What the pass did to one feature. */
  datatype Change = Kept | DupFixed | Renamed

  datatype Fixed = Fixed(name: string, change: Change)

  /** One feature's new name and the change counted for it: a shared name is resolved by
      number and the rename table is then not consulted at all; otherwise a listed
      spelling is replaced; otherwise the name is kept. */
  function FixName(name: string, acNo: Option<int>): (r: Fixed)
    ensures IsDuplicateName(name) ==> r.name == DuplicateFix(name, acNo) && r.change != Renamed
    ensures IsDuplicateName(name) ==> (r.change == DupFixed <==> r.name != name)
    ensures !IsDuplicateName(name) && name in RenameTable ==> r == Fixed(RenameTable[name], Renamed)
    ensures !IsDuplicateName(name) && name !in RenameTable ==> r == Fixed(name, Kept)
    ensures r.change == Kept ==> r.name == name
  {
    if IsDuplicateName(name) then
      var fixedName := DuplicateFix(name, acNo);
      if fixedName != name then Fixed(fixedName, DupFixed) else Fixed(name, Kept)
    else if name in RenameTable then Fixed(RenameTable[name], Renamed)
    else Fixed(name, Kept)
  }

  function FixFeature<P>(f: GeoFeature<P>): (g: GeoFeature<P>)
    ensures g.acNo == f.acNo && g.rest == f.rest
    ensures g.name == FixName(f.name, f.acNo).name
  {
    f.(name := FixName(f.name, f.acNo).name)
  }

  /** The per-name fix as a value, so that the pass can be stated for any fix. */
  function FixFn(): (string, Option<int>) -> Fixed {
    (name: string, acNo: Option<int>) => FixName(name, acNo)
  }

  function ChangeWith<P>(fix: (string, Option<int>) -> Fixed, c: Change): GeoFeature<P> -> bool {
    (f: GeoFeature<P>) => fix(f.name, f.acNo).change == c
  }

  function ChangeTest<P>(c: Change): GeoFeature<P> -> bool {
    ChangeWith(FixFn(), c)
  }

  /** The pass over all features, with its two counters. */
  method FixAll<P>(features: seq<GeoFeature<P>>) returns (out: seq<GeoFeature<P>>, renamed: nat, dupFixed: nat)
    ensures |out| == |features|
    ensures forall k :: 0 <= k < |out| ==> out[k] == FixFeature(features[k])
    ensures renamed == |Filter(features, ChangeTest(Renamed))|
    ensures dupFixed == |Filter(features, ChangeTest(DupFixed))|
  {
    out, renamed, dupFixed := FixLoop(features, FixFn());
  }

  /** One more feature adds one to the count of a kind of change exactly when its fix is of that kind. */
  lemma ChangeCountStep<P>(features: seq<GeoFeature<P>>, i: nat, fix: (string, Option<int>) -> Fixed, c: Change)
    requires i < |features|
    ensures |Filter(features[..i + 1], ChangeWith(fix, c))|
         == |Filter(features[..i], ChangeWith(fix, c))| + (if fix(features[i].name, features[i].acNo).change == c then 1 else 0)
  {
    assert features[..i + 1] == features[..i] + [features[i]];
    FilterAppend(features[..i], features[i], ChangeWith(fix, c));
  }

  /** The `forEach` loop, for any per-name fix. */
  method FixLoop<P>(features: seq<GeoFeature<P>>, fix: (string, Option<int>) -> Fixed)
    returns (out: seq<GeoFeature<P>>, renamed: nat, dupFixed: nat)
    ensures |out| == |features|
    ensures forall k :: 0 <= k < |out| ==>
      out[k] == features[k].(name := fix(features[k].name, features[k].acNo).name)
    ensures renamed == |Filter(features, ChangeWith(fix, Renamed))|
    ensures dupFixed == |Filter(features, ChangeWith(fix, DupFixed))|
  {
    out := [];
    renamed, dupFixed := 0, 0;
    var i := 0;
    while i < |features|
      invariant 0 <= i <= |features|
      invariant |out| == i
      invariant forall k :: 0 <= k < i ==>
        out[k] == features[k].(name := fix(features[k].name, features[k].acNo).name)
      invariant renamed == |Filter(features[..i], ChangeWith(fix, Renamed))|
      invariant dupFixed == |Filter(features[..i], ChangeWith(fix, DupFixed))|
    {
      var f := features[i];
      var r := fix(f.name, f.acNo);
      ChangeCountStep(features, i, fix, Renamed);
      ChangeCountStep(features, i, fix, DupFixed);
      if r.change == DupFixed {
        dupFixed := dupFixed + 1;
      } else if r.change == Renamed {
        renamed := renamed + 1;
      }
      out := out + [f.(name := r.name)];
      i := i + 1;
    }
    assert features[..|features|] == features;
  }

  /** No replacement spelling is itself a shared name or a listed spelling. */
  lemma RenamedNamesAreFinal(name: string)
    requires name in RenameTable
    ensures !IsDuplicateName(RenameTable[name]) && RenameTable[name] !in RenameTable
  {
  }

  /** A fixed name is left alone by a second pass: running the pass twice changes
      nothing more and counts nothing. */
  lemma FixNameIdempotent(name: string, acNo: Option<int>)
    ensures var r := FixName(name, acNo);
            FixName(r.name, acNo) == Fixed(r.name, Kept)
  {
    var r := FixName(name, acNo);
    if !IsDuplicateName(name) && name in RenameTable {
      RenamedNamesAreFinal(name);
    }
  }

  /** The pass applied to its own output keeps every feature and counts no change. */
  lemma FixAllIdempotent<P>(features: seq<GeoFeature<P>>)
    ensures var again := seq(|features|, k requires 0 <= k < |features| => FixFeature(features[k]));
            (forall k :: 0 <= k < |again| ==> FixFeature(again[k]) == again[k])
            && |Filter(again, ChangeTest(Renamed))| == 0
            && |Filter(again, ChangeTest(DupFixed))| == 0
  {
    var again := seq(|features|, k requires 0 <= k < |features| => FixFeature(features[k]));
    forall k | 0 <= k < |again|
      ensures FixName(again[k].name, again[k].acNo) == Fixed(again[k].name, Kept)
    {
      FixNameIdempotent(features[k].name, features[k].acNo);
    }
    FilterKeepsNone(again, ChangeTest(Renamed));
    FilterKeepsNone(again, ChangeTest(DupFixed));
  }

  /** The two shared names and a few other names, case by case. */
  lemma KnownFixes()
    ensures FixName("Tiruchirappalli", Some(140)) == Fixed("Tiruchirappalli West", DupFixed)
    ensures FixName("Tiruchirappalli", Some(141)) == Fixed("Tiruchirappalli East", DupFixed)
    ensures FixName("Tiruchirappalli", None) == Fixed("Tiruchirappalli East", DupFixed)
    ensures FixName("Tiruppattur", Some(185)) == Fixed("Tirupathur", DupFixed)
    ensures FixName("Tiruppattur", Some(50)) == Fixed("Tiruppattur", Kept)
    ensures FixName("Thiyagarayanagar", Some(24)) == Fixed("T-Nagar", Renamed)
    ensures FixName("Vandavasi", Some(69)) == Fixed("Vandavasi", Kept)
  {
  }

  // ---------------------------------------------------------------------------
  // The check against the data's names.
  // ---------------------------------------------------------------------------

  function Flatten(years: seq<seq<string>>): (r: seq<string>)
    ensures forall x :: x in r <==> exists y :: 0 <= y < |years| && x in years[y]
  {
    if |years| == 0 then [] else years[0] + Flatten(years[1..])
  }

  function Names<P>(features: seq<GeoFeature<P>>): (r: seq<string>)
    ensures |r| == |features| && forall k :: 0 <= k < |r| ==> r[k] == features[k].name
  {
    seq(|features|, k requires 0 <= k < |features| => features[k].name)
  }

  function NotIn(others: seq<string>): string -> bool {
    (n: string) => n !in others
  }

  /** `[...new Set(names)].filter(n => !others.has(n)).sort()`: the names of one side
      missing from the other, once each, in string order. */
  function OnlyIn(names: seq<string>, others: seq<string>): (r: seq<string>)
    ensures forall x :: x in r <==> x in names && x !in others
    ensures Distinct(r)
    ensures forall i, j :: 0 <= i < j < |r| ==> Less(r[i], r[j])
  {
    var kept := Filter(Dedup(names), NotIn(others));
    FilterContents(Dedup(names), NotIn(others));
    SubMultisetKeepsDistinct(Dedup(names), kept);
    forall x
      ensures x in kept <==> x in names && x !in others
    {
      FilterMember(Dedup(names), NotIn(others), x);
    }
    SortDistinct(kept);
    SortStrings(kept)
  }

  /** The two lists of names found on one side only. */
  datatype Mismatch = Mismatch(inGeoOnly: seq<string>, inDataOnly: seq<string>)

  function Verify<P>(features: seq<GeoFeature<P>>, dataYears: seq<seq<string>>): (m: Mismatch)
    ensures forall x :: x in m.inGeoOnly <==>
      (exists k :: 0 <= k < |features| && features[k].name == x) && x !in Flatten(dataYears)
    ensures forall x :: x in m.inDataOnly <==>
      (exists y :: 0 <= y < |dataYears| && x in dataYears[y]) && x !in Names(features)
    ensures Distinct(m.inGeoOnly) && Distinct(m.inDataOnly)
  {
    var geo := Names(features);
    var data := Flatten(dataYears);
    forall x
      ensures x in geo <==> exists k :: 0 <= k < |features| && features[k].name == x
    {
      if x in geo {
        var k :| 0 <= k < |geo| && geo[k] == x;
        assert features[k].name == x;
      }
    }
    Mismatch(OnlyIn(geo, data), OnlyIn(data, geo))
  }

  /** The two lists never share a name, and both are empty exactly when the two sides
      name the same constituencies. */
  lemma MismatchDisjoint<P>(features: seq<GeoFeature<P>>, dataYears: seq<seq<string>>)
    ensures var m := Verify(features, dataYears);
            forall x :: !(x in m.inGeoOnly && x in m.inDataOnly)
  {
  }

  lemma MismatchEmptyIff<P>(features: seq<GeoFeature<P>>, dataYears: seq<seq<string>>)
    ensures var m := Verify(features, dataYears);
            (|m.inGeoOnly| == 0 && |m.inDataOnly| == 0) <==>
            (forall x :: x in Names(features) <==> x in Flatten(dataYears))
  {
    var m := Verify(features, dataYears);
    var geo, data := Names(features), Flatten(dataYears);
    if |m.inGeoOnly| == 0 && |m.inDataOnly| == 0 {
      forall x
        ensures x in geo <==> x in data
      {
        if x in geo {
          var k :| 0 <= k < |geo| && geo[k] == x;
          assert features[k].name == x;
          assert x !in m.inGeoOnly;
        }
        if x in data {
          var y :| 0 <= y < |dataYears| && x in dataYears[y];
          assert x !in m.inDataOnly;
        }
      }
    } else if |m.inGeoOnly| > 0 {
      var x := m.inGeoOnly[0];
      assert x in m.inGeoOnly;
      assert x in geo && x !in data;
    } else {
      var x := m.inDataOnly[0];
      assert x in m.inDataOnly;
      assert x in data && x !in geo;
    }
  }
}

=== FILE: genmap.dfy ===
/**
  The map generator: every data constituency needs a coordinate; every grid point
  goes to the constituency whose coordinate is nearest; each constituency's points
  become a polygon by Andrew's monotone-chain convex hull, or a small fallback ring
  when it has too few points; each ring is closed by repeating its first position.

  Positions are `[lng, lat]` as GeoJSON has them; the coordinate table stores
  `[lat, lng]`. The longitude weight `cos(lat)` is a parameter, as are the grid
  points and the fallback ring, all of which the script computes in floating point.
 */
module GenMap {
  import opened Optional
  import opened SeqUtil
  import opened Sorting

  datatype Pos = Pos(x: real, y: real)
  datatype LatLng = LatLng(lat: real, lng: real)

  // ---------------------------------------------------------------------------
  // Missing coordinates.
  // ---------------------------------------------------------------------------

  function MissingTest(coords: map<string, LatLng>): string -> bool {
    (n: string) => n !in coords
  }

  /** The data names without a coordinate entry. */
  function Missing(names: seq<string>, coords: map<string, LatLng>): (m: seq<string>)
    ensures forall n :: n in m <==> n in names && n !in coords
  {
    var m := Filter(names, MissingTest(coords));
    forall n
      ensures n in m <==> n in names && n !in coords
    {
      FilterMember(names, MissingTest(coords), n);
    }
    m
  }

  // ---------------------------------------------------------------------------
  // Nearest-coordinate assignment.
  // ---------------------------------------------------------------------------

  /** The squared distance from grid point `p` to a constituency's coordinate, with the
      longitude difference scaled by the weight at the point's latitude. */
  function Dist(c: LatLng, w: real -> real, p: Pos): real {
    var dlat := p.y - c.lat;
    var dlng := (p.x - c.lng) * w(p.y);
    dlat * dlat + dlng * dlng
  }

  /** `k` is the first name at the least distance from `p`. */
  ghost predicate IsFirstNearest(names: seq<string>, coords: map<string, LatLng>, w: real -> real, p: Pos, k: nat)
    requires forall i :: 0 <= i < |names| ==> names[i] in coords
  {
    && k < |names|
    && (forall j :: 0 <= j < |names| ==> Dist(coords[names[k]], w, p) <= Dist(coords[names[j]], w, p))
    && (forall j :: 0 <= j < k ==> Dist(coords[names[j]], w, p) > Dist(coords[names[k]], w, p))
  }

  /** Ties go to the first name, so the nearest name is unique. */
  lemma FirstNearestUnique(names: seq<string>, coords: map<string, LatLng>, w: real -> real, p: Pos, k1: nat, k2: nat)
    requires forall i :: 0 <= i < |names| ==> names[i] in coords
    requires IsFirstNearest(names, coords, w, p, k1) && IsFirstNearest(names, coords, w, p, k2)
    ensures k1 == k2
  {
    assert Dist(coords[names[k1]], w, p) <= Dist(coords[names[k2]], w, p);
    assert Dist(coords[names[k2]], w, p) <= Dist(coords[names[k1]], w, p);
  }

  /** The scan over the names with a running minimum and a strict `<`. */
  method Nearest(names: seq<string>, coords: map<string, LatLng>, w: real -> real, p: Pos) returns (k: Option<nat>)
    requires forall i :: 0 <= i < |names| ==> names[i] in coords
    ensures k.None? <==> |names| == 0
    ensures k.Some? ==> IsFirstNearest(names, coords, w, p, k.value)
  {
    k := None;
    var minDist: real := 0.0;
    var ni := 0;
    while ni < |names|
      invariant 0 <= ni <= |names|
      invariant k.None? <==> ni == 0
      invariant k.Some? ==> k.value < ni && minDist == Dist(coords[names[k.value]], w, p)
      invariant k.Some? ==> forall j :: 0 <= j < ni ==> minDist <= Dist(coords[names[j]], w, p)
      invariant k.Some? ==> forall j :: 0 <= j < k.value ==> Dist(coords[names[j]], w, p) > minDist
    {
      var d := Dist(coords[names[ni]], w, p);
      if k.None? || d < minDist {
        minDist := d;
        k := Some(ni);
      }
      ni := ni + 1;
    }
  }

  /** The points of a constituency: the grid points, in order, whose nearest name it is;
      a name that is the empty string collects nothing. */
  function Collect(names: seq<string>, grid: seq<Pos>, owner: seq<Option<nat>>, n: string): seq<Pos>
    requires |owner| == |grid|
  {
    if |grid| == 0 then []
    else
      var last := |grid| - 1;
      var mine := owner[last].Some? && owner[last].value < |names| && names[owner[last].value] == n && n != "";
      Collect(names, grid[..last], owner[..last], n) + (if mine then [grid[last]] else [])
  }

  /** Giving grid point `g` the owner `k` extends each name's list by at most that point. */
  lemma CollectSnoc(names: seq<string>, grid: seq<Pos>, owner: seq<Option<nat>>, k: Option<nat>, g: nat, n: string)
    requires |owner| == g < |grid|
    ensures Collect(names, grid[..g + 1], owner + [k], n)
         == Collect(names, grid[..g], owner, n)
          + (if k.Some? && k.value < |names| && names[k.value] == n && n != "" then [grid[g]] else [])
  {
    assert grid[..g + 1][..g] == grid[..g];
    assert (owner + [k])[..g] == owner;
    assert (owner + [k])[g] == k;
  }

  /** One grid point joining the list of its nearest name, unless that name is empty. */
  function Gather(cells: map<string, seq<Pos>>, names: seq<string>, k: Option<nat>, p: Pos): map<string, seq<Pos>>
    requires k.Some? ==> k.value < |names| && names[k.value] in cells
  {
    if k.Some? && names[k.value] != "" then cells[names[k.value] := cells[names[k.value]] + [p]] else cells
  }

  /** Gathering grid point `g` keeps every list equal to its name's points among the first `g + 1`. */
  lemma GatherStep(names: seq<string>, grid: seq<Pos>, owner: seq<Option<nat>>, k: Option<nat>, g: nat, cells: map<string, seq<Pos>>)
    requires |owner| == g < |grid|
    requires k.Some? ==> k.value < |names|
    requires forall n :: n in cells <==> n in names
    requires forall n :: n in cells ==> cells[n] == Collect(names, grid[..g], owner, n)
    ensures k.Some? ==> names[k.value] in cells
    ensures var next := Gather(cells, names, k, grid[g]);
            && (forall n :: n in next <==> n in names)
            && (forall n :: n in next ==> next[n] == Collect(names, grid[..g + 1], owner + [k], n))
  {
    var next := Gather(cells, names, k, grid[g]);
    forall n | n in next
      ensures next[n] == Collect(names, grid[..g + 1], owner + [k], n)
    {
      CollectSnoc(names, grid, owner, k, g, n);
    }
  }

  /** Every grid point has an owner when there are names, and it is the point's first nearest name. */
  ghost predicate Owners(names: seq<string>, coords: map<string, LatLng>, w: real -> real, grid: seq<Pos>, owner: seq<Option<nat>>)
    requires forall i :: 0 <= i < |names| ==> names[i] in coords
    requires |owner| == |grid|
  {
    && (forall i :: 0 <= i < |grid| ==> (owner[i].None? <==> |names| == 0))
    && (forall i :: 0 <= i < |grid| && owner[i].Some? ==> IsFirstNearest(names, coords, w, grid[i], owner[i].value))
  }

  /** Appending the owner of grid point `g` keeps the owners right for the first `g + 1` points. */
  lemma OwnersStep(names: seq<string>, coords: map<string, LatLng>, w: real -> real, grid: seq<Pos>,
                   owner: seq<Option<nat>>, k: Option<nat>, g: nat)
    requires forall i :: 0 <= i < |names| ==> names[i] in coords
    requires |owner| == g < |grid|
    requires Owners(names, coords, w, grid[..g], owner)
    requires k.None? <==> |names| == 0
    requires k.Some? ==> IsFirstNearest(names, coords, w, grid[g], k.value)
    ensures Owners(names, coords, w, grid[..g + 1], owner + [k])
  {
    var next := owner + [k];
    forall i | 0 <= i < g + 1
      ensures next[i].None? <==> |names| == 0
      ensures next[i].Some? ==> IsFirstNearest(names, coords, w, grid[..g + 1][i], next[i].value)
    {
      if i < g {
        assert next[i] == owner[i] && grid[..g + 1][i] == grid[..g][i];
      }
    }
  }

  /** The grid loop: each grid point gets its first nearest name and joins that name's list. */
  method Assign(names: seq<string>, coords: map<string, LatLng>, w: real -> real, grid: seq<Pos>)
    returns (owner: seq<Option<nat>>, cells: map<string, seq<Pos>>)
    requires forall i :: 0 <= i < |names| ==> names[i] in coords
    ensures |owner| == |grid|
    ensures Owners(names, coords, w, grid, owner)
    ensures forall n :: n in cells <==> n in names
    ensures forall n :: n in cells ==> cells[n] == Collect(names, grid, owner, n)
  {
    cells := map n | n in names :: [];
    owner := [];
    var g := 0;
    while g < |grid|
      invariant 0 <= g <= |grid|
      invariant |owner| == g
      invariant Owners(names, coords, w, grid[..g], owner)
      invariant forall n :: n in cells <==> n in names
      invariant forall n :: n in cells ==> cells[n] == Collect(names, grid[..g], owner, n)
    {
      var k := Nearest(names, coords, w, grid[g]);
      GatherStep(names, grid, owner, k, g, cells);
      OwnersStep(names, coords, w, grid, owner, k, g);
      cells := Gather(cells, names, k, grid[g]);
      owner := owner + [k];
      g := g + 1;
    }
    assert grid[..|grid|] == grid;
  }

  // ---------------------------------------------------------------------------
  // The convex hull.
  // ---------------------------------------------------------------------------

  /** The comparator `a[0] - b[0] || a[1] - b[1]`: by x, then by y. */
  function LexLess(): (Pos, Pos) -> bool {
    (a: Pos, b: Pos) => a.x < b.x || (a.x == b.x && a.y < b.y)
  }

  lemma LexLessOrder()
    ensures StrictOrder(LexLess())
  {
    var less := LexLess();
    forall a: Pos, b: Pos, c: Pos | less(a, b) && less(b, c)
      ensures less(a, c)
    {
      assert a.x < b.x || (a.x == b.x && a.y < b.y);
      assert b.x < c.x || (b.x == c.x && b.y < c.y);
    }
  }

  /** `pts.slice().sort(...)`: the points in (x, y) order, ties kept in input order. */
  function SortPoints(points: seq<Pos>): (sorted: seq<Pos>)
    ensures multiset(sorted) == multiset(points)
    ensures SortedBy(sorted, LexLess())
    ensures |sorted| == |points| && forall q :: q in sorted <==> q in points
  {
    LexLessOrder();
    var sorted := Sort(points, LexLess());
    PermutationFacts(points, sorted);
    sorted
  }

  /** The z-component of (A - O) x (B - O): positive for a strict left turn. */
  function Cross(o: Pos, a: Pos, b: Pos): real {
    (a.x - o.x) * (b.y - o.y) - (a.y - o.y) * (b.x - o.x)
  }

  /** The test a chain keeps at every point: `cross(O, A, B) > 0`. The chain lemmas below
      hold for any such test, so they are stated over a parameter `turn`. */
  function LeftTurn(): (Pos, Pos, Pos) -> bool {
    (o: Pos, a: Pos, b: Pos) => Cross(o, a, b) > 0.0
  }

  /** Every consecutive triple passes the turn test. */
  predicate Turns(chain: seq<Pos>, turn: (Pos, Pos, Pos) -> bool) {
    forall i :: 0 <= i < |chain| - 2 ==> turn(chain[i], chain[i + 1], chain[i + 2])
  }

  /** The inner `while`: drop the chain's last point while it does not turn towards `p`. */
  function PopWhile(chain: seq<Pos>, p: Pos, turn: (Pos, Pos, Pos) -> bool): seq<Pos>
    decreases |chain|
  {
    if |chain| >= 2 && !turn(chain[|chain| - 2], chain[|chain| - 1], p)
    then PopWhile(chain[..|chain| - 1], p, turn)
    else chain
  }

  /** A chain built by pushing the points in order. */
  function Chain(pts: seq<Pos>, turn: (Pos, Pos, Pos) -> bool): seq<Pos> {
    if |pts| == 0 then []
    else PopWhile(Chain(pts[..|pts| - 1], turn), pts[|pts| - 1], turn) + [pts[|pts| - 1]]
  }

  /** Popping leaves a non-empty prefix whose last two points turn towards `p`. */
  lemma {:induction false} PopWhilePrefix(chain: seq<Pos>, p: Pos, turn: (Pos, Pos, Pos) -> bool)
    ensures var r := PopWhile(chain, p, turn);
            && |r| <= |chain| && r == chain[..|r|]
            && (|chain| >= 1 ==> |r| >= 1)
            && (|r| < 2 || turn(r[|r| - 2], r[|r| - 1], p))
    decreases |chain|
  {
    if |chain| >= 2 && !turn(chain[|chain| - 2], chain[|chain| - 1], p) {
      var shorter := chain[..|chain| - 1];
      PopWhilePrefix(shorter, p, turn);
      var r := PopWhile(shorter, p, turn);
      assert shorter[..|r|] == chain[..|r|];
    }
  }

  lemma PrefixTurns(c: seq<Pos>, n: nat, turn: (Pos, Pos, Pos) -> bool)
    requires Turns(c, turn) && n <= |c|
    ensures Turns(c[..n], turn)
  {
    var r := c[..n];
    forall i | 0 <= i < |r| - 2
      ensures turn(r[i], r[i + 1], r[i + 2])
    {
      assert r[i] == c[i] && r[i + 1] == c[i + 1] && r[i + 2] == c[i + 2];
    }
  }

  lemma PushTurns(c: seq<Pos>, p: Pos, turn: (Pos, Pos, Pos) -> bool)
    requires Turns(c, turn)
    requires |c| < 2 || turn(c[|c| - 2], c[|c| - 1], p)
    ensures Turns(c + [p], turn)
  {
    var r := c + [p];
    forall i | 0 <= i < |r| - 2
      ensures turn(r[i], r[i + 1], r[i + 2])
    {
      if i + 2 < |c| {
        assert r[i] == c[i] && r[i + 1] == c[i + 1] && r[i + 2] == c[i + 2];
      } else {
        assert r[i] == c[|c| - 2] && r[i + 1] == c[|c| - 1] && r[i + 2] == p;
      }
    }
  }

  /** The loop invariant of both chains: every consecutive triple passes the test. */
  lemma {:induction false} ChainTurns(pts: seq<Pos>, turn: (Pos, Pos, Pos) -> bool)
    ensures Turns(Chain(pts, turn), turn)
  {
    if |pts| > 0 {
      var init := pts[..|pts| - 1];
      var p := pts[|pts| - 1];
      ChainTurns(init, turn);
      var c := Chain(init, turn);
      PopWhilePrefix(c, p, turn);
      var kept := PopWhile(c, p, turn);
      PrefixTurns(c, |kept|, turn);
      PushTurns(kept, p, turn);
    }
  }

  /** Every chain point is an input point. */
  lemma {:induction false} ChainMembers(pts: seq<Pos>, turn: (Pos, Pos, Pos) -> bool)
    ensures forall q :: q in Chain(pts, turn) ==> q in pts
  {
    if |pts| > 0 {
      var init := pts[..|pts| - 1];
      var p := pts[|pts| - 1];
      ChainMembers(init, turn);
      var c := Chain(init, turn);
      PopWhilePrefix(c, p, turn);
      var kept := PopWhile(c, p, turn);
      forall q | q in kept ensures q in pts {
        assert q in c;
      }
    }
  }

  /** A chain ends with the last input, and a chain of two or more inputs has two or
      more points and starts with the first input. */
  lemma {:induction false} ChainEnds(pts: seq<Pos>, turn: (Pos, Pos, Pos) -> bool)
    ensures |pts| >= 1 ==> |Chain(pts, turn)| >= 1 && Chain(pts, turn)[|Chain(pts, turn)| - 1] == pts[|pts| - 1]
    ensures |pts| >= 2 ==> |Chain(pts, turn)| >= 2 && Chain(pts, turn)[0] == pts[0]
  {
    if |pts| > 0 {
      var init := pts[..|pts| - 1];
      var p := pts[|pts| - 1];
      ChainEnds(init, turn);
      var c := Chain(init, turn);
      PopWhilePrefix(c, p, turn);
      var kept := PopWhile(c, p, turn);
      if |pts| >= 2 {
        assert kept[0] == c[0] == init[0] == pts[0];
      }
    }
  }

  /** The points in the opposite order. */
  function Reverse<T>(s: seq<T>): (r: seq<T>)
    ensures |r| == |s|
    ensures forall i :: 0 <= i < |s| ==> r[i] == s[|s| - 1 - i]
  {
    if |s| == 0 then [] else Reverse(s[1..]) + [s[0]]
  }

  /** The lower chain and the upper chain of points in (x, y) order, each without its
      last point. */
  function Hull(sorted: seq<Pos>): (hull: seq<Pos>)
    requires |sorted| >= 2
    ensures |hull| >= 2
  {
    var lower := Chain(sorted, LeftTurn());
    var upper := Chain(Reverse(sorted), LeftTurn());
    ChainEnds(sorted, LeftTurn());
    ChainEnds(Reverse(sorted), LeftTurn());
    lower[..|lower| - 1] + upper[..|upper| - 1]
  }

  /** `convexHull`: fewer than three points are returned as they are; otherwise the hull
      of the points sorted in (x, y) order. */
  function ConvexHull(points: seq<Pos>): (hull: seq<Pos>)
    ensures |points| < 3 ==> hull == points
    ensures |points| >= 3 ==> |hull| >= 2 && hull == Hull(SortPoints(points))
  {
    if |points| < 3 then points else Hull(SortPoints(points))
  }

  /** The lower chain runs from the least point in (x, y) order to the greatest, the
      upper chain back from the greatest to the least, and the hull is the two chains
      without their last points. */
  lemma HullChainEnds(sorted: seq<Pos>)
    requires |sorted| >= 2
    ensures var lower := Chain(sorted, LeftTurn());
            var upper := Chain(Reverse(sorted), LeftTurn());
            && |lower| >= 2 && lower[0] == sorted[0] && lower[|lower| - 1] == sorted[|sorted| - 1]
            && |upper| >= 2 && upper[0] == sorted[|sorted| - 1] && upper[|upper| - 1] == sorted[0]
            && Hull(sorted) == lower[..|lower| - 1] + upper[..|upper| - 1]
  {
    var rev := Reverse(sorted);
    ChainEnds(sorted, LeftTurn());
    ChainEnds(rev, LeftTurn());
    assert rev[0] == sorted[|sorted| - 1] && rev[|rev| - 1] == sorted[0];
  }

  /** Both chains turn strictly left at every point. */
  lemma HullChainsTurnLeft(sorted: seq<Pos>)
    ensures Turns(Chain(sorted, LeftTurn()), LeftTurn()) && Turns(Chain(Reverse(sorted), LeftTurn()), LeftTurn())
  {
    ChainTurns(sorted, LeftTurn());
    ChainTurns(Reverse(sorted), LeftTurn());
  }

  lemma {:induction false} HullPointsFromChains(sorted: seq<Pos>)
    requires |sorted| >= 2
    ensures forall q :: q in Hull(sorted) ==> q in sorted
  {
    HullChainEnds(sorted);
    var rev := Reverse(sorted);
    var lower := Chain(sorted, LeftTurn());
    var upper := Chain(rev, LeftTurn());
    assert forall q :: q in lower ==> q in sorted by { ChainMembers(sorted, LeftTurn()); }
    assert forall q :: q in upper ==> q in sorted by {
      ChainMembers(rev, LeftTurn());
      ReverseMembers(sorted);
    }
    PrefixesMembers(lower, upper, sorted);
  }

  /** Every element of a reversed sequence comes from the sequence. */
  lemma ReverseMembers<T>(s: seq<T>)
    ensures forall q :: q in Reverse(s) ==> q in s
  {
    forall q | q in Reverse(s) ensures q in s {
      var i :| 0 <= i < |s| && Reverse(s)[i] == q;
      assert q == s[|s| - 1 - i];
    }
  }

  /** Two lists whose elements all come from `s` keep that property with their last
      elements dropped and the rests joined. */
  lemma PrefixesMembers<T>(a: seq<T>, b: seq<T>, s: seq<T>)
    requires |a| >= 1 && |b| >= 1
    requires forall q :: q in a ==> q in s
    requires forall q :: q in b ==> q in s
    ensures forall q :: q in a[..|a| - 1] + b[..|b| - 1] ==> q in s
  {
    forall q | q in a[..|a| - 1] + b[..|b| - 1] ensures q in s {
      if q in a[..|a| - 1] {
        assert q in a;
      } else {
        assert q in b;
      }
    }
  }

  /** Every hull point is an input point. */
  lemma HullMembers(points: seq<Pos>)
    ensures forall q :: q in ConvexHull(points) ==> q in points
  {
    if |points| >= 3 {
      HullPointsFromChains(SortPoints(points));
    }
  }

  /** The lower chain with the loops of the script: for each point, pop, then push. */
  method LowerChain(pts: seq<Pos>) returns (lower: seq<Pos>)
    ensures lower == Chain(pts, LeftTurn())
  {
    lower := [];
    var i := 0;
    while i < |pts|
      invariant 0 <= i <= |pts|
      invariant lower == Chain(pts[..i], LeftTurn())
    {
      var c := Pop(lower, pts[i]);
      assert Chain(pts[..i + 1], LeftTurn()) == c + [pts[i]] by {
        assert pts[..i + 1][..i] == pts[..i] && pts[..i + 1][i] == pts[i];
      }
      lower := c + [pts[i]];
      i := i + 1;
    }
    assert pts[..|pts|] == pts;
  }

  /** The inner `while` of both chains: pop while the last two points and `p` make no left turn. */
  method Pop(chain: seq<Pos>, p: Pos) returns (c: seq<Pos>)
    ensures c == PopWhile(chain, p, LeftTurn())
  {
    c := chain;
    while |c| >= 2 && Cross(c[|c| - 2], c[|c| - 1], p) <= 0.0
      invariant PopWhile(c, p, LeftTurn()) == PopWhile(chain, p, LeftTurn())
      decreases |c|
    {
      c := c[..|c| - 1];
    }
  }

  /** The upper chain with the loops of the script: the same pushes, last point first. */
  method UpperChain(pts: seq<Pos>) returns (upper: seq<Pos>)
    ensures upper == Chain(Reverse(pts), LeftTurn())
  {
    upper := [];
    var i := |pts|;
    while i > 0
      invariant 0 <= i <= |pts|
      invariant upper == Chain(Reverse(pts[i..]), LeftTurn())
    {
      var p := pts[i - 1];
      var c := Pop(upper, p);
      assert Chain(Reverse(pts[i - 1..]), LeftTurn()) == c + [p] by {
        var rest := Reverse(pts[i..]);
        assert pts[i - 1..][1..] == pts[i..];
        assert Reverse(pts[i - 1..]) == rest + [p];
        assert (rest + [p])[..|rest|] == rest;
      }
      upper := c + [p];
      i := i - 1;
    }
    assert pts[0..] == pts;
  }

  /** `convexHull` as the script runs it. */
  method ConvexHullLoops(points: seq<Pos>) returns (hull: seq<Pos>)
    ensures hull == ConvexHull(points)
  {
    if |points| < 3 {
      return points;
    }
    var sorted := SortPoints(points);
    var lower := LowerChain(sorted);
    var upper := UpperChain(sorted);
    ChainEnds(sorted, LeftTurn());
    ChainEnds(Reverse(sorted), LeftTurn());
    hull := lower[..|lower| - 1] + upper[..|upper| - 1];
  }

  // ---------------------------------------------------------------------------
  // Rings and features.
  // ---------------------------------------------------------------------------

  /** The ring as the script builds it: the fallback only for fewer than three points. */
  function RingAsWritten(pts: seq<Pos>, fallback: seq<Pos>): (ring: seq<Pos>)
    requires |fallback| >= 3
    ensures |ring| >= 2 && ring[|ring| - 1] == ring[0]
  {
    var open := if |pts| < 3 then fallback else ConvexHull(pts);
    open + [open[0]]
  }

  /** Three points on one line, already in (x, y) order. */
  function Collinear(): seq<Pos> {
    [Pos(0.0, 0.0), Pos(1.0, 0.0), Pos(2.0, 0.0)]
  }

  lemma CollinearSorted()
    ensures SortPoints(Collinear()) == Collinear()
  {
    LexLessOrder();
    SortSorted(Collinear(), LexLess());
  }

  /** Three points whose middle one does not turn: the chain keeps the two ends. */
  lemma ChainOfThree(a: Pos, b: Pos, c: Pos, turn: (Pos, Pos, Pos) -> bool)
    requires !turn(a, b, c)
    ensures Chain([a, b, c], turn) == [a, c]
  {
    assert [a, b, c][..2] == [a, b] && [a, b][..1] == [a] && [a][..0] == [];
    assert Chain([a], turn) == [a];
    assert Chain([a, b], turn) == [a, b];
    assert PopWhile([a, b], c, turn) == [a];
  }

  lemma CollinearLower()
    ensures Chain(Collinear(), LeftTurn()) == [Pos(0.0, 0.0), Pos(2.0, 0.0)]
  {
    var a, b, c := Pos(0.0, 0.0), Pos(1.0, 0.0), Pos(2.0, 0.0);
    assert !LeftTurn()(a, b, c);
    ChainOfThree(a, b, c, LeftTurn());
  }

  lemma CollinearUpper()
    ensures Chain(Reverse(Collinear()), LeftTurn()) == [Pos(2.0, 0.0), Pos(0.0, 0.0)]
  {
    var a, b, c := Pos(0.0, 0.0), Pos(1.0, 0.0), Pos(2.0, 0.0);
    assert Reverse(Collinear()) == [c, b, a];
    assert !LeftTurn()(c, b, a);
    ChainOfThree(c, b, a, LeftTurn());
  }

  /** The hull of points whose two chains are known. */
  lemma HullOfChains(sorted: seq<Pos>, lower: seq<Pos>, upper: seq<Pos>)
    requires |sorted| >= 2
    requires Chain(sorted, LeftTurn()) == lower && Chain(Reverse(sorted), LeftTurn()) == upper
    ensures |lower| >= 1 && |upper| >= 1
    ensures Hull(sorted) == lower[..|lower| - 1] + upper[..|upper| - 1]
  {
    ChainEnds(sorted, LeftTurn());
    ChainEnds(Reverse(sorted), LeftTurn());
  }

  /** Three points in order whose middle point turns neither way: the hull is the two ends. */
  lemma HullOfThree(a: Pos, b: Pos, c: Pos)
    requires !LeftTurn()(a, b, c) && !LeftTurn()(c, b, a)
    ensures Hull([a, b, c]) == [a, c]
  {
    ChainOfThree(a, b, c, LeftTurn());
    assert Reverse([a, b, c]) == [c, b, a];
    ChainOfThree(c, b, a, LeftTurn());
    HullOfChains([a, b, c], [a, c], [c, a]);
    assert [a, c][..1] + [c, a][..1] == [a, c];
  }

  lemma CollinearHull()
    ensures Hull(Collinear()) == [Pos(0.0, 0.0), Pos(2.0, 0.0)]
  {
    var a, b, c := Pos(0.0, 0.0), Pos(1.0, 0.0), Pos(2.0, 0.0);
    assert !LeftTurn()(a, b, c) && !LeftTurn()(c, b, a);
    HullOfThree(a, b, c);
  }

  /** Three points on one line: both chains shrink to the two end points, so the ring as
      written has three positions, the first twice, and encloses nothing. A closed linear
      ring needs at least four positions (section 3.1.6 of RFC 7946). */
  lemma CollinearRingAsWritten(fallback: seq<Pos>)
    requires |fallback| >= 3
    ensures RingAsWritten(Collinear(), fallback) == [Pos(0.0, 0.0), Pos(2.0, 0.0), Pos(0.0, 0.0)]
  {
    CollinearSorted();
    CollinearHull();
  }

  /** The ring with the fallback used whenever the hull has fewer than three points, so
      that every ring is a closed polygon of at least four positions. */
  function Ring(pts: seq<Pos>, fallback: seq<Pos>): (ring: seq<Pos>)
    requires |fallback| >= 3
    ensures |ring| >= 4 && ring[|ring| - 1] == ring[0]
    ensures |pts| >= 3 && |ConvexHull(pts)| >= 3 ==> ring == ConvexHull(pts) + [ConvexHull(pts)[0]]
    ensures forall q :: q in ring ==> q in pts || q in fallback
  {
    var hull := ConvexHull(pts);
    HullMembers(pts);
    var open := if |hull| < 3 then fallback else hull;
    open + [open[0]]
  }

  /** A collinear cell now gets the fallback ring. */
  lemma CollinearRing(fallback: seq<Pos>)
    requires |fallback| >= 3
    ensures Ring(Collinear(), fallback) == fallback + [fallback[0]]
  {
    CollinearSorted();
    CollinearHull();
  }

  datatype Feature = Feature(name: string, centroid: Pos, ring: seq<Pos>)

  /** Which ring a run builds: the script's own, or the one that never degenerates. */
  datatype RingRule = AsWritten | Corrected

  function RingBy(rule: RingRule, pts: seq<Pos>, fallback: seq<Pos>): (ring: seq<Pos>)
    requires |fallback| >= 3
    ensures |ring| >= 2 && ring[|ring| - 1] == ring[0]
    ensures rule == Corrected ==> |ring| >= 4
  {
    match rule
    case AsWritten => RingAsWritten(pts, fallback)
    case Corrected => Ring(pts, fallback)
  }

  /** A feature's ring is closed; under the corrected rule it is a linear ring of at
      least four positions. */
  predicate RingShaped(rule: RingRule, f: Feature) {
    |f.ring| >= 2 && f.ring[|f.ring| - 1] == f.ring[0] && (rule == Corrected ==> |f.ring| >= 4)
  }

  /** One feature per name, in name order, with the centroid written `[lng, lat]` and
      the ring of the name's cell. */
  function Features(rule: RingRule, names: seq<string>, coords: map<string, LatLng>, cells: map<string, seq<Pos>>,
                    fallback: LatLng -> seq<Pos>): (fs: seq<Feature>)
    requires forall i :: 0 <= i < |names| ==> names[i] in coords && names[i] in cells
    requires forall c :: |fallback(c)| >= 3
    ensures |fs| == |names|
    ensures forall i :: 0 <= i < |names| ==>
      && fs[i].name == names[i]
      && fs[i].centroid == Pos(coords[names[i]].lng, coords[names[i]].lat)
      && fs[i].ring == RingBy(rule, cells[names[i]], fallback(coords[names[i]]))
      && RingShaped(rule, fs[i])
  {
    seq(|names|, i requires 0 <= i < |names| =>
      Feature(names[i], Pos(coords[names[i]].lng, coords[names[i]].lat),
              RingBy(rule, cells[names[i]], fallback(coords[names[i]]))))
  }

  datatype Output = Aborted(missing: seq<string>) | Generated(features: seq<Feature>)

  /** The whole script: abort on missing coordinates, else assign and build the features.
      The script itself is `GenerateMap(AsWritten, ...)`. */
  method GenerateMap(rule: RingRule, names: seq<string>, coords: map<string, LatLng>, w: real -> real, grid: seq<Pos>,
                     fallback: LatLng -> seq<Pos>) returns (out: Output)
    requires forall c :: |fallback(c)| >= 3
    ensures out.Aborted? <==> exists i :: 0 <= i < |names| && names[i] !in coords
    ensures out.Aborted? ==> forall n :: n in out.missing <==> n in names && n !in coords
    ensures out.Generated? ==> |out.features| == |names|
    ensures out.Generated? ==> forall i :: 0 <= i < |names| ==>
      out.features[i].name == names[i] && RingShaped(rule, out.features[i])
  {
    var missing := Missing(names, coords);
    if |missing| > 0 {
      var n := missing[0];
      assert n in names && n !in coords;
      assert exists i :: 0 <= i < |names| && names[i] !in coords by {
        var i :| 0 <= i < |names| && names[i] == n;
      }
      return Aborted(missing);
    }
    assert forall i :: 0 <= i < |names| ==> names[i] in coords by {
      forall i | 0 <= i < |names| ensures names[i] in coords {
        assert names[i] in names;
        assert names[i] !in missing;
      }
    }
    var _, fs := Build(rule, names, coords, w, grid, fallback);
    out := Generated(fs);
  }

  /** With every coordinate present: assign the grid, then write one feature per name,
      whose ring is built from exactly the grid points that name owns. */
  method Build(rule: RingRule, names: seq<string>, coords: map<string, LatLng>, w: real -> real, grid: seq<Pos>,
               fallback: LatLng -> seq<Pos>) returns (owner: seq<Option<nat>>, fs: seq<Feature>)
    requires forall i :: 0 <= i < |names| ==> names[i] in coords
    requires forall c :: |fallback(c)| >= 3
    ensures |owner| == |grid| && Owners(names, coords, w, grid, owner)
    ensures |fs| == |names|
    ensures forall i :: 0 <= i < |names| ==>
      && fs[i].name == names[i]
      && fs[i].ring == RingBy(rule, Collect(names, grid, owner, names[i]), fallback(coords[names[i]]))
      && RingShaped(rule, fs[i])
  {
    var cells;
    owner, cells := Assign(names, coords, w, grid);
    assert forall i :: 0 <= i < |names| ==> names[i] in cells by {
      forall i | 0 <= i < |names| ensures names[i] in cells {
        assert names[i] in names;
      }
    }
    fs := Features(rule, names, coords, cells, fallback);
  }
}

=== FILE: jsstring.dfy ===
/**
  The few JavaScript string operations the dashboard and its scripts rely on:
  `trim`, `toLowerCase`, `includes`, `startsWith`, `split`, and the truthiness
  of strings. Lower-casing is modelled for ASCII letters only.
 */
module JsString {
  import opened Optional

  /** ECMAScript WhiteSpace and LineTerminator code points: what `trim` strips and `\s` matches. */
  predicate IsWhitespace(c: char) {
    c == '\t' || c == '\n' || c == '\U{000B}' || c == '\U{000C}' || c == '\r' || c == ' '
    || c == '\U{00A0}' || c == '\U{1680}' || ('\U{2000}' <= c <= '\U{200A}')
    || c == '\U{2028}' || c == '\U{2029}' || c == '\U{202F}' || c == '\U{205F}'
    || c == '\U{3000}' || c == '\U{FEFF}'
  }

  predicate NoWhitespace(s: string) {
    forall k :: 0 <= k < |s| ==> !IsWhitespace(s[k])
  }

  function TrimStart(s: string): (r: string)
    ensures |r| <= |s| && r == s[|s| - |r|..]
    ensures |r| > 0 ==> !IsWhitespace(r[0])
    ensures forall k :: 0 <= k < |s| - |r| ==> IsWhitespace(s[k])
  {
    if |s| > 0 && IsWhitespace(s[0]) then TrimStart(s[1..]) else s
  }

  function TrimEnd(s: string): (r: string)
    ensures |r| <= |s| && r == s[..|r|]
    ensures |r| > 0 ==> !IsWhitespace(r[|r| - 1])
    ensures forall k :: |r| <= k < |s| ==> IsWhitespace(s[k])
  {
    if |s| > 0 && IsWhitespace(s[|s| - 1]) then TrimEnd(s[..|s| - 1]) else s
  }

  /** `String.prototype.trim`. */
  function Trim(s: string): string {
    TrimEnd(TrimStart(s))
  }

  /** `r` sits at offset `i` of `s` with only whitespace around it. */
  ghost predicate TrimmedAt(s: string, r: string, i: int) {
    && 0 <= i <= |s| - |r| && r == s[i..i + |r|]
    && (forall k :: 0 <= k < i ==> IsWhitespace(s[k]))
    && (forall k :: i + |r| <= k < |s| ==> IsWhitespace(s[k]))
  }

  /** Trimming leaves a contiguous piece of the input whose ends are not whitespace
      and strips only whitespace around it. */
  lemma TrimShape(s: string)
    ensures exists i :: TrimmedAt(s, Trim(s), i)
    ensures var r := Trim(s); |r| > 0 ==> !IsWhitespace(r[0]) && !IsWhitespace(r[|r| - 1])
  {
    var t := TrimStart(s);
    var r := TrimEnd(t);
    PieceWithin(s, t, r);
    assert Trim(s) == r;
    if |r| > 0 {
      assert r[0] == t[0];
    }
  }

  /** A suffix `t` after whitespace, and a prefix `r` of it before whitespace, sit in `s`
      with only whitespace around them. */
  lemma PieceWithin(s: string, t: string, r: string)
    requires |t| <= |s| && t == s[|s| - |t|..]
    requires forall k :: 0 <= k < |s| - |t| ==> IsWhitespace(s[k])
    requires |r| <= |t| && r == t[..|r|]
    requires forall k :: |r| <= k < |t| ==> IsWhitespace(t[k])
    ensures TrimmedAt(s, r, |s| - |t|)
  {
    var i := |s| - |t|;
    forall k | i + |r| <= k < |s|
      ensures IsWhitespace(s[k])
    {
      assert s[k] == t[k - i];
    }
    assert r == s[i..i + |r|];
  }

  lemma TrimIdempotent(s: string)
    ensures Trim(Trim(s)) == Trim(s)
  {
    var r := Trim(s);
    assert TrimStart(r) == r;
  }

  function LowerChar(c: char): (d: char)
    ensures 'A' <= c <= 'Z' ==> d as int == c as int + 32
    ensures !('A' <= c <= 'Z') ==> d == c
  {
    if 'A' <= c <= 'Z' then (c as int + 32) as char else c
  }

  /** `String.prototype.toLowerCase` restricted to ASCII letters. */
  function ToLower(s: string): (r: string)
    ensures |r| == |s|
    ensures forall k :: 0 <= k < |s| ==> r[k] == LowerChar(s[k])
  {
    seq(|s|, k requires 0 <= k < |s| => LowerChar(s[k]))
  }

  predicate HasNoUpper(s: string) {
    forall k :: 0 <= k < |s| ==> !('A' <= s[k] <= 'Z')
  }

  lemma ToLowerProperties(s: string)
    ensures HasNoUpper(ToLower(s))
    ensures ToLower(ToLower(s)) == ToLower(s)
    ensures HasNoUpper(s) ==> ToLower(s) == s
  {
  }

  /** The lower-cased, trimmed form the access-control code stores and compares. */
  function Normalize(s: string): string {
    ToLower(Trim(s))
  }

  lemma TrimCommutesWithLower(s: string)
    ensures Trim(ToLower(s)) == ToLower(Trim(s))
    decreases |s|
  {
    TrimStartLower(s);
    TrimEndLower(TrimStart(s));
  }

  /** Lower-casing never turns a character into whitespace nor the reverse. */
  lemma LowerCharWhitespace(c: char)
    ensures IsWhitespace(LowerChar(c)) == IsWhitespace(c)
  {
  }

  lemma {:induction false} TrimStartLower(s: string)
    ensures TrimStart(ToLower(s)) == ToLower(TrimStart(s))
    decreases |s|
  {
    if |s| > 0 {
      var l := ToLower(s);
      LowerCharWhitespace(s[0]);
      assert l[0] == LowerChar(s[0]);
      if IsWhitespace(s[0]) {
        assert l[1..] == ToLower(s[1..]);
        TrimStartLower(s[1..]);
        assert TrimStart(l) == TrimStart(l[1..]);
        assert TrimStart(s) == TrimStart(s[1..]);
      } else {
        assert TrimStart(l) == l && TrimStart(s) == s;
      }
    }
  }

  lemma TrimEndLower(s: string)
    ensures TrimEnd(ToLower(s)) == ToLower(TrimEnd(s))
    decreases |s|
  {
    if |s| > 0 && IsWhitespace(s[|s| - 1]) {
      assert ToLower(s)[..|s| - 1] == ToLower(s[..|s| - 1]);
      TrimEndLower(s[..|s| - 1]);
    }
  }

  /** Normalizing an already normalized address changes nothing. */
  lemma NormalizeIdempotent(s: string)
    ensures Normalize(Normalize(s)) == Normalize(s)
  {
    var t := Trim(s);
    TrimCommutesWithLower(t);
    TrimIdempotent(s);
    ToLowerProperties(t);
  }

  /** A string's truthiness: `""` is falsy and becomes `None`. */
  function Present(s: string): (r: Option<string>)
    ensures r.Some? <==> s != ""
    ensures r.Some? ==> r.value == s
  {
    if s == "" then None else Some(s)
  }

  /** Truthiness of an optional string field (`undefined`, `null` and `""` are all falsy). */
  function Truthy(o: Option<string>): (r: Option<string>)
    ensures r.Some? <==> o.Some? && o.value != ""
    ensures r.Some? ==> r == o
  {
    if o.Some? && o.value != "" then o else None
  }

  predicate StartsWith(s: string, prefix: string) {
    |prefix| <= |s| && s[..|prefix|] == prefix
  }

  /** `String.prototype.includes`, scanning left to right. */
  predicate Includes(s: string, sub: string)
    decreases |s|
  {
    StartsWith(s, sub) || (|s| > 0 && Includes(s[1..], sub))
  }

  ghost predicate OccursAt(s: string, sub: string, i: int) {
    0 <= i && i + |sub| <= |s| && s[i..i + |sub|] == sub
  }

  /** An `includes` hit is an occurrence at some offset. */
  lemma {:induction false} IncludesOccurs(s: string, sub: string)
    requires Includes(s, sub)
    ensures exists i :: OccursAt(s, sub, i)
    decreases |s|
  {
    if StartsWith(s, sub) {
      assert OccursAt(s, sub, 0);
    } else {
      IncludesOccurs(s[1..], sub);
      var i :| OccursAt(s[1..], sub, i);
      assert s[i + 1..i + 1 + |sub|] == s[1..][i..i + |sub|];
      assert OccursAt(s, sub, i + 1);
    }
  }

  /** An occurrence at any offset is found by the left-to-right scan. */
  lemma {:induction false} OccursIncludes(s: string, sub: string, i: int)
    requires OccursAt(s, sub, i)
    ensures Includes(s, sub)
    decreases i
  {
    if i == 0 {
      assert s[..|sub|] == s[0..0 + |sub|];
      assert StartsWith(s, sub);
    } else {
      assert s[1..][i - 1..i - 1 + |sub|] == s[i..i + |sub|];
      OccursIncludes(s[1..], sub, i - 1);
    }
  }

  /** `includes` holds exactly when `sub` occurs at some offset. */
  lemma IncludesIff(s: string, sub: string)
    ensures Includes(s, sub) <==> exists i :: OccursAt(s, sub, i)
  {
    if Includes(s, sub) {
      IncludesOccurs(s, sub);
    }
    forall i | OccursAt(s, sub, i)
      ensures Includes(s, sub)
    {
      OccursIncludes(s, sub, i);
    }
  }

  lemma IncludesEmpty(s: string)
    ensures Includes(s, "")
  {
    assert StartsWith(s, "");
  }

  /** Index of the first `sep` in `s`, or `|s|` when there is none. */
  function IndexOf(s: string, sep: char): (i: nat)
    ensures i <= |s|
    ensures i < |s| ==> s[i] == sep
    ensures forall k :: 0 <= k < i ==> s[k] != sep
  {
    if |s| == 0 then 0 else if s[0] == sep then 0 else 1 + IndexOf(s[1..], sep)
  }

  /** `s.split(sep)` for a one-character separator. */
  function SplitOn(s: string, sep: char): (parts: seq<string>)
    ensures |parts| >= 1
    ensures forall j, k :: 0 <= j < |parts| && 0 <= k < |parts[j]| ==> parts[j][k] != sep
    decreases |s|
  {
    var i := IndexOf(s, sep);
    if i == |s| then [s] else [s[..i]] + SplitOn(s[i + 1..], sep)
  }

  function Join(parts: seq<string>, sep: char): string
    requires |parts| >= 1
  {
    if |parts| == 1 then parts[0] else parts[0] + [sep] + Join(parts[1..], sep)
  }

  /** Splitting on a separator loses nothing: joining the pieces back restores the text. */
  lemma {:induction false} SplitJoin(s: string, sep: char)
    ensures Join(SplitOn(s, sep), sep) == s
    decreases |s|
  {
    var i := IndexOf(s, sep);
    if i < |s| {
      var rest := s[i + 1..];
      var tail := SplitOn(rest, sep);
      assert SplitOn(s, sep) == [s[..i]] + tail;
      JoinCons(s[..i], tail, sep);
      SplitJoin(rest, sep);
      assert s == s[..i] + [sep] + rest;
    }
  }

  lemma JoinCons(a: string, rest: seq<string>, sep: char)
    requires |rest| >= 1
    ensures Join([a] + rest, sep) == a + [sep] + Join(rest, sep)
  {
    assert ([a] + rest)[0] == a && ([a] + rest)[1..] == rest;
  }

  /** Drops one trailing carriage return. */
  function DropCr(line: string): string {
    if |line| > 0 && line[|line| - 1] == '\r' then line[..|line| - 1] else line
  }

  /** `text.split(/\r?\n/)`: split at every line feed, each piece that precedes a line feed losing one `\r`. */
  function SplitLines(text: string): (lines: seq<string>)
    ensures |lines| == |SplitOn(text, '\n')|
  {
    var parts := SplitOn(text, '\n');
    seq(|parts|, j requires 0 <= j < |parts| => if j < |parts| - 1 then DropCr(parts[j]) else parts[j])
  }
}

=== FILE: mapinteraction.dfy ===
/**
  Pointer interaction on the map, as an abstract machine over the path strokes.

  The main map draws one path per map feature (`names[i]` is the i-th path's name),
  the Chennai inset one path per inset feature. An event runs its handler; then, as
  React does after rendering, the hover-sync effect runs if the hovered name changed.
 */
module MapInteraction {
  import opened Optional

  /** Default `#cbd5e1`/0.4 (inset: `#94a3b8`/0.4), pointer emphasis `#1e293b`/1.5,
      hover-sync highlight `#facc15`/2. */
  datatype Stroke = Default | Emphasis | Highlight

  datatype HoverState = HoverState(
    names: seq<string>,
    strokes: seq<Stroke>,
    insetNames: seq<string>,
    insetStrokes: seq<Stroke>,
    hovered: Option<string>,
    selected: Option<string>,
    tooltipShown: bool
  )

  predicate Shaped(st: HoverState) {
    |st.strokes| == |st.names| && |st.insetStrokes| == |st.insetNames|
  }

  datatype Event =
    | Enter(i: nat) | Leave(i: nat) | Click(i: nat) | LeaveMap
    | InsetEnter(j: nat) | InsetLeave | InsetClick(j: nat)
    | SidebarHover(name: Option<string>)

  function AllDefault(n: nat): (s: seq<Stroke>)
    ensures |s| == n && forall k :: 0 <= k < n ==> s[k] == Default
  {
    seq(n, _ => Default)
  }

  /** Every path named `name` highlighted, every other path at the default stroke. */
  function HighlightNamed(names: seq<string>, name: string): (s: seq<Stroke>)
    ensures |s| == |names|
    ensures forall k :: 0 <= k < |names| ==> (s[k] == Highlight <==> names[k] == name)
    ensures forall k :: 0 <= k < |names| ==> s[k] != Emphasis
  {
    seq(|names|, k requires 0 <= k < |names| => if names[k] == name then Highlight else Default)
  }

  /** The hover-sync effect: reset every main-map path, then, if the hovered name is
      not empty, highlight the paths of that name. */
  function Sync(st: HoverState): HoverState {
    if st.hovered.Some? && st.hovered.value != "" then st.(strokes := HighlightNamed(st.names, st.hovered.value))
    else st.(strokes := AllDefault(|st.names|))
  }

  /** The event handlers as written. */
  function Handle(st: HoverState, ev: Event): (r: HoverState)
    requires Shaped(st)
    ensures Shaped(r) && r.names == st.names && r.insetNames == st.insetNames
  {
    match ev
    case Enter(i) =>
      if i < |st.names| then
        st.(hovered := Some(st.names[i]), strokes := AllDefault(|st.names|)[i := Emphasis], tooltipShown := true)
      else st
    case Leave(i) =>
      if i < |st.names| then
        st.(hovered := None, strokes := st.strokes[i := Default], tooltipShown := false)
      else st
    case Click(i) =>
      if i < |st.names| then st.(selected := Some(st.names[i])) else st
    case LeaveMap =>
      st.(strokes := AllDefault(|st.names|), hovered := None, tooltipShown := false)
    case InsetEnter(j) =>
      if j < |st.insetNames| then
        var name := st.insetNames[j];
        st.(hovered := Some(name),
            insetStrokes := AllDefault(|st.insetNames|)[j := Emphasis],
            strokes := HighlightNamed(st.names, name),
            tooltipShown := true)
      else st
    case InsetLeave =>
      st.(hovered := None, insetStrokes := AllDefault(|st.insetNames|),
          strokes := AllDefault(|st.names|), tooltipShown := false)
    case InsetClick(j) =>
      if j < |st.insetNames| then st.(selected := Some(st.insetNames[j])) else st
    case SidebarHover(name) =>
      st.(hovered := name)
  }

  /** One event: its handler, then the sync effect if the hovered name changed. */
  function Step(st: HoverState, ev: Event): (r: HoverState)
    requires Shaped(st)
    ensures Shaped(r) && r.names == st.names && r.insetNames == st.insetNames
  {
    var h := Handle(st, ev);
    if h.hovered != st.hovered then Sync(h) else h
  }

  function Run(st: HoverState, evs: seq<Event>): (r: HoverState)
    requires Shaped(st)
    ensures Shaped(r) && r.names == st.names && r.insetNames == st.insetNames
    decreases |evs|
  {
    if |evs| == 0 then st else Run(Step(st, evs[0]), evs[1..])
  }

  /** Only paths of the hovered constituency are marked, and at most one path per
      surface carries the pointer emphasis. */
  predicate Invariant(st: HoverState) {
    && Shaped(st)
    && (forall k :: 0 <= k < |st.strokes| && st.strokes[k] != Default ==>
          st.hovered.Some? && st.names[k] == st.hovered.value)
    && (forall k, l :: 0 <= k < l < |st.strokes| ==> !(st.strokes[k] == Emphasis && st.strokes[l] == Emphasis))
    && (forall k, l :: 0 <= k < l < |st.insetStrokes| ==> !(st.insetStrokes[k] == Emphasis && st.insetStrokes[l] == Emphasis))
  }

  lemma StepPreservesInvariant(st: HoverState, ev: Event)
    requires Invariant(st)
    ensures Invariant(Step(st, ev))
  {
    var h := Handle(st, ev);
    var r := Step(st, ev);
    if h.hovered == st.hovered {
      match ev
      case Leave(i) =>
        // Leaving can only happen without a hover change when nothing was hovered,
        // and then nothing was marked.
        assert r.strokes == h.strokes;
      case _ =>
    }
  }

  lemma {:induction false} RunPreservesInvariant(st: HoverState, evs: seq<Event>)
    requires Invariant(st)
    ensures Invariant(Run(st, evs))
    decreases |evs|
  {
    if |evs| > 0 {
      StepPreservesInvariant(st, evs[0]);
      RunPreservesInvariant(Step(st, evs[0]), evs[1..]);
    }
  }

  /** Leaving the map from any state clears the hover and every main-map stroke. */
  lemma LeaveMapClears(st: HoverState)
    requires Shaped(st)
    ensures var r := Step(st, LeaveMap);
            r.hovered.None? && !r.tooltipShown && forall k :: 0 <= k < |r.strokes| ==> r.strokes[k] == Default
  {
  }

  /** Entering a path emphasises it; if that changed the hovered name, the sync effect
      then turns it (and any same-named path) to the highlight, or, for a path with an
      empty name, which counts as no hover, back to the default. Either way no path of
      another constituency stays marked. */
  lemma EnterMarksOnlyThatConstituency(st: HoverState, i: nat)
    requires Shaped(st) && i < |st.names|
    ensures var r := Step(st, Enter(i));
            && r.hovered == Some(st.names[i])
            && (st.names[i] != "" ==> r.strokes[i] != Default)
            && forall k :: 0 <= k < |r.strokes| && r.strokes[k] != Default ==> r.names[k] == st.names[i]
  {
    var r := Step(st, Enter(i));
    if st.hovered != Some(st.names[i]) && st.names[i] != "" {
      assert r.strokes[i] == Highlight;
    }
  }

  /** Hovering A, then B, then leaving the map leaves both (and every other path) at
      the default stroke, with nothing hovered. */
  lemma HoverHoverLeave(st: HoverState, a: nat, b: nat)
    requires Shaped(st) && a < |st.names| && b < |st.names|
    ensures var r := Run(st, [Enter(a), Enter(b), LeaveMap]);
            && r.hovered.None?
            && r.strokes[a] == Default && r.strokes[b] == Default
            && forall k :: 0 <= k < |r.strokes| ==> r.strokes[k] == Default
  {
    var evs := [Enter(a), Enter(b), LeaveMap];
    var s1 := Step(st, Enter(a));
    var s2 := Step(s1, Enter(b));
    assert Run(st, evs) == Step(s2, LeaveMap) by {
      assert evs[1..] == [Enter(b), LeaveMap] && evs[1..][1..] == [LeaveMap];
      assert Run(st, evs) == Run(s1, evs[1..]);
      assert Run(s1, evs[1..]) == Run(s2, [LeaveMap]);
      assert Run(s2, [LeaveMap]) == Run(Step(s2, LeaveMap), []);
    }
    LeaveMapClears(s2);
  }

  /** Whenever an event changes the hovered name, the sync effect leaves exactly the
      paths of the new (non-empty) hovered name highlighted and every other path at the
      default stroke. */
  lemma SyncMarksHovered(st: HoverState, ev: Event)
    requires Shaped(st) && Handle(st, ev).hovered != st.hovered
    ensures var r := Step(st, ev);
            forall k :: 0 <= k < |r.strokes| ==>
              && (r.strokes[k] == Highlight <==> r.hovered.Some? && r.hovered.value != "" && r.names[k] == r.hovered.value)
              && r.strokes[k] != Emphasis
  {
  }

  /** Entering an inset path emphasises it alone on the inset and highlights every
      main-map path of the same name, an empty name included; only when that entry
      changed the hovered name to the empty one does the sync effect clear them again. */
  lemma InsetEnterHighlights(st: HoverState, j: nat)
    requires Shaped(st) && j < |st.insetNames|
    ensures var name := st.insetNames[j];
            var r := Step(st, InsetEnter(j));
            && r.hovered == Some(name) && r.tooltipShown
            && (forall k :: 0 <= k < |r.insetStrokes| ==> (r.insetStrokes[k] == Emphasis <==> k == j))
            && (forall k :: 0 <= k < |r.insetStrokes| ==> r.insetStrokes[k] != Highlight)
            && (name != "" || st.hovered == Some(name) ==>
                  forall k :: 0 <= k < |r.strokes| ==> (r.strokes[k] == Highlight <==> r.names[k] == name))
            && (name == "" && st.hovered != Some(name) ==>
                  forall k :: 0 <= k < |r.strokes| ==> r.strokes[k] == Default)
  {
  }

  /** A click selects exactly the clicked path's name and touches nothing else. */
  lemma ClickSelects(st: HoverState, i: nat)
    requires Shaped(st) && i < |st.names|
    ensures Step(st, Click(i)) == st.(selected := Some(st.names[i]))
  {
  }

  // ---------------------------------------------------------------------------
  // Dragging the Chennai inset.
  // ---------------------------------------------------------------------------

  const InsetWidth: real := 190.0

  datatype Pos = Pos(left: real, top: real)
  datatype DragRef = DragRef(startX: real, startY: real, origLeft: real, origTop: real)

  /** The inset position (`None` until first dragged: pinned 8px from the top right),
      the drag in progress, and how many move/up listener pairs the window holds. */
  datatype DragState = DragState(insetPos: Option<Pos>, drag: Option<DragRef>, listeners: nat)

  function Max0(x: real): (m: real)
    ensures m >= 0.0 && m >= x && (m == 0.0 || m == x)
  {
    if x > 0.0 then x else 0.0
  }

  /** Mouse-down on the inset header: remember where the drag starts and register a listener pair. */
  function DragStart(st: DragState, containerWidth: real, clientX: real, clientY: real): (r: DragState)
    ensures r.insetPos == st.insetPos && r.listeners == st.listeners + 1
    ensures st.insetPos.None? ==> r.drag == Some(DragRef(clientX, clientY, containerWidth - InsetWidth - 8.0, 8.0))
    ensures st.insetPos.Some? ==> r.drag == Some(DragRef(clientX, clientY, st.insetPos.value.left, st.insetPos.value.top))
  {
    var origLeft := if st.insetPos.Some? then st.insetPos.value.left else containerWidth - InsetWidth - 8.0;
    var origTop := if st.insetPos.Some? then st.insetPos.value.top else 8.0;
    st.(drag := Some(DragRef(clientX, clientY, origLeft, origTop)), listeners := st.listeners + 1)
  }

  /** Pointer move: the start position plus the pointer's travel, clamped to the
      container's top-left corner; nothing happens without a drag and its listener. */
  function DragMove(st: DragState, clientX: real, clientY: real): (r: DragState)
    ensures st.listeners == 0 || st.drag.None? ==> r == st
    ensures st.listeners > 0 && st.drag.Some? ==>
      var d := st.drag.value;
      && r.insetPos.Some?
      && r.insetPos.value.left == Max0(d.origLeft + (clientX - d.startX))
      && r.insetPos.value.top == Max0(d.origTop + (clientY - d.startY))
      && r.(insetPos := st.insetPos) == st
  {
    if st.listeners == 0 || st.drag.None? then st
    else
      var d := st.drag.value;
      st.(insetPos := Some(Pos(Max0(d.origLeft + (clientX - d.startX)), Max0(d.origTop + (clientY - d.startY)))))
  }

  /** Mouse-up: every registered up-handler clears the drag and removes its own pair. */
  function DragEnd(st: DragState): (r: DragState)
    ensures st.listeners > 0 ==> r.drag.None? && r.listeners == 0
    ensures r.insetPos == st.insetPos
  {
    if st.listeners > 0 then st.(drag := None, listeners := 0) else st
  }

  /** A drag is in progress exactly while listeners are registered, and the inset never
      sits left of or above the container. */
  predicate DragInvariant(st: DragState) {
    && (st.drag.Some? <==> st.listeners > 0)
    && (st.insetPos.Some? ==> st.insetPos.value.left >= 0.0 && st.insetPos.value.top >= 0.0)
  }

  lemma DragInvariantKept(st: DragState, w: real, x: real, y: real)
    requires DragInvariant(st)
    ensures DragInvariant(DragStart(st, w, x, y))
    ensures DragInvariant(DragMove(st, x, y))
    ensures DragInvariant(DragEnd(st))
  {
  }

  /** A full drag from the pinned position moves the inset by the pointer's travel,
      clamped at zero, and leaves no drag or listener behind; further moves do nothing. */
  lemma FirstDragRoundTrip(w: real, x0: real, y0: real, x1: real, y1: real, x2: real, y2: real)
    ensures var s0 := DragState(None, None, 0);
            var s3 := DragEnd(DragMove(DragStart(s0, w, x0, y0), x1, y1));
            && s3.insetPos == Some(Pos(Max0(w - InsetWidth - 8.0 + (x1 - x0)), Max0(8.0 + (y1 - y0))))
            && s3.drag.None? && s3.listeners == 0
            && DragMove(s3, x2, y2) == s3
  {
  }
}

=== FILE: mapview.dfy ===
/**
  What the constituency map shows for a record: the fill colour (with the search and
  party-filter overlays applied first), the alliance label in the tooltip, where the
  tooltip is placed, and when the detail panel is open.
 */
module MapView {
  import opened Optional
  import opened JsString
  import opened Records
  import opened Colors
  import opened Dashboard
  import Resolver

  const Neutral := "#f1f5f9"

  /** A fill is either a hex colour or the `rgb(...)` tint. */
  datatype Fill = Hex(hex: string) | Tint(rgb: Rgb)

  /** The settings the fill depends on. */
  datatype FillSettings = FillSettings(
    scenario: Scenario,
    viewMode: ViewMode,
    heatmapSubMode: HeatmapSubMode,
    searchQuery: string,
    partyFilter: seq<string>
  )

  /** The map dims a region for a search that misses its name or a party filter that
      excludes its winner; a missing winner is never dimmed by the filter. */
  predicate Dimmed(fs: FillSettings, c: Record, name: string) {
    || (fs.searchQuery != "" && !Includes(ToLower(name), ToLower(fs.searchQuery)))
    || (var w := Resolver.Winner(c, fs.scenario);
        |fs.partyFilter| > 0 && w.Some? && w.value !in fs.partyFilter)
  }

  /** The share that sets the tint's depth in the all-parties heat map: the DMK-side
      projection for the DMK front, TVK's share for TVK, the ADMK-side projection for the rest. */
  function ProjShare(winner: Option<string>, c: Record): (share: real)
    ensures winner.Some? && winner.value in {"DMK", "INC", "VCK", "CPM", "CPI", "MDMK"} ==>
      share == OrElse(c.dmkProjShare, c.dmkBlocA).GetOr(0.3)
    ensures winner == Some("TVK") ==> share == c.tvkA.GetOr(0.15)
  {
    if winner.Some? && winner.value in {"DMK", "INC", "VCK", "CPM", "CPI", "MDMK"} then
      OrElse(c.dmkProjShare, c.dmkBlocA).GetOr(0.3)
    else if winner == Some("TVK") then c.tvkA.GetOr(0.15)
    else OrElse(c.admkProjShare, c.admkBlocA).GetOr(0.3)
  }

  function Min(a: real, b: real): (m: real)
    ensures m <= a && m <= b && (m == a || m == b)
  {
    if a <= b then a else b
  }

  /** `getFillColor`. */
  function FillColor(fs: FillSettings, cData: Option<Record>, name: string): (f: Fill)
    ensures cData.None? ==> f == Hex(Neutral)
    ensures cData.Some? && Dimmed(fs, cData.value, name) ==> f == Hex(Neutral)
  {
    if cData.None? then Hex(Neutral)
    else
      var c := cData.value;
      if Dimmed(fs, c, name) then Hex(Neutral)
      else
        var winner := Resolver.Winner(c, fs.scenario);
        match fs.viewMode
        case HeatmapView =>
          if fs.heatmapSubMode == IncOnly then Hex(HeatmapColor(c.incLayer.meanShare))
          else Tint(TintedColor(winner, Min(1.0, ProjShare(winner, c) / 0.55)))
        case MarginView =>
          var m := Resolver.Margin(c, fs.scenario);
          if m.Some? then Hex(MarginColor(m.value)) else Hex(Neutral)
        case TvkView => Tint(TintedColor(winner, Min(1.0, c.tvkA.GetOr(0.0) / 0.25)))
        case CrystalView => Tint(TintedColor(winner, Min(1.0, Abs(c.crystallizationGap.GetOr(0.0)) / 0.5)))
        case PartyView => Hex(PartyColor(winner))
  }

  /** A region that is not dimmed is coloured by the view mode alone: the overlays act
      before any view mode and only ever turn a region neutral. */
  lemma FillByViewMode(fs: FillSettings, c: Record, name: string)
    requires !Dimmed(fs, c, name)
    ensures var w := Resolver.Winner(c, fs.scenario);
            var m := Resolver.Margin(c, fs.scenario);
            && (fs.viewMode == PartyView ==> FillColor(fs, Some(c), name) == Hex(PartyColor(w)))
            && (fs.viewMode == MarginView && m.Some? ==> FillColor(fs, Some(c), name) == Hex(MarginColor(m.value)))
            && (fs.viewMode == MarginView && m.None? ==> FillColor(fs, Some(c), name) == Hex(Neutral))
            && (fs.viewMode == HeatmapView && fs.heatmapSubMode == IncOnly ==>
                  FillColor(fs, Some(c), name) == Hex(HeatmapColor(c.incLayer.meanShare)))
            && (fs.viewMode == HeatmapView && fs.heatmapSubMode == AllParties ==>
                  FillColor(fs, Some(c), name) == Tint(TintedColor(w, Min(1.0, ProjShare(w, c) / 0.55))))
            && (fs.viewMode == TvkView ==>
                  FillColor(fs, Some(c), name) == Tint(TintedColor(w, Min(1.0, c.tvkA.GetOr(0.0) / 0.25))))
            && (fs.viewMode == CrystalView ==>
                  FillColor(fs, Some(c), name) == Tint(TintedColor(w, Min(1.0, Abs(c.crystallizationGap.GetOr(0.0)) / 0.5))))
  {
  }

  /** The TVK view shades by TVK's scenario-A share: no share (or none recorded) is
      white, and a share of 25% or more is the winner's full colour. */
  lemma TvkViewShading(fs: FillSettings, c: Record, name: string)
    requires !Dimmed(fs, c, name) && fs.viewMode == TvkView
    ensures c.tvkA.GetOr(0.0) <= 0.0 ==> FillColor(fs, Some(c), name) == Tint(Rgb(255, 255, 255))
    ensures c.tvkA.GetOr(0.0) >= 0.25 ==>
      FillColor(fs, Some(c), name) == Tint(ParseHexColor(BaseHex(Resolver.Winner(c, fs.scenario))))
  {
    var share := c.tvkA.GetOr(0.0);
    if share >= 0.25 {
      assert share / 0.25 >= 1.0;
    }
  }

  /** The crystallisation view shades by the size of the gap, whichever its sign: no
      gap is white, and a gap of 50 points or more either way is the winner's full colour. */
  lemma CrystalViewShading(fs: FillSettings, c: Record, name: string)
    requires !Dimmed(fs, c, name) && fs.viewMode == CrystalView
    ensures c.crystallizationGap.GetOr(0.0) == 0.0 ==> FillColor(fs, Some(c), name) == Tint(Rgb(255, 255, 255))
    ensures Abs(c.crystallizationGap.GetOr(0.0)) >= 0.5 ==>
      FillColor(fs, Some(c), name) == Tint(ParseHexColor(BaseHex(Resolver.Winner(c, fs.scenario))))
  {
    var gap := Abs(c.crystallizationGap.GetOr(0.0));
    if gap >= 0.5 {
      assert gap / 0.5 >= 1.0;
    }
  }

  /** With no search and no party filter nothing is dimmed, so every region with a
      record gets its view-mode colour. */
  lemma NoOverlayNoDimming(fs: FillSettings, c: Record, name: string)
    requires fs.searchQuery == "" && fs.partyFilter == []
    ensures !Dimmed(fs, c, name)
  {
  }

  /** A search that occurs in the name, ignoring case, never dims the region. */
  lemma SearchHit(fs: FillSettings, c: Record, name: string, i: int)
    requires fs.partyFilter == []
    requires OccursAt(ToLower(name), ToLower(fs.searchQuery), i)
    ensures !Dimmed(fs, c, name)
  {
    IncludesIff(ToLower(name), ToLower(fs.searchQuery));
  }

  // ---------------------------------------------------------------------------
  // Tooltip.
  // ---------------------------------------------------------------------------

  /** The alliance label: the joint front as is, INC alone spelled out, any other
      alliance marked as a front with `+`. */
  function BlocLabel(alliance: string): (l: string)
    ensures alliance == "INC+TVK" ==> l == "INC+TVK"
    ensures alliance == "INC" ==> l == "INC (Solo)"
    ensures alliance != "INC+TVK" && alliance != "INC" ==> l == alliance + "+"
  {
    if alliance == "INC+TVK" then "INC+TVK"
    else if alliance == "INC" then "INC (Solo)"
    else alliance + "+"
  }

  /** Different alliances never share a label. */
  lemma BlocLabelInjective(a: string, b: string)
    requires BlocLabel(a) == BlocLabel(b)
    ensures a == b
  {
    var la := BlocLabel(a);
    if a != "INC+TVK" && a != "INC" && b != "INC+TVK" && b != "INC" {
      assert a == la[..|la| - 1] == b;
    } else if a == "INC+TVK" || b == "INC+TVK" {
      assert la[|la| - 1] == 'K';
    } else {
      assert la[|la| - 1] == ')';
    }
  }

  const TipWidth: real := 260.0
  const TipHeight: real := 280.0

  /** Tooltip placement for a pointer at (x, y) in a container of the given size:
      to the right of the pointer unless that would overflow, below it unless that would. */
  function TooltipPosition(x: real, y: real, width: real, height: real): (p: (real, real))
    ensures x + TipWidth + 20.0 > width ==> p.0 == x - TipWidth - 12.0
    ensures x + TipWidth + 20.0 <= width ==> p.0 == x + 14.0
    ensures y + TipHeight > height ==> p.1 == if y - TipHeight + 20.0 > 8.0 then y - TipHeight + 20.0 else 8.0
    ensures y + TipHeight <= height ==> p.1 == y - 8.0
  {
    var left := if x + TipWidth + 20.0 > width then x - TipWidth - 12.0 else x + 14.0;
    var top := if y + TipHeight > height then (if 8.0 > y - TipHeight + 20.0 then 8.0 else y - TipHeight + 20.0) else y - 8.0;
    (left, top)
  }

  /** Placed to the right, the tooltip ends inside the container; placed to the left, it
      ends 12px before the pointer; placed above, it never rises past 8px from the top. */
  lemma TooltipStaysInside(x: real, y: real, width: real, height: real)
    ensures var p := TooltipPosition(x, y, width, height);
            && (p.0 == x + 14.0 ==> p.0 + TipWidth <= width)
            && (p.0 != x + 14.0 ==> p.0 + TipWidth + 12.0 == x)
            && (y + TipHeight > height ==> p.1 >= 8.0)
            && (y + TipHeight <= height ==> p.1 + TipHeight <= height)
  {
  }

  /** The tooltip for the Chennai inset sits left of the inset, at least 8px from the edge. */
  function InsetTooltipPosition(ox: real, oy: real): (p: (real, real))
    ensures p.0 >= 8.0 && p.0 >= ox - 250.0 && (p.0 == 8.0 || p.0 == ox - 250.0)
    ensures p.1 == oy + 20.0
  {
    (if ox - 250.0 > 8.0 then ox - 250.0 else 8.0, oy + 20.0)
  }

  // ---------------------------------------------------------------------------
  // Record lookup and the detail panel.
  // ---------------------------------------------------------------------------

  /** `dataByName`: later records with the same name overwrite earlier ones. */
  function DataByName(rs: seq<Record>): (m: map<string, Record>)
    ensures forall n :: n in m <==> exists i :: 0 <= i < |rs| && rs[i].name == n
    ensures forall n :: n in m ==> m[n].name == n && m[n] in rs
  {
    if |rs| == 0 then map[]
    else
      var init := rs[..|rs| - 1];
      var m := DataByName(init);
      assert forall r :: r in init ==> r in rs;
      assert forall i :: 0 <= i < |init| ==> init[i] == rs[i];
      m[rs[|rs| - 1].name := rs[|rs| - 1]]
  }

  /** The last record of a name is the one looked up. */
  lemma DataByNameLast(rs: seq<Record>, i: int)
    requires 0 <= i < |rs|
    requires forall j :: i < j < |rs| ==> rs[j].name != rs[i].name
    ensures DataByName(rs)[rs[i].name] == rs[i]
    decreases |rs|
  {
    if i < |rs| - 1 {
      var init := rs[..|rs| - 1];
      DataByNameLast(init, i);
    }
  }

  /** The detail panel is open exactly when a selected name has a record. */
  predicate DetailPanelOpen(selected: Option<string>, lookup: map<string, Record>) {
    Truthy(selected).Some? && selected.value in lookup
  }

  /** The backdrop click closes the panel. */
  function Backdrop(st: State): (r: State)
    ensures r.selected.None?
    ensures r.(selected := st.selected) == st
    ensures forall lookup :: !DetailPanelOpen(r.selected, lookup)
  {
    st.(selected := None)
  }

  /** The comparison panel's getters: the actual result, else scenario A. */
  function ComparisonWinner(c: Record): (w: Option<string>)
    ensures w == Resolver.BaselineWinner(c)
    ensures w.Some? ==> w.value != ""
    ensures c.actualWinner.Some? && c.actualWinner.value != "" ==> w == c.actualWinner
    ensures (c.actualWinner.None? || c.actualWinner.value == "") ==> w == Present(c.scenarioA)
  {
    OrElse(Truthy(c.actualWinner), Present(c.scenarioA))
  }

  function ComparisonMargin(c: Record): (m: real)
    ensures c.actualMargin.Some? ==> m == c.actualMargin.value
    ensures c.actualMargin.None? ==> m == c.marginA
  {
    c.actualMargin.GetOr(c.marginA)
  }
}

=== FILE: optional.dfy ===
/** The `null`/`undefined`-or-value shape used throughout the dashboard. */
module Optional {

  datatype Option<+T> = None | Some(value: T) {

    /** The encapsulated value, or `default` when absent (JavaScript `??`). */
    function GetOr(default: T): T {
      match this
      case Some(v) => v
      case None => default
    }
  }

  /** JavaScript `a || b` on an optional value whose falsy forms were already folded to `None`. */
  function OrElse<T>(a: Option<T>, b: Option<T>): (r: Option<T>)
    ensures a.Some? ==> r == a
    ensures a.None? ==> r == b
  {
    if a.Some? then a else b
  }
}

=== FILE: queries.dfy ===
/**
  The data module's own queries: competitive constituencies under a margin threshold,
  and INC strongholds under a correlation threshold.
 */
module Queries {
  import opened SeqUtil
  import opened Sorting
  import opened Records
  import Resolver
  import Colors

  const DefaultMarginThreshold: real := 0.15
  const DefaultRhoThreshold: real := 0.5

  function CompetitiveTest(s: Scenario, threshold: real): Record -> bool {
    (c: Record) => Colors.Abs(Resolver.SwingMargin(c, s)) < threshold
  }

  /** `getSwingConstituencies`: the records whose margin is below the threshold, in order,
      one per competitive position (`SwingConstituenciesUnique` shows this pins it down). */
  function SwingConstituencies(rs: seq<Record>, s: Scenario, threshold: real): (r: seq<Record>)
    ensures forall k :: 0 <= k < |r| ==> Colors.Abs(Resolver.SwingMargin(r[k], s)) < threshold
    ensures forall k :: 0 <= k < |rs| && Colors.Abs(Resolver.SwingMargin(rs[k], s)) < threshold ==>
      rs[k] in multiset(r)
    ensures multiset(r) <= multiset(rs)
    ensures Subsequence(r, rs)
    ensures |r| == |Hits(rs, CompetitiveTest(s, threshold))|
  {
    FilterContents(rs, CompetitiveTest(s, threshold));
    FilterSubsequence(rs, CompetitiveTest(s, threshold));
    FilterCountsHits(rs, CompetitiveTest(s, threshold));
    Filter(rs, CompetitiveTest(s, threshold))
  }

  /** The query's result is the only in-order selection of competitive records with one
      element per competitive position. */
  lemma SwingConstituenciesUnique(rs: seq<Record>, s: Scenario, threshold: real, r: seq<Record>)
    requires Subsequence(r, rs)
    requires forall k :: 0 <= k < |r| ==> Colors.Abs(Resolver.SwingMargin(r[k], s)) < threshold
    requires |r| == |Hits(rs, CompetitiveTest(s, threshold))|
    ensures r == SwingConstituencies(rs, s, threshold)
  {
    SubsequenceWithin(r, rs, CompetitiveTest(s, threshold));
  }

  /** A larger threshold keeps at least as many records. */
  lemma {:induction false} SwingThresholdMonotone(rs: seq<Record>, s: Scenario, lo: real, hi: real)
    requires lo <= hi
    ensures |SwingConstituencies(rs, s, lo)| <= |SwingConstituencies(rs, s, hi)|
  {
    if |rs| > 0 {
      SwingThresholdMonotone(rs[1..], s, lo, hi);
    }
  }

  /** Without a D margin the D query is the C query; so is the E query without an E margin. */
  lemma SwingFallsBackToC(rs: seq<Record>, s: Scenario, threshold: real)
    requires s == D || s == E
    requires forall k :: 0 <= k < |rs| ==> rs[k].marginD.Absent? && rs[k].marginE.Absent?
    ensures SwingConstituencies(rs, s, threshold) == SwingConstituencies(rs, C, threshold)
  {
    FilterSameTest(rs, CompetitiveTest(s, threshold), CompetitiveTest(C, threshold));
  }

  lemma {:induction false} FilterSameTest(rs: seq<Record>, p: Record -> bool, q: Record -> bool)
    requires forall k :: 0 <= k < |rs| ==> p(rs[k]) == q(rs[k])
    ensures Filter(rs, p) == Filter(rs, q)
  {
    if |rs| > 0 {
      assert forall k :: 0 <= k < |rs[1..]| ==> rs[1..][k] == rs[k + 1];
      FilterSameTest(rs[1..], p, q);
    }
  }

  function StrongholdTest(threshold: real): Record -> bool {
    (c: Record) => c.incLayer.rho >= threshold
  }

  /** The comparator `(a, b) => b.inc_layer.mean_share - a.inc_layer.mean_share`. */
  function LargerShare(): (Record, Record) -> bool {
    (a: Record, b: Record) => a.incLayer.meanShare > b.incLayer.meanShare
  }

  /** `getINCStrongholds`: the records whose INC correlation reaches the threshold,
      every copy of each, largest INC share first. */
  function IncStrongholds(rs: seq<Record>, threshold: real): (r: seq<Record>)
    ensures forall k :: 0 <= k < |r| ==> r[k].incLayer.rho >= threshold
    ensures forall k :: 0 <= k < |rs| && rs[k].incLayer.rho >= threshold ==> rs[k] in multiset(r)
    ensures multiset(r) <= multiset(rs)
    ensures forall i, j :: 0 <= i < j < |r| ==> r[i].incLayer.meanShare >= r[j].incLayer.meanShare
    ensures forall x :: multiset(r)[x] == if x.incLayer.rho >= threshold then multiset(rs)[x] else 0
    ensures multiset(r) == multiset(Filter(rs, StrongholdTest(threshold)))
  {
    var found := Filter(rs, StrongholdTest(threshold));
    FilterContents(rs, StrongholdTest(threshold));
    forall x
      ensures multiset(found)[x] == if x.incLayer.rho >= threshold then multiset(rs)[x] else 0
    {
      FilterMultiplicity(rs, StrongholdTest(threshold), x);
    }
    var sorted := Sort(found, LargerShare());
    SubMultisetKeeps(found, sorted, StrongholdTest(threshold));
    sorted
  }
}

=== FILE: recommendation.dfy ===
/**
  The strategic assessment shared by the header banner and the analytics panel: a
  rating and the seat total of INC's alliance under the active scenario.

  The 2026 forecast rates each scenario on its own bloc; other years (and scenario B)
  rate the INC-centred alliance the scenario stands for. The banner text is not
  modelled, only its rating and seat count.
 */
module Recommendation {
  import opened Optional
  import opened Records
  import opened Tally
  import opened AllianceBuilder
  import Analytics

  datatype Rating = Positive | Caution | Negative | Neutral

  datatype Assessment = Assessment(rating: Rating, allianceSeats: Option<nat>)

  /** A bloc is rated positive once it reaches the majority mark. */
  function Rate(seats: nat): (r: Rating)
    ensures r == Positive <==> seats >= MajorityMark
    ensures r in {Positive, Caution}
  {
    if seats >= MajorityMark then Positive else Caution
  }

  /** The seats a scenario stands for outside the 2026 forecast: the DMK or ADMK front
      with INC for A and B, INC alone otherwise. */
  function V8AllianceSeats(t: seq<Entry>, s: Scenario): nat {
    if s == A then Seats(t, "DMK") + IncSeats(t) + Seats(t, "VCK") + Seats(t, "CPM") + Seats(t, "CPI")
    else if s == B then Seats(t, "ADMK") + IncSeats(t) + Seats(t, "PMK") + Seats(t, "BJP")
    else IncSeats(t)
  }

  /** The INC-centred assessment: A and B are rated on the majority mark, INC alone is
      a caution from 80 seats and negative below. */
  function V8Assessment(t: seq<Entry>, s: Scenario): (r: Assessment)
    ensures r.allianceSeats == Some(V8AllianceSeats(t, s))
    ensures s in {A, B} ==> r.rating == Rate(V8AllianceSeats(t, s))
    ensures s !in {A, B} ==> (r.rating == Caution <==> IncSeats(t) >= 80) && r.rating in {Caution, Negative}
  {
    var total := V8AllianceSeats(t, s);
    if s == A || s == B then Assessment(Rate(total), Some(total))
    else Assessment(if total >= 80 then Caution else Negative, Some(total))
  }

  /** The assessment as the hook computes it: in scenario E of the 2026 forecast the
      ADMK bloc already holds INC's seats, and INC's seats are added to it once more. */
  function AssessAsWritten(year: int, t: seq<Entry>, s: Scenario): (r: Assessment)
    ensures s == NONE ==> r == Assessment(Neutral, None)
    ensures s != NONE ==> r.allianceSeats.Some? && r.rating != Neutral
    ensures IsV10Year(year) && s == E ==>
      r == Assessment(Rate(AdmkBloc(t, E) + IncSeats(t)), Some(AdmkBloc(t, E) + IncSeats(t)))
  {
    if s == NONE then Assessment(Neutral, None)
    else if IsV10Year(year) && s == E then
      var bloc := AdmkBloc(t, E) + IncSeats(t);
      Assessment(Rate(bloc), Some(bloc))
    else Assess(year, t, s)
  }

  /** The assessment with each scenario's bloc counted once. */
  function Assess(year: int, t: seq<Entry>, s: Scenario): (r: Assessment)
    ensures s == NONE ==> r == Assessment(Neutral, None)
    ensures s != NONE ==> r.allianceSeats.Some? && r.rating != Neutral
    ensures IsV10Year(year) && s == A ==>
      r == Assessment(Rate(DmkBloc(t, A)), Some(DmkBloc(t, A)))
    ensures IsV10Year(year) && s == C ==> r == Assessment(Negative, Some(IncSeats(t)))
    ensures IsV10Year(year) && s == D ==>
      r.allianceSeats == Some(ThirdBlocD(t))
      && (r.rating == Caution <==> TotalIncSide(t) > 23) && r.rating in {Caution, Negative}
    ensures IsV10Year(year) && s == E ==>
      r == Assessment(Rate(AdmkBloc(t, E)), Some(AdmkBloc(t, E)))
    ensures (!IsV10Year(year) || s == B) && s != NONE ==> r == V8Assessment(t, s)
  {
    if s == NONE then Assessment(Neutral, None)
    else if IsV10Year(year) && s == A then Assessment(Rate(DmkBloc(t, A)), Some(DmkBloc(t, A)))
    else if IsV10Year(year) && s == C then Assessment(Negative, Some(IncSeats(t)))
    else if IsV10Year(year) && s == D then
      Assessment(if TotalIncSide(t) > 23 then Caution else Negative, Some(ThirdBlocD(t)))
    else if IsV10Year(year) && s == E then Assessment(Rate(AdmkBloc(t, E)), Some(AdmkBloc(t, E)))
    else V8Assessment(t, s)
  }

  /** The assessment of a record list under a scenario. */
  function AssessRecords(year: int, rs: seq<Record>, s: Scenario): Assessment {
    Assess(year, SeatTally(rs, s), s)
  }

  /** Without a scenario the assessment is neutral whatever the data. */
  lemma NoScenarioIsNeutral(year: int, t1: seq<Entry>, t2: seq<Entry>)
    ensures Assess(year, t1, NONE) == Assess(year, t2, NONE) == Assessment(Neutral, None)
    ensures AssessAsWritten(year, t1, NONE) == AssessAsWritten(year, t2, NONE)
  {
  }

  /** Both versions agree everywhere except on scenario E of the 2026 forecast, where the
      version as written counts INC's seats twice. */
  lemma AsWrittenDiffersOnlyInE(year: int, t: seq<Entry>, s: Scenario)
    ensures !(IsV10Year(year) && s == E) ==> AssessAsWritten(year, t, s) == Assess(year, t, s)
    ensures IsV10Year(year) && s == E ==>
      AssessAsWritten(year, t, s).allianceSeats.value == Assess(year, t, s).allianceSeats.value + Seats(t, "INC")
  {
  }

  /** The double count exhibited: ADMK with 40 seats and INC with 60 make a 100-seat bloc,
      which the version as written reports as 160 seats, more than the tally holds, and
      rates as a majority. */
  lemma DoubleCountExample()
    ensures var t := [Entry("ADMK", 40), Entry("INC", 60)];
            && Total(t) == 100
            && AssessAsWritten(2026, t, E) == Assessment(Positive, Some(160))
            && Assess(2026, t, E) == Assessment(Caution, Some(100))
  {
    var t := [Entry("ADMK", 40), Entry("INC", 60)];
    assert t[1..] == [Entry("INC", 60)];
    assert t[1..][1..] == [];
    assert Seats(t, "INC") == 60;
    assert Seats(t, "ADMK") == 40;
    assert Seats(t, "BJP") == 0 && Seats(t, "PMK") == 0;
    SumSeatsCons(t, "PMK", []);
    SumSeatsCons(t, "BJP", ["PMK"]);
    assert SumSeats(t, AdmkAllies) == 0;
  }

  lemma SeatsWithinTally(t: seq<Entry>, p: string)
    requires WellFormed(t)
    ensures Seats(t, p) <= Total(t)
  {
    SumSeatsCons(t, p, []);
    SumSeatsBound(t, [p]);
  }

  lemma AdmkFrontWithinTally(t: seq<Entry>)
    requires WellFormed(t)
    ensures V8AllianceSeats(t, B) <= Total(t)
  {
    SumSeatsCons(t, "BJP", []);
    SumSeatsCons(t, "PMK", ["BJP"]);
    SumSeatsCons(t, "INC", ["PMK", "BJP"]);
    SumSeatsCons(t, "ADMK", ["INC", "PMK", "BJP"]);
    SumSeatsBound(t, ["ADMK", "INC", "PMK", "BJP"]);
  }

  /** Counted once, no alliance is ever credited with more seats than the tally holds. */
  lemma AssessWithinTally(year: int, t: seq<Entry>, s: Scenario)
    requires WellFormed(t)
    requires s != NONE
    ensures Assess(year, t, s).allianceSeats.value <= Total(t)
  {
    BlocsWithinTally(t, s);
    SeatsWithinTally(t, "INC");
    if !IsV10Year(year) || s == B {
      if s == A {
        Analytics.FixedBlocs(t, s);
        SumSeatsCons(t, "CPI", []);
        SumSeatsCons(t, "CPM", ["CPI"]);
        SumSeatsCons(t, "VCK", ["CPM", "CPI"]);
        SumSeatsCons(t, "INC", ["VCK", "CPM", "CPI"]);
        SumSeatsCons(t, "DMK", ["INC", "VCK", "CPM", "CPI"]);
      } else if s == B {
        AdmkFrontWithinTally(t);
      }
    }
  }
}

=== FILE: records.dfy ===
/**
  The constituency record the dashboard works on, the raw 2026 record it is built
  from, and the dashboard-wide constants.

  Numeric fields are exact reals. Optional numeric fields read with `??` are
  `Option<real>`; the D and E margins are read with `!== undefined`, which lets a
  stored `null` through, so they keep three states.
 */
module Records {
  import opened Optional

  /** Alliance scenarios: A = INC with DMK, B = INC with ADMK (2011-2021 only),
      C = INC alone, D = INC with TVK, E = INC with ADMK (2026 only), NONE = no alliance chosen. */
  datatype Scenario = A | B | C | D | E | NONE

  /** A field read with `!== undefined`: missing, stored as `null`, or a number. */
  datatype NumField = Absent | Null | Num(v: real)

  datatype IncLayer = IncLayer(rho: real, meanShare: real)

  /** One constituency as the components see it. Winner strings are kept as the
      data has them; their truthiness is applied where they are read. */
  datatype Record = Record(
    name: string,
    actualWinner: Option<string>,
    actualMargin: Option<real>,
    scenarioA: string, marginA: real, allianceA: string,
    scenarioB: string, marginB: real, allianceB: string,
    scenarioC: string, marginC: real, allianceC: string,
    incLayer: IncLayer,
    constituencyRho: real,
    confidenceA: Option<string>,
    dmkBlocA: Option<real>,
    admkBlocA: Option<real>,
    tvkA: Option<real>,
    scenarioD: Option<string>, marginD: NumField, allianceD: Option<string>,
    scenarioE: Option<string>, marginE: NumField, allianceE: Option<string>,
    crystallizationGap: Option<real>,
    dmkProjShare: Option<real>,
    admkProjShare: Option<real>
  )

  /** A record of the 2026 forecast file before the load-time transform: it has no
      scenario B and no actual result, and `inc_layer`/`constituency_rho` may be missing. */
  datatype RawRecord = RawRecord(
    name: string,
    scenarioA: string, marginA: real, allianceA: string,
    scenarioC: string, marginC: real, allianceC: string,
    incLayer: Option<IncLayer>,
    constituencyRho: Option<real>,
    confidenceA: Option<string>,
    dmkBlocA: Option<real>,
    admkBlocA: Option<real>,
    tvkA: Option<real>,
    scenarioD: Option<string>, marginD: NumField, allianceD: Option<string>,
    scenarioE: Option<string>, marginE: NumField, allianceE: Option<string>,
    crystallizationGap: Option<real>,
    dmkProjShare: Option<real>,
    admkProjShare: Option<real>
  )

  const TotalConstituencies: nat := 234
  const MajorityMark: nat := 118

  /** Every party the filter bar offers, in display order. */
  const AllParties: seq<string> := [
    "DMK", "ADMK", "INC", "BJP", "TVK", "PMK", "DMDK", "VCK",
    "CPM", "CPI", "NTK", "MDMK", "MNMK", "IUML", "PT", "AIFB"
  ]

  /** Only the 2026 forecast uses the richer record shape and scenarios D and E. */
  predicate IsV10Year(year: int) {
    year == 2026
  }

  /** The per-year record lists; a year without data reads as the empty list. */
  type Dataset = map<int, seq<Record>>

  function DataFor(ds: Dataset, year: int): (rs: seq<Record>)
    ensures year in ds ==> rs == ds[year]
    ensures year !in ds ==> rs == []
  {
    if year in ds then ds[year] else []
  }

  /** The comparison data: 2021 when looking at 2026, otherwise the selected year itself. */
  function BaselineData(ds: Dataset, year: int): (rs: seq<Record>)
    ensures year == 2026 ==> rs == DataFor(ds, 2021)
    ensures year != 2026 ==> rs == DataFor(ds, year)
  {
    if year == 2026 then DataFor(ds, 2021) else DataFor(ds, year)
  }

  lemma AllPartiesFacts()
    ensures forall i, j :: 0 <= i < j < |AllParties| ==> AllParties[i] != AllParties[j]
    ensures "INC+TVK" !in AllParties
  {
  }
}

=== FILE: resolver.dfy ===
/**
  The scenario resolver: which winner, margin and alliance a record shows under a
  scenario. Every component of the dashboard carries its own verbatim copy of these
  three rules; all of them are modelled by the functions here.

  The rules are fixed-precedence: a D or E field is used when the record has it,
  A, B and C always read their own field, and everything else falls back to the
  actual result, then to scenario C.
 */
module Resolver {
  import opened Optional
  import opened JsString
  import opened Records

  /** `getWinner`. `None` stands for every falsy result (`null`, `undefined`, `""`). */
  function Winner(c: Record, s: Scenario): (w: Option<string>)
    ensures w.Some? ==> w.value != ""
  {
    if s == D && Truthy(c.scenarioD).Some? then Truthy(c.scenarioD)
    else if s == E && Truthy(c.scenarioE).Some? then Truthy(c.scenarioE)
    else if s == A then Present(c.scenarioA)
    else if s == B then Present(c.scenarioB)
    else if s == C then Present(c.scenarioC)
    else OrElse(Truthy(c.actualWinner), Present(c.scenarioC))
  }

  /** `getMargin`: D and E take any defined margin, including a stored `null`. */
  function Margin(c: Record, s: Scenario): (m: Option<real>)
    ensures m.None? ==> (s == D && c.marginD.Null?) || (s == E && c.marginE.Null?)
  {
    if s == D && !c.marginD.Absent? then NumToOption(c.marginD)
    else if s == E && !c.marginE.Absent? then NumToOption(c.marginE)
    else if s == A then Some(c.marginA)
    else if s == B then Some(c.marginB)
    else if s == C then Some(c.marginC)
    else Some(c.actualMargin.GetOr(c.marginC))
  }

  function NumToOption(f: NumField): (m: Option<real>)
    ensures f.Num? <==> m.Some?
    ensures f.Num? ==> m.value == f.v
  {
    if f.Num? then Some(f.v) else None
  }

  /** `getAlliance`: no alliance without a scenario, nor for D or E records lacking that field. */
  function Alliance(c: Record, s: Scenario): (a: Option<string>)
    ensures s == NONE ==> a.None?
    ensures s == D ==> a == Truthy(c.allianceD)
    ensures s == E ==> a == Truthy(c.allianceE)
  {
    if s == D && Truthy(c.allianceD).Some? then Truthy(c.allianceD)
    else if s == E && Truthy(c.allianceE).Some? then Truthy(c.allianceE)
    else if s == A then Present(c.allianceA)
    else if s == B then Present(c.allianceB)
    else if s == C then Present(c.allianceC)
    else None
  }

  /** The winner the comparison tallies use: the actual result, else scenario A. */
  function BaselineWinner(c: Record): (w: Option<string>)
    ensures w.Some? ==> w.value != ""
    ensures Truthy(c.actualWinner).Some? ==> w == Truthy(c.actualWinner)
    ensures Truthy(c.actualWinner).None? ==> w == Present(c.scenarioA)
  {
    OrElse(Truthy(c.actualWinner), Present(c.scenarioA))
  }

  /** The margin `getSwingConstituencies` tests: a D or E margin when defined (a
      stored `null` counts as 0 once `Math.abs` has read it), otherwise A, B, or C. */
  function SwingMargin(c: Record, s: Scenario): (m: real)
    ensures s == A ==> m == c.marginA
    ensures s == B ==> m == c.marginB
    ensures s == C || s == NONE ==> m == c.marginC
  {
    if s == D && !c.marginD.Absent? then (if c.marginD.Num? then c.marginD.v else 0.0)
    else if s == E && !c.marginE.Absent? then (if c.marginE.Num? then c.marginE.v else 0.0)
    else if s == A then c.marginA
    else if s == B then c.marginB
    else c.marginC
  }

  // ---------------------------------------------------------------------------
  // An independent description: each scenario consults an ordered list of
  // record fields and takes the first one that is set.
  // ---------------------------------------------------------------------------

  datatype Source = FromD | FromE | FromA | FromB | FromC | FromActual

  /** The fields a scenario consults, in order. */
  function Precedence(s: Scenario): (p: seq<Source>)
    ensures |p| >= 1
    ensures p[|p| - 1] in {FromA, FromB, FromC}
  {
    match s
    case A => [FromA]
    case B => [FromB]
    case C => [FromC]
    case D => [FromD, FromActual, FromC]
    case E => [FromE, FromActual, FromC]
    case NONE => [FromActual, FromC]
  }

  /** A winner field read with JavaScript truthiness. */
  function WinnerField(c: Record, src: Source): Option<string> {
    match src
    case FromD => Truthy(c.scenarioD)
    case FromE => Truthy(c.scenarioE)
    case FromA => Present(c.scenarioA)
    case FromB => Present(c.scenarioB)
    case FromC => Present(c.scenarioC)
    case FromActual => Truthy(c.actualWinner)
  }

  /** A margin field read the way the resolver reads it: the actual margin with `??`
      (so `null` is skipped), D and E with `!== undefined` (so `null` is taken). */
  function MarginField(c: Record, src: Source): NumField {
    match src
    case FromD => c.marginD
    case FromE => c.marginE
    case FromA => Num(c.marginA)
    case FromB => Num(c.marginB)
    case FromC => Num(c.marginC)
    case FromActual => if c.actualMargin.Some? then Num(c.actualMargin.value) else Absent
  }

  function FirstPresent(c: Record, p: seq<Source>): Option<string> {
    if |p| == 0 then None
    else if WinnerField(c, p[0]).Some? || |p| == 1 then WinnerField(c, p[0])
    else FirstPresent(c, p[1..])
  }

  function FirstDefined(c: Record, p: seq<Source>): NumField {
    if |p| == 0 then Absent
    else if !MarginField(c, p[0]).Absent? || |p| == 1 then MarginField(c, p[0])
    else FirstDefined(c, p[1..])
  }

  /** The winner is the first set field of the scenario's precedence list. */
  lemma WinnerByPrecedence(c: Record, s: Scenario)
    ensures Winner(c, s) == FirstPresent(c, Precedence(s))
  {
    var p := Precedence(s);
    if |p| == 3 {
      assert p[1..][1..] == [FromC];
      assert FirstPresent(c, p[1..][1..]) == WinnerField(c, FromC);
    }
  }

  /** The margin follows the same precedence list as the winner, taking the first
      defined field; only a defined-but-null D or E margin yields no margin. */
  lemma MarginByPrecedence(c: Record, s: Scenario)
    ensures Margin(c, s) == NumToOption(FirstDefined(c, Precedence(s)))
  {
    var p := Precedence(s);
    if |p| == 3 {
      assert p[1..][1..] == [FromC];
      assert FirstDefined(c, p[1..][1..]) == MarginField(c, FromC);
    }
  }

  /** Where the D (or E) fields are missing, as in every 2011-2021 record, the D (or E)
      scenario shows the same winner and margin as no scenario at all. */
  lemma FallThroughToActual(c: Record, s: Scenario)
    requires (s == D && Truthy(c.scenarioD).None? && c.marginD.Absent? && Truthy(c.allianceD).None?)
          || (s == E && Truthy(c.scenarioE).None? && c.marginE.Absent? && Truthy(c.allianceE).None?)
    ensures Winner(c, s) == Winner(c, NONE)
    ensures Margin(c, s) == Margin(c, NONE)
    ensures Alliance(c, s).None?
  {
  }

  /** Every shown winner is one of the record's own winner fields. */
  lemma WinnerFromRecord(c: Record, s: Scenario)
    ensures Winner(c, s).Some? ==>
      Winner(c, s).value in {c.scenarioA, c.scenarioB, c.scenarioC}
      || Some(Winner(c, s).value) in {c.actualWinner, c.scenarioD, c.scenarioE}
  {
  }

  /** On a 2026 record, which has no actual result, the swing-list margin and the map's
      margin agree whenever the shown margin is a number. */
  lemma SwingMarginAgrees(c: Record, s: Scenario)
    requires c.actualMargin.None?
    requires Margin(c, s).Some?
    ensures SwingMargin(c, s) == Margin(c, s).value
  {
  }

  /** ... and where they disagree, a D or E margin stored as `null`, the swing list
      reads 0 while the map shows no margin. */
  lemma SwingMarginOfNull(c: Record, s: Scenario)
    requires Margin(c, s).None?
    ensures SwingMargin(c, s) == 0.0
  {
  }
}

=== FILE: sequtil.dfy ===
/** Sequence helpers shared by the list-manipulating parts of the dashboard. */
module SeqUtil {

  predicate Distinct<T(==)>(s: seq<T>) {
    forall i, j :: 0 <= i < j < |s| ==> s[i] != s[j]
  }

  /** `s.filter(p => p !== x)`: every occurrence of `x` goes, everything else keeps its order. */
  function RemoveAll<T(==)>(s: seq<T>, x: T): (r: seq<T>)
    ensures x !in r
    ensures multiset(r) == multiset(s)[x := 0]
    ensures |r| <= |s|
    ensures x !in s ==> r == s
  {
    if |s| == 0 then []
    else
      assert s == [s[0]] + s[1..];
      if s[0] == x then RemoveAll(s[1..], x) else [s[0]] + RemoveAll(s[1..], x)
  }

  /** `Array.from(new Set(s))`: the first occurrence of each value, in order of first appearance. */
  function Dedup<T(==)>(s: seq<T>): (r: seq<T>)
    ensures Distinct(r)
    ensures forall k :: 0 <= k < |r| ==> r[k] in s
    ensures forall k :: 0 <= k < |s| ==> s[k] in r
    ensures |r| <= |s|
    ensures Distinct(s) ==> r == s
  {
    if |s| == 0 then []
    else
      var d := Dedup(s[..|s| - 1]);
      var last := s[|s| - 1];
      assert s == s[..|s| - 1] + [last];
      if last in d then d else d + [last]
  }

  /** Appending a fresh value keeps a list duplicate-free. */
  lemma DistinctAppend<T>(s: seq<T>, x: T)
    requires Distinct(s) && x !in s
    ensures Distinct(s + [x])
  {
  }

  /** Removing values keeps a list duplicate-free. */
  lemma {:induction false} DistinctRemoveAll<T>(s: seq<T>, x: T)
    requires Distinct(s)
    ensures Distinct(RemoveAll(s, x))
  {
    if |s| > 0 {
      DistinctRemoveAll(s[1..], x);
      if s[0] != x {
        assert s[0] !in s[1..];
        assert s[0] !in multiset(RemoveAll(s[1..], x));
      }
    }
  }

  /** `s.filter(p)`: the elements that satisfy `p`, in their original order. */
  function Filter<T>(s: seq<T>, p: T -> bool): (r: seq<T>)
    ensures |r| <= |s|
    ensures forall k :: 0 <= k < |r| ==> p(r[k])
  {
    if |s| == 0 then []
    else if p(s[0]) then [s[0]] + Filter(s[1..], p) else Filter(s[1..], p)
  }

  /** Filtering only drops elements, and it drops none that satisfy the predicate. */
  lemma {:induction false} FilterContents<T>(s: seq<T>, p: T -> bool)
    ensures multiset(Filter(s, p)) <= multiset(s)
    ensures forall k :: 0 <= k < |s| && p(s[k]) ==> s[k] in multiset(Filter(s, p))
  {
    if |s| > 0 {
      var h, t := s[0], s[1..];
      FilterContents(t, p);
      assert s == [h] + t;
      assert multiset(s) == multiset{h} + multiset(t);
      if p(h) {
        assert Filter(s, p) == [h] + Filter(t, p);
        assert multiset(Filter(s, p)) == multiset{h} + multiset(Filter(t, p));
      } else {
        assert Filter(s, p) == Filter(t, p);
      }
      forall k | 0 <= k < |s| && p(s[k])
        ensures s[k] in multiset(Filter(s, p))
      {
        if k > 0 {
          assert s[k] == t[k - 1];
        }
      }
    }
  }

  /** Filtering keeps every element exactly when every element satisfies the predicate. */
  lemma {:induction false} FilterKeepsAll<T>(s: seq<T>, p: T -> bool)
    ensures |Filter(s, p)| == |s| <==> forall k :: 0 <= k < |s| ==> p(s[k])
  {
    if |s| > 0 {
      var t := s[1..];
      FilterKeepsAll(t, p);
      if forall k :: 0 <= k < |s| ==> p(s[k]) {
        assert forall k :: 0 <= k < |t| ==> p(t[k]) by {
          forall k | 0 <= k < |t| ensures p(t[k]) { assert t[k] == s[k + 1]; }
        }
      } else if p(s[0]) {
        var k :| 0 <= k < |s| && !p(s[k]);
        assert t[k - 1] == s[k];
      }
    }
  }

  /** ... and keeps none exactly when no element does. */
  lemma {:induction false} FilterKeepsNone<T>(s: seq<T>, p: T -> bool)
    ensures |Filter(s, p)| == 0 <==> forall k :: 0 <= k < |s| ==> !p(s[k])
  {
    if |s| > 0 {
      var t := s[1..];
      FilterKeepsNone(t, p);
      if forall k :: 0 <= k < |s| ==> !p(s[k]) {
        assert forall k :: 0 <= k < |t| ==> !p(t[k]) by {
          forall k | 0 <= k < |t| ensures !p(t[k]) { assert t[k] == s[k + 1]; }
        }
      } else if !p(s[0]) {
        var k :| 0 <= k < |s| && p(s[k]);
        assert t[k - 1] == s[k];
      }
    }
  }

  /** The kept and the dropped elements together account for the whole list. */
  lemma {:induction false} FilterSplit<T>(s: seq<T>, p: T -> bool)
    ensures |Filter(s, p)| + |Filter(s, x => !p(x))| == |s|
  {
    if |s| > 0 {
      FilterSplit(s[1..], p);
    }
  }

  /** Removing from a list with a known first element. */
  lemma RemoveAllCons<T>(h: T, r: seq<T>, x: T)
    ensures RemoveAll([h] + r, x) == if h == x then RemoveAll(r, x) else [h] + RemoveAll(r, x)
  {
    assert ([h] + r)[0] == h && ([h] + r)[1..] == r;
  }

  /** Removing from a list with one more element at the end. */
  lemma {:induction false} RemoveAllAppend<T>(s: seq<T>, y: T, x: T)
    ensures RemoveAll(s + [y], x) == RemoveAll(s, x) + (if y == x then [] else [y])
  {
    if |s| == 0 {
      assert s + [y] == [y] + [];
      RemoveAllCons(y, [], x);
    } else {
      var h, r := s[0], s[1..];
      assert s == [h] + r;
      assert s + [y] == [h] + (r + [y]);
      RemoveAllAppend(r, y, x);
      RemoveAllCons(h, r + [y], x);
      RemoveAllCons(h, r, x);
    }
  }

  /** A duplicate-free list holds each value at most once. */
  lemma {:induction false} DistinctCount<T>(s: seq<T>, x: T)
    requires Distinct(s)
    ensures multiset(s)[x] <= 1
  {
    if |s| > 0 {
      assert s == [s[0]] + s[1..];
      assert Distinct(s[1..]) by {
        forall i, j | 0 <= i < j < |s[1..]| ensures s[1..][i] != s[1..][j] {
          assert s[1..][i] == s[i + 1] && s[1..][j] == s[j + 1];
        }
      }
      DistinctCount(s[1..], x);
      if x == s[0] {
        assert x !in s[1..];
      }
    }
  }

  /** Reordering or dropping elements of a duplicate-free list leaves it duplicate-free. */
  lemma SubMultisetKeepsDistinct<T>(a: seq<T>, b: seq<T>)
    requires multiset(b) <= multiset(a) && Distinct(a)
    ensures Distinct(b)
  {
    forall i, j | 0 <= i < j < |b|
      ensures b[i] != b[j]
    {
      DistinctCount(a, b[j]);
      assert b == b[..j] + b[j..];
      assert multiset(b)[b[j]] == multiset(b[..j])[b[j]] + multiset(b[j..])[b[j]];
      assert b[j] in b[j..];
      assert multiset(b[..j])[b[j]] == 0;
      assert b[i] in b[..j];
    }
  }

  /** A property of every element carries over to any list drawn from the same elements. */
  lemma SubMultisetKeeps<T>(a: seq<T>, b: seq<T>, p: T -> bool)
    requires multiset(b) <= multiset(a)
    requires forall k :: 0 <= k < |a| ==> p(a[k])
    ensures forall k :: 0 <= k < |b| ==> p(b[k])
  {
    forall k | 0 <= k < |b|
      ensures p(b[k])
    {
      assert b[k] in multiset(a);
      var j :| 0 <= j < |a| && a[j] == b[k];
    }
  }

  /** Filtering one more element at the end. */
  lemma {:induction false} FilterAppend<T>(s: seq<T>, x: T, p: T -> bool)
    ensures Filter(s + [x], p) == Filter(s, p) + (if p(x) then [x] else [])
    decreases |s|
  {
    if |s| == 0 {
      assert s + [x] == [x];
      assert [x][1..] == [];
    } else {
      assert (s + [x])[1..] == s[1..] + [x];
      FilterAppend(s[1..], x, p);
    }
  }

  /** Filtering keeps every copy of a passing value and no copy of a failing one. */
  lemma {:induction false} FilterMultiplicity<T>(s: seq<T>, p: T -> bool, x: T)
    ensures multiset(Filter(s, p))[x] == if p(x) then multiset(s)[x] else 0
    decreases |s|
  {
    if |s| > 0 {
      FilterMultiplicity(s[1..], p, x);
      assert s == [s[0]] + s[1..];
      assert multiset(s) == multiset([s[0]]) + multiset(s[1..]);
      if p(s[0]) {
        assert multiset(Filter(s, p)) == multiset([s[0]]) + multiset(Filter(s[1..], p));
      }
    }
  }

  /** The positions whose element satisfies the predicate. */
  function Hits<T>(s: seq<T>, p: T -> bool): set<int> {
    set i | 0 <= i < |s| && p(s[i])
  }

  /** Filtering keeps one element per position that satisfies the predicate. */
  lemma {:induction false} FilterCountsHits<T>(s: seq<T>, p: T -> bool)
    ensures |Filter(s, p)| == |Hits(s, p)|
    decreases |s|
  {
    if |s| == 0 {
      assert Hits(s, p) == {};
    } else {
      var n := |s| - 1;
      var init, x := s[..n], s[n];
      assert s == init + [x];
      FilterAppend(init, x, p);
      FilterCountsHits(init, p);
      var last: set<int> := if p(x) then {n} else {};
      assert Hits(s, p) == Hits(init, p) + last by {
        forall i | i in Hits(s, p) ensures i in Hits(init, p) + last {
          if i < n { assert s[i] == init[i]; }
        }
        forall i | i in Hits(init, p) ensures i in Hits(s, p) {
          assert s[i] == init[i];
        }
      }
      assert n !in Hits(init, p);
    }
  }

  /** `a` is `b` with some elements dropped and the rest kept in their order. */
  ghost predicate Subsequence<T>(a: seq<T>, b: seq<T>)
    decreases |b|
  {
    if |a| == 0 then true
    else if |b| == 0 then false
    else (a[0] == b[0] && Subsequence(a[1..], b[1..])) || Subsequence(a, b[1..])
  }

  /** Filtering keeps the surviving elements in their original order. */
  lemma {:induction false} FilterSubsequence<T>(s: seq<T>, p: T -> bool)
    ensures Subsequence(Filter(s, p), s)
    decreases |s|
  {
    if |s| > 0 {
      FilterSubsequence(s[1..], p);
      if p(s[0]) {
        var r := Filter(s, p);
        assert r[0] == s[0] && r[1..] == Filter(s[1..], p);
      }
    }
  }

  /** An in-order selection of elements that all satisfy `p` is no longer than the
      filter, and as long only when it is the filter. */
  lemma {:induction false} SubsequenceWithin<T>(r: seq<T>, s: seq<T>, p: T -> bool)
    requires Subsequence(r, s)
    requires forall k :: 0 <= k < |r| ==> p(r[k])
    ensures |r| <= |Filter(s, p)|
    ensures |r| == |Filter(s, p)| ==> r == Filter(s, p)
    decreases |s|
  {
    if |r| == 0 {
    } else if r[0] == s[0] && Subsequence(r[1..], s[1..]) {
      SubsequenceWithin(r[1..], s[1..], p);
      assert p(r[0]);
      assert r == [s[0]] + r[1..];
    } else {
      SubsequenceWithin(r, s[1..], p);
    }
  }

  /** No two elements share a key. */
  predicate DistinctBy<T, K(==)>(s: seq<T>, key: T -> K) {
    forall i, j :: 0 <= i < j < |s| ==> key(s[i]) != key(s[j])
  }

  function KeyIsNot<T, K(==)>(key: T -> K, x: K): T -> bool {
    (t: T) => key(t) != x
  }

  lemma DistinctByTail<T, K>(s: seq<T>, key: T -> K)
    requires |s| > 0 && DistinctBy(s, key)
    ensures DistinctBy(s[1..], key)
  {
    var rest := s[1..];
    forall i, j | 0 <= i < j < |rest|
      ensures key(rest[i]) != key(rest[j])
    {
      assert rest[i] == s[i + 1] && rest[j] == s[j + 1];
    }
  }

  /** Filtering keeps the keys distinct. */
  lemma {:induction false} FilterKeepsDistinctBy<T, K>(s: seq<T>, key: T -> K, p: T -> bool)
    requires DistinctBy(s, key)
    ensures DistinctBy(Filter(s, p), key)
    decreases |s|
  {
    if |s| > 0 {
      var rest := s[1..];
      DistinctByTail(s, key);
      FilterKeepsDistinctBy(rest, key, p);
      if p(s[0]) {
        var kept := Filter(rest, p);
        FilterContents(rest, p);
        forall k | 0 <= k < |kept|
          ensures key(s[0]) != key(kept[k])
        {
          assert kept[k] in multiset(kept);
          var b :| 0 <= b < |rest| && rest[b] == kept[k];
          assert rest[b] == s[b + 1];
        }
        var all := [s[0]] + kept;
        assert Filter(s, p) == all;
        forall i, j | 0 <= i < j < |all|
          ensures key(all[i]) != key(all[j])
        {
          if i > 0 {
            assert all[i] == kept[i - 1] && all[j] == kept[j - 1];
          } else {
            assert all[j] == kept[j - 1];
          }
        }
      }
    }
  }

  /** With distinct keys, filtering out one key drops at most one element. */
  lemma {:induction false} DropsAtMostOne<T, K>(s: seq<T>, key: T -> K, x: K)
    requires DistinctBy(s, key)
    ensures |Filter(s, KeyIsNot(key, x))| >= |s| - 1
    decreases |s|
  {
    if |s| > 0 {
      var rest := s[1..];
      DistinctByTail(s, key);
      if KeyIsNot(key, x)(s[0]) {
        DropsAtMostOne(rest, key, x);
      } else {
        forall k | 0 <= k < |rest|
          ensures KeyIsNot(key, x)(rest[k])
        {
          assert rest[k] == s[k + 1];
        }
        FilterKeepsAll(rest, KeyIsNot(key, x));
      }
    }
  }

  /** A value is kept exactly when it occurs and satisfies the predicate. */
  lemma FilterMember<T>(s: seq<T>, p: T -> bool, x: T)
    ensures x in Filter(s, p) <==> x in s && p(x)
  {
    var r := Filter(s, p);
    FilterContents(s, p);
    if x in r {
      assert x in multiset(s);
      var k :| 0 <= k < |r| && r[k] == x;
    }
    if x in s && p(x) {
      var k :| 0 <= k < |s| && s[k] == x;
      assert x in multiset(r);
    }
  }
}

=== FILE: sorting.dfy ===
/**
  `Array.prototype.sort` with a comparator, as an insertion sort over a strict
  "comes before" relation; it is stable, as the language has required since 2019. `less(a, b)` holds when the comparator puts `a` strictly
  before `b` (returns a negative number for `(a, b)`).
 */
module Sorting {
  import opened SeqUtil

  ghost predicate StrictOrder<T(!new)>(less: (T, T) -> bool) {
    && (forall a :: !less(a, a))
    && (forall a, b, c :: less(a, b) && less(b, c) ==> less(a, c))
  }

  /** No element is strictly before an element that precedes it. */
  predicate SortedBy<T>(s: seq<T>, less: (T, T) -> bool) {
    forall i, j :: 0 <= i < j < |s| ==> !less(s[j], s[i])
  }

  /** Places `x` in front of the first element it strictly precedes, so after every element it ties with. */
  function Insert<T(!new)>(x: T, s: seq<T>, less: (T, T) -> bool): (r: seq<T>)
    requires StrictOrder(less) && SortedBy(s, less)
    ensures multiset(r) == multiset(s) + multiset{x}
    ensures SortedBy(r, less)
  {
    if |s| == 0 then [x]
    else if less(x, s[0]) then
      PrependSorted(x, s, less);
      [x] + s
    else
      SortedTail(s, less);
      var t := Insert(x, s[1..], less);
      forall k | 0 <= k < |t|
        ensures !less(t[k], s[0])
      {
        assert t[k] in multiset(s[1..]) + multiset{x};
        if t[k] != x {
          assert t[k] in s[1..];
          var j :| 0 <= j < |s[1..]| && s[1..][j] == t[k];
          assert t[k] == s[j + 1];
        }
      }
      ConsSorted(s[0], t, less);
      assert multiset([s[0]] + t) == multiset(s) + multiset{x} by {
        assert s == [s[0]] + s[1..];
      }
      [s[0]] + t
  }

  /** The tail of a sorted list is sorted. */
  lemma SortedTail<T>(s: seq<T>, less: (T, T) -> bool)
    requires SortedBy(s, less) && |s| > 0
    ensures SortedBy(s[1..], less)
  {
    forall i, j | 0 <= i < j < |s[1..]|
      ensures !less(s[1..][j], s[1..][i])
    {
      assert s[1..][j] == s[j + 1] && s[1..][i] == s[i + 1];
    }
  }

  /** An element strictly before the head of a sorted list is before all of it. */
  lemma PrependSorted<T(!new)>(x: T, s: seq<T>, less: (T, T) -> bool)
    requires StrictOrder(less) && SortedBy(s, less)
    requires |s| > 0 && less(x, s[0])
    ensures SortedBy([x] + s, less)
  {
    forall k | 0 <= k < |s|
      ensures !less(s[k], x)
    {
      // less(s[k], x) and less(x, s[0]) would put s[k] strictly before the head.
      assert !less(s[k], s[0]);
    }
    ConsSorted(x, s, less);
  }

  lemma ConsSorted<T>(x: T, s: seq<T>, less: (T, T) -> bool)
    requires SortedBy(s, less)
    requires forall k :: 0 <= k < |s| ==> !less(s[k], x)
    ensures SortedBy([x] + s, less)
  {
    var r := [x] + s;
    forall i, j | 0 <= i < j < |r|
      ensures !less(r[j], r[i])
    {
      assert r[j] == s[j - 1];
      if i > 0 {
        assert r[i] == s[i - 1];
      }
    }
  }

  /** Sorts by inserting each element, last to first, into the sorted prefix: the
      relative order of tied elements is kept. */
  function Sort<T(!new)>(s: seq<T>, less: (T, T) -> bool): (r: seq<T>)
    requires StrictOrder(less)
    ensures multiset(r) == multiset(s)
    ensures SortedBy(r, less)
    decreases |s|
  {
    if |s| == 0 then []
    else
      assert s == s[..|s| - 1] + [s[|s| - 1]];
      Insert(s[|s| - 1], Sort(s[..|s| - 1], less), less)
  }

  /** An element that nothing in the list comes after is inserted at the end. */
  lemma {:induction false} InsertLast<T(!new)>(x: T, s: seq<T>, less: (T, T) -> bool)
    requires StrictOrder(less) && SortedBy(s, less)
    requires forall k :: 0 <= k < |s| ==> !less(x, s[k])
    ensures Insert(x, s, less) == s + [x]
  {
    if |s| > 0 {
      SortedTail(s, less);
      assert !less(x, s[0]);
      InsertLast(x, s[1..], less);
      assert s + [x] == [s[0]] + (s[1..] + [x]);
    }
  }

  /** Dropping the last element of a sorted list leaves it sorted, with nothing in it after that element. */
  lemma SortedSplit<T>(p: seq<T>, last: T, less: (T, T) -> bool)
    requires SortedBy(p + [last], less)
    ensures SortedBy(p, less)
    ensures forall k :: 0 <= k < |p| ==> !less(last, p[k])
  {
    var s := p + [last];
    forall i, j | 0 <= i < j < |p|
      ensures !less(p[j], p[i])
    {
      assert p[j] == s[j] && p[i] == s[i];
    }
    forall k | 0 <= k < |p|
      ensures !less(last, p[k])
    {
      assert last == s[|p|] && p[k] == s[k];
    }
  }

  /** Sorting a list that is already in order changes nothing: the sort is stable. */
  lemma {:induction false} SortSorted<T(!new)>(s: seq<T>, less: (T, T) -> bool)
    requires StrictOrder(less) && SortedBy(s, less)
    ensures Sort(s, less) == s
    decreases |s|
  {
    if |s| > 0 {
      var p, last := s[..|s| - 1], s[|s| - 1];
      assert s == p + [last];
      SortedSplit(p, last, less);
      SortSorted(p, less);
      InsertLast(last, p, less);
    }
  }

  /** A strict order in which "neither comes first" is transitive (a strict weak
      order): whenever `a` comes before `c`, any `b` comes after `a` or before `c`.
      A comparator that subtracts one numeric key from another has this shape. */
  ghost predicate StrictWeakOrder<T(!new)>(less: (T, T) -> bool) {
    && StrictOrder(less)
    && (forall a, b, c :: less(a, c) ==> less(a, b) || less(b, c))
  }

  /** The elements tied with `x`: neither comes before the other. */
  function TiedWith<T>(less: (T, T) -> bool, x: T): T -> bool {
    (y: T) => !less(x, y) && !less(y, x)
  }

  /** Inserting `y` into a sorted list puts it after every element it ties with: among
      the elements tied with any `x`, `y` comes last. */
  lemma {:induction false} InsertKeepsTies<T(!new)>(y: T, t: seq<T>, less: (T, T) -> bool, x: T)
    requires StrictWeakOrder(less) && SortedBy(t, less)
    ensures Filter(Insert(y, t, less), TiedWith(less, x))
         == Filter(t, TiedWith(less, x)) + (if TiedWith(less, x)(y) then [y] else [])
    decreases |t|
  {
    var tied := TiedWith(less, x);
    var r := Insert(y, t, less);
    if |t| == 0 {
      assert r == [y] && [y][1..] == [];
    } else if less(y, t[0]) {
      assert r == [y] + t;
      assert ([y] + t)[1..] == t;
      if tied(y) {
        forall k | 0 <= k < |t|
          ensures !tied(t[k])
        {
          // y comes before the head, hence before every element; an element tied with x
          // as well would put y before x or x before it.
          assert !less(t[k], t[0]);
          assert less(y, t[k]);
        }
        FilterKeepsNone(t, tied);
      }
    } else {
      SortedTail(t, less);
      InsertKeepsTies(y, t[1..], less, x);
      assert r == [t[0]] + Insert(y, t[1..], less);
      assert ([t[0]] + Insert(y, t[1..], less))[1..] == Insert(y, t[1..], less);
    }
  }

  /** The sort is stable: under a strict weak order, the elements tied with any `x`
      come out in the order they went in. */
  lemma {:induction false} SortStable<T(!new)>(s: seq<T>, less: (T, T) -> bool, x: T)
    requires StrictWeakOrder(less)
    ensures Filter(Sort(s, less), TiedWith(less, x)) == Filter(s, TiedWith(less, x))
    decreases |s|
  {
    if |s| > 0 {
      var p, last := s[..|s| - 1], s[|s| - 1];
      assert s == p + [last];
      SortStable(p, less, x);
      InsertKeepsTies(last, Sort(p, less), less, x);
      FilterAppend(p, last, TiedWith(less, x));
    }
  }

  /** A permutation keeps length and membership. */
  lemma PermutationFacts<T>(a: seq<T>, b: seq<T>)
    requires multiset(a) == multiset(b)
    ensures |a| == |b|
    ensures forall x :: x in a <==> x in b
  {
    assert |a| == |multiset(a)| == |multiset(b)| == |b|;
    forall x
      ensures x in a <==> x in b
    {
      assert x in a <==> x in multiset(a);
      assert x in b <==> x in multiset(b);
    }
  }
}

=== FILE: stringorder.dfy ===
/**
  The default order of `Array.prototype.sort` on strings: code unit by code unit, a
  proper prefix first. Characters are compared as Dafny `char`s, which agrees with
  UTF-16 code units on the Basic Multilingual Plane.
 */
module StringOrder {
  import opened SeqUtil
  import opened Sorting

  predicate Less(a: string, b: string)
    decreases |a|
  {
    if |a| == 0 then |b| > 0
    else if |b| == 0 then false
    else if a[0] != b[0] then a[0] < b[0]
    else Less(a[1..], b[1..])
  }

  function LessFn(): (string, string) -> bool {
    (a: string, b: string) => Less(a, b)
  }

  lemma {:induction false} LessIrreflexive(a: string)
    ensures !Less(a, a)
    decreases |a|
  {
    if |a| > 0 {
      LessIrreflexive(a[1..]);
    }
  }

  lemma {:induction false} LessTransitive(a: string, b: string, c: string)
    requires Less(a, b) && Less(b, c)
    ensures Less(a, c)
    decreases |a|
  {
    if |a| > 0 && |c| > 0 && a[0] == b[0] == c[0] {
      LessTransitive(a[1..], b[1..], c[1..]);
    }
  }

  /** Two different strings are always ordered one way or the other. */
  lemma {:induction false} LessTotal(a: string, b: string)
    requires a != b
    ensures Less(a, b) || Less(b, a)
    decreases |a|
  {
    if |a| > 0 && |b| > 0 && a[0] == b[0] {
      assert a == [a[0]] + a[1..] && b == [b[0]] + b[1..];
      LessTotal(a[1..], b[1..]);
    }
  }

  lemma LessOrder()
    ensures StrictOrder(LessFn())
  {
    forall a: string
      ensures !LessFn()(a, a)
    {
      LessIrreflexive(a);
    }
    forall a: string, b: string, c: string | LessFn()(a, b) && LessFn()(b, c)
      ensures LessFn()(a, c)
    {
      LessTransitive(a, b, c);
    }
  }

  /** `names.sort()`. */
  function SortStrings(s: seq<string>): (r: seq<string>)
    ensures multiset(r) == multiset(s)
    ensures |r| == |s| && forall x :: x in r <==> x in s
    ensures SortedBy(r, LessFn())
  {
    LessOrder();
    var r := Sort(s, LessFn());
    PermutationFacts(s, r);
    r
  }

  /** Sorted without duplicates means strictly increasing. */
  lemma SortedDistinctIncreasing(r: seq<string>)
    requires SortedBy(r, LessFn()) && Distinct(r)
    ensures forall i, j :: 0 <= i < j < |r| ==> Less(r[i], r[j])
  {
    forall i, j | 0 <= i < j < |r|
      ensures Less(r[i], r[j])
    {
      LessTotal(r[i], r[j]);
      assert !LessFn()(r[j], r[i]);
    }
  }

  /** A permutation of a duplicate-free list is duplicate-free. */
  lemma PermutationKeepsDistinct(a: seq<string>, b: seq<string>)
    requires multiset(a) == multiset(b) && Distinct(a)
    ensures Distinct(b)
  {
    SubMultisetKeepsDistinct(a, b);
  }

  /** Sorting a duplicate-free list yields a strictly increasing list of the same strings. */
  lemma SortDistinct(s: seq<string>)
    requires Distinct(s)
    ensures var r := SortStrings(s);
            Distinct(r) && forall i, j :: 0 <= i < j < |r| ==> Less(r[i], r[j])
  {
    var r := SortStrings(s);
    PermutationKeepsDistinct(s, r);
    SortedDistinctIncreasing(r);
  }
}

=== FILE: tally.dfy ===
/**
  Seat tallies: a JavaScript object from party to seat count, built by visiting the
  records in order and bumping the winner's entry. The object's key order is the
  order in which parties first won a seat, so a tally is a list of entries.
 */
module Tally {
  import opened Optional
  import opened SeqUtil
  import opened JsString
  import opened Records
  import Resolver

  datatype Entry = Entry(party: string, seats: nat)

  function Keys(t: seq<Entry>): (ks: seq<string>)
    ensures |ks| == |t|
    ensures forall i :: 0 <= i < |t| ==> ks[i] == t[i].party
  {
    seq(|t|, i requires 0 <= i < |t| => t[i].party)
  }

  /** `tally[p] || 0`. */
  function Seats(t: seq<Entry>, p: string): nat {
    if |t| == 0 then 0
    else if t[0].party == p then t[0].seats
    else Seats(t[1..], p)
  }

  /** The sum of all counts. */
  function Total(t: seq<Entry>): nat {
    if |t| == 0 then 0 else t[0].seats + Total(t[1..])
  }

  /** Every key occurs once and every count is at least one. */
  predicate WellFormed(t: seq<Entry>) {
    Distinct(Keys(t)) && forall i :: 0 <= i < |t| ==> t[i].seats >= 1
  }

  lemma SeatsOfMissing(t: seq<Entry>, p: string)
    requires p !in Keys(t)
    ensures Seats(t, p) == 0
  {
    if |t| > 0 {
      assert Keys(t[1..]) == Keys(t)[1..];
      SeatsOfMissing(t[1..], p);
    }
  }

  /** Only a key has seats. */
  lemma {:induction false} SeatsPositiveIsKey(t: seq<Entry>, p: string)
    requires Seats(t, p) > 0
    ensures p in Keys(t)
  {
    assert Keys(t) == [t[0].party] + Keys(t[1..]);
    if t[0].party != p {
      SeatsPositiveIsKey(t[1..], p);
    }
  }

  /** `tally[p] = (tally[p] || 0) + 1`. */
  function Bump(t: seq<Entry>, p: string): seq<Entry> {
    if |t| == 0 then [Entry(p, 1)]
    else if t[0].party == p then [t[0].(seats := t[0].seats + 1)] + t[1..]
    else [t[0]] + Bump(t[1..], p)
  }

  /** The keys of a tally with a known first entry. */
  lemma KeysCons(e: Entry, r: seq<Entry>)
    ensures Keys([e] + r) == [e.party] + Keys(r)
  {
    var t := [e] + r;
    var a, b := Keys(t), [e.party] + Keys(r);
    forall i | 0 <= i < |a|
      ensures a[i] == b[i]
    {
      if i > 0 {
        assert t[i] == r[i - 1];
      }
    }
    assert a == b;
  }

  /** Bumping keeps the key order and appends a party seen for the first time. */
  lemma {:induction false} BumpKeys(t: seq<Entry>, p: string)
    ensures Keys(Bump(t, p)) == if p in Keys(t) then Keys(t) else Keys(t) + [p]
  {
    if |t| == 0 {
      assert Keys([Entry(p, 1)]) == [p];
    } else {
      var h, r := t[0], t[1..];
      assert t == [h] + r;
      assert Keys(t) == [h.party] + Keys(r) by {
        KeysCons(h, r);
      }
      if h.party == p {
        assert Bump(t, p) == [h.(seats := h.seats + 1)] + r;
        assert Keys(Bump(t, p)) == [p] + Keys(r) by {
          KeysCons(h.(seats := h.seats + 1), r);
        }
      } else {
        assert Bump(t, p) == [h] + Bump(r, p);
        assert Keys(Bump(r, p)) == if p in Keys(r) then Keys(r) else Keys(r) + [p] by {
          BumpKeys(r, p);
        }
        assert Keys(Bump(t, p)) == [h.party] + Keys(Bump(r, p)) by {
          KeysCons(h, Bump(r, p));
        }
        assert p in Keys(t) <==> p in Keys(r);
        if p !in Keys(r) {
          assert ([h.party] + Keys(r)) + [p] == [h.party] + (Keys(r) + [p]);
        }
      }
    }
  }

  /** Bumping adds one seat to the party and none to any other. */
  lemma {:induction false} BumpSeats(t: seq<Entry>, p: string, q: string)
    ensures Seats(Bump(t, p), q) == Seats(t, q) + (if q == p then 1 else 0)
  {
    if |t| > 0 && t[0].party != p {
      BumpSeats(t[1..], p, q);
      assert Bump(t, p)[1..] == Bump(t[1..], p);
    }
  }

  lemma {:induction false} BumpTotal(t: seq<Entry>, p: string)
    ensures Total(Bump(t, p)) == Total(t) + 1
  {
    if |t| > 0 && t[0].party != p {
      BumpTotal(t[1..], p);
      assert Bump(t, p)[1..] == Bump(t[1..], p);
    }
  }

  lemma {:induction false} BumpWellFormed(t: seq<Entry>, p: string)
    requires WellFormed(t)
    ensures WellFormed(Bump(t, p))
  {
    BumpKeys(t, p);
    var r := Bump(t, p);
    if |t| > 0 && t[0].party != p {
      assert Keys(t[1..]) == Keys(t)[1..];
      BumpWellFormed(t[1..], p);
      assert r[1..] == Bump(t[1..], p);
    }
  }

  /** Visits the winners in order; a falsy winner opens no bucket. */
  function TallyOf(ws: seq<Option<string>>): (t: seq<Entry>)
    ensures WellFormed(t)
    ensures Total(t) == CountPresent(ws)
  {
    if |ws| == 0 then []
    else
      var t := TallyOf(ws[..|ws| - 1]);
      var w := ws[|ws| - 1];
      if w.Some? then
        BumpTotal(t, w.value);
        BumpWellFormed(t, w.value);
        Bump(t, w.value)
      else t
  }

  /** The number of truthy winners. */
  function CountPresent(ws: seq<Option<string>>): nat {
    if |ws| == 0 then 0
    else CountPresent(ws[..|ws| - 1]) + (if ws[|ws| - 1].Some? then 1 else 0)
  }

  /** A party's count is the number of records it won. */
  lemma {:induction false} SeatsCount(ws: seq<Option<string>>, p: string)
    ensures Seats(TallyOf(ws), p) == multiset(ws)[Some(p)]
  {
    if |ws| > 0 {
      var init := ws[..|ws| - 1];
      assert ws == init + [ws[|ws| - 1]];
      SeatsCount(init, p);
      if ws[|ws| - 1].Some? {
        BumpSeats(TallyOf(init), ws[|ws| - 1].value, p);
      }
    }
  }

  /** The keys are exactly the parties that won somewhere. */
  lemma {:induction false} KeysAreWinners(ws: seq<Option<string>>, p: string)
    ensures p in Keys(TallyOf(ws)) <==> Some(p) in ws
  {
    if |ws| > 0 {
      var init := ws[..|ws| - 1];
      assert ws == init + [ws[|ws| - 1]];
      KeysAreWinners(init, p);
      if ws[|ws| - 1].Some? {
        BumpKeys(TallyOf(init), ws[|ws| - 1].value);
      }
    }
  }

  /** The winners of a record list under a scenario. */
  function Winners(rs: seq<Record>, s: Scenario): (ws: seq<Option<string>>)
    ensures |ws| == |rs|
    ensures forall i :: 0 <= i < |rs| ==> ws[i] == Resolver.Winner(rs[i], s)
    ensures forall i :: 0 <= i < |rs| ==> ws[i] != Some("")
  {
    seq(|rs|, i requires 0 <= i < |rs| => Resolver.Winner(rs[i], s))
  }

  function BaselineWinners(rs: seq<Record>): (ws: seq<Option<string>>)
    ensures |ws| == |rs|
    ensures forall i :: 0 <= i < |rs| ==> ws[i] == Resolver.BaselineWinner(rs[i])
    ensures forall i :: 0 <= i < |rs| ==> ws[i] != Some("")
    ensures forall i :: 0 <= i < |rs| && Truthy(rs[i].actualWinner).Some? ==> ws[i] == rs[i].actualWinner
    ensures forall i :: 0 <= i < |rs| && Truthy(rs[i].actualWinner).None? ==> ws[i] == Present(rs[i].scenarioA)
  {
    seq(|rs|, i requires 0 <= i < |rs| => Resolver.BaselineWinner(rs[i]))
  }

  /** `computeSeatTally`: the seat tally of a record list under a scenario. */
  function SeatTally(rs: seq<Record>, s: Scenario): (t: seq<Entry>)
    ensures WellFormed(t)
    ensures Total(t) <= |rs|
    ensures "" !in Keys(t)
  {
    var ws := Winners(rs, s);
    CountPresentBound(ws);
    KeysAreWinners(ws, "");
    TallyOf(ws)
  }

  lemma {:induction false} CountPresentBound(ws: seq<Option<string>>)
    ensures CountPresent(ws) <= |ws|
  {
    if |ws| > 0 {
      CountPresentBound(ws[..|ws| - 1]);
    }
  }

  /** The tally accounts for exactly the records that have a winner. */
  lemma SeatTallyTotal(rs: seq<Record>, s: Scenario)
    ensures Total(SeatTally(rs, s)) == CountPresent(Winners(rs, s))
  {
  }

  // ---------------------------------------------------------------------------
  // Sums over several parties.
  // ---------------------------------------------------------------------------

  function SumSeats(t: seq<Entry>, ps: seq<string>): nat {
    if |ps| == 0 then 0 else Seats(t, ps[0]) + SumSeats(t, ps[1..])
  }

  lemma {:induction false} SumSeatsSplit(t: seq<Entry>, ps: seq<string>)
    requires |t| > 0 && Distinct(Keys(t)) && Distinct(ps)
    ensures SumSeats(t, ps) == (if t[0].party in ps then t[0].seats else 0) + SumSeats(t[1..], ps)
  {
    if |ps| > 0 {
      SumSeatsSplit(t, ps[1..]);
      assert Keys(t) == [t[0].party] + Keys(t[1..]);
      if ps[0] == t[0].party {
        SeatsOfMissing(t[1..], ps[0]);
        assert ps[0] !in ps[1..];
      }
      assert t[0].party in ps <==> t[0].party == ps[0] || t[0].party in ps[1..];
    }
  }

  /** The seats of several distinct parties never add up to more than the whole tally. */
  lemma {:induction false} SumSeatsBound(t: seq<Entry>, ps: seq<string>)
    requires Distinct(Keys(t)) && Distinct(ps)
    ensures SumSeats(t, ps) <= Total(t)
  {
    if |t| == 0 {
      SumSeatsOfEmpty(t, ps);
    } else {
      SumSeatsSplit(t, ps);
      assert Keys(t[1..]) == Keys(t)[1..];
      SumSeatsBound(t[1..], ps);
    }
  }

  lemma {:induction false} SumSeatsOfEmpty(t: seq<Entry>, ps: seq<string>)
    requires |t| == 0
    ensures SumSeats(t, ps) == 0
  {
    if |ps| > 0 {
      SumSeatsOfEmpty(t, ps[1..]);
    }
  }

  lemma SumSeatsCons(t: seq<Entry>, p: string, ps: seq<string>)
    ensures SumSeats(t, [p] + ps) == Seats(t, p) + SumSeats(t, ps)
  {
    assert ([p] + ps)[1..] == ps;
  }

  lemma {:induction false} SumSeatsAppend(t: seq<Entry>, a: seq<string>, b: seq<string>)
    ensures SumSeats(t, a + b) == SumSeats(t, a) + SumSeats(t, b)
  {
    if |a| > 0 {
      assert (a + b)[1..] == a[1..] + b;
      SumSeatsAppend(t, a[1..], b);
    } else {
      assert a + b == b;
    }
  }

  /** Parties covering every key of the tally account for all of its seats. */
  lemma {:induction false} SumSeatsCovers(t: seq<Entry>, ps: seq<string>)
    requires Distinct(Keys(t)) && Distinct(ps)
    requires forall i :: 0 <= i < |t| ==> t[i].party in ps
    ensures SumSeats(t, ps) == Total(t)
  {
    if |t| == 0 {
      SumSeatsOfEmpty(t, ps);
    } else {
      SumSeatsSplit(t, ps);
      assert Keys(t[1..]) == Keys(t)[1..];
      assert t[0].party in ps;
      assert forall i :: 0 <= i < |t[1..]| ==> t[1..][i] == t[i + 1];
      SumSeatsCovers(t[1..], ps);
    }
  }

  // ---------------------------------------------------------------------------
  // `computeSwing` and the key union the comparison chart uses.
  // ---------------------------------------------------------------------------

  datatype Change = Change(party: string, delta: int)

  /** `new Set([...Object.keys(baseline), ...Object.keys(projected)])`. */
  function UnionKeys(baseline: seq<Entry>, projected: seq<Entry>): (ks: seq<string>)
    ensures Distinct(ks)
    ensures forall p :: p in ks <==> p in Keys(baseline) || p in Keys(projected)
  {
    var all := Keys(baseline) + Keys(projected);
    assert forall p :: p in all <==> p in Keys(baseline) || p in Keys(projected);
    Dedup(all)
  }

  /** `computeSwing`: for every party of either tally, projected minus baseline seats. */
  function Swing(baseline: seq<Entry>, projected: seq<Entry>): (r: seq<Change>)
    ensures |r| == |UnionKeys(baseline, projected)|
    ensures forall i :: 0 <= i < |r| ==>
      r[i].party == UnionKeys(baseline, projected)[i]
      && r[i].delta == Seats(projected, r[i].party) - Seats(baseline, r[i].party)
  {
    var ks := UnionKeys(baseline, projected);
    seq(|ks|, i requires 0 <= i < |ks| => Change(ks[i], Seats(projected, ks[i]) - Seats(baseline, ks[i])))
  }

  /** Each party of either tally has exactly one swing entry, and no other party has one. */
  lemma SwingCoversUnion(baseline: seq<Entry>, projected: seq<Entry>, p: string)
    ensures var r := Swing(baseline, projected);
            (p in Keys(baseline) || p in Keys(projected)) <==> exists i :: 0 <= i < |r| && r[i].party == p
  {
    var r := Swing(baseline, projected);
    var ks := UnionKeys(baseline, projected);
    if p in ks {
      var i :| 0 <= i < |ks| && ks[i] == p;
      assert r[i].party == p;
    }
  }
}

=== FILE: timeline.dfy ===
/**
  The party filter bar: one chip per party that wins a seat under the active
  scenario, most seats first; clicking a chip adds the party to the map's filter or
  takes it out again.
 */
module Timeline {
  import opened Optional
  import opened SeqUtil
  import opened Sorting
  import opened Records
  import opened Tally
  import MapView
  import Resolver

  /** `partySeats`: the same tally as the rest of the dashboard. */
  function PartySeats(rs: seq<Record>, s: Scenario): seq<Entry> {
    SeatTally(rs, s)
  }

  /** A chip shows the number of records the party wins. */
  lemma PartySeatsCount(rs: seq<Record>, s: Scenario, p: string)
    ensures Seats(PartySeats(rs, s), p) == multiset(Winners(rs, s))[Some(p)]
  {
    SeatsCount(Winners(rs, s), p);
  }

  function WonSeats(t: seq<Entry>): string -> bool {
    (p: string) => Seats(t, p) > 0
  }

  function MoreSeats(t: seq<Entry>): (string, string) -> bool {
    (a: string, b: string) => Seats(t, a) > Seats(t, b)
  }

  /** The parties of a list that won a seat, most seats first. */
  function SortedAmong(parties: seq<string>, t: seq<Entry>): (r: seq<string>)
    requires Distinct(parties)
    ensures forall i, j :: 0 <= i < j < |r| ==> Seats(t, r[i]) >= Seats(t, r[j])
    ensures forall p :: p in r <==> p in parties && Seats(t, p) > 0
    ensures Distinct(r)
  {
    var won := Filter(parties, WonSeats(t));
    FilterContents(parties, WonSeats(t));
    var r := Sort(won, MoreSeats(t));
    SubMultisetKeepsDistinct(parties, won);
    SubMultisetKeepsDistinct(won, r);
    forall p
      ensures p in r <==> p in parties && Seats(t, p) > 0
    {
      FilterMember(parties, WonSeats(t), p);
      assert p in r <==> p in multiset(won);
    }
    r
  }

  /** Parties with the same seat count keep the order of the list. */
  lemma SortedAmongStable(parties: seq<string>, t: seq<Entry>, x: string)
    requires Distinct(parties)
    ensures Filter(SortedAmong(parties, t), TiedWith(MoreSeats(t), x))
         == Filter(Filter(parties, WonSeats(t)), TiedWith(MoreSeats(t), x))
  {
    SortStable(Filter(parties, WonSeats(t)), MoreSeats(t), x);
  }

  /** `sortedParties`: the parties of the filter bar that won a seat, most seats first. */
  function SortedParties(t: seq<Entry>): (r: seq<string>)
    ensures forall i, j :: 0 <= i < j < |r| ==> Seats(t, r[i]) >= Seats(t, r[j])
    ensures forall p :: p in r <==> p in AllParties && Seats(t, p) > 0
    ensures Distinct(r)
  {
    AllPartiesFacts();
    SortedAmong(AllParties, t)
  }

  /** The joint INC+TVK ticket is a winner but never gets a chip. */
  lemma NoJointTicketChip(t: seq<Entry>)
    ensures "INC+TVK" !in SortedParties(t)
  {
    AllPartiesFacts();
  }

  /** `toggleParty`: a filtered party is taken out, any other is appended. */
  function ToggleFilter(filter: seq<string>, party: string): (r: seq<string>)
    ensures party in filter ==> party !in r && multiset(r) == multiset(filter)[party := 0]
    ensures party !in filter ==> r == filter + [party]
  {
    if party in filter then RemoveAll(filter, party) else filter + [party]
  }

  /** Toggling flips the party's membership and no other party's. */
  lemma ToggleFlips(filter: seq<string>, party: string, q: string)
    ensures q in ToggleFilter(filter, party) <==> if q == party then party !in filter else q in filter
  {
    var r := ToggleFilter(filter, party);
    if party in filter {
      assert q in r <==> q in multiset(r);
      assert q in filter <==> q in multiset(filter);
    }
  }

  /** Toggling the same party twice restores the filter as a set, and exactly when the
      party was not filtered before. */
  lemma ToggleTwice(filter: seq<string>, party: string, q: string)
    ensures q in ToggleFilter(ToggleFilter(filter, party), party) <==> q in filter
    ensures party !in filter ==> ToggleFilter(ToggleFilter(filter, party), party) == filter
  {
    ToggleFlips(filter, party, q);
    ToggleFlips(ToggleFilter(filter, party), party, q);
    ToggleFlips(filter, party, party);
    if party !in filter {
      RemoveAllAppend(filter, party, party);
    }
  }

  /** `clearFilter`. */
  function ClearFilter(): (r: seq<string>)
    ensures |r| == 0
  {
    []
  }

  /** A chip is lit when nothing is filtered or its party is. */
  predicate ChipActive(filter: seq<string>, party: string) {
    |filter| == 0 || party in filter
  }

  /** After clearing, every chip is lit. */
  lemma ClearLightsAll(party: string)
    ensures ChipActive(ClearFilter(), party)
  {
  }

  /** Without a search, the map dims a record won by a party exactly when that party's
      chip is unlit. */
  lemma ChipMatchesMap(fs: MapView.FillSettings, c: Record, name: string, p: string)
    requires fs.searchQuery == ""
    requires Resolver.Winner(c, fs.scenario) == Some(p)
    ensures MapView.Dimmed(fs, c, name) <==> !ChipActive(fs.partyFilter, p)
  {
  }
}

=== FILE: transform.dfy ===
/**
  The load-time rewrite of the 2026 forecast file: the field mapping onto the shared
  record shape, the scenario-D merge (INC with TVK) and the scenario-E reframe
  (INC-won seats move from the DMK alliance to the ADMK alliance).
 */
module Transform {
  import opened Optional
  import opened Records

  /** The field mapping: scenario B is filled from scenario C, there is no actual
      result, and a missing `inc_layer` or `constituency_rho` becomes zero. */
  function FromRaw(r: RawRecord): (c: Record)
    ensures c.name == r.name
    ensures c.actualWinner.None? && c.actualMargin.None?
    ensures c.scenarioA == r.scenarioA && c.marginA == r.marginA && c.allianceA == r.allianceA
    ensures c.scenarioB == r.scenarioC && c.marginB == r.marginC && c.allianceB == r.allianceC
    ensures c.scenarioC == r.scenarioC && c.marginC == r.marginC && c.allianceC == r.allianceC
    ensures c.incLayer == r.incLayer.GetOr(IncLayer(0.0, 0.0))
    ensures c.constituencyRho == r.constituencyRho.GetOr(0.0)
    ensures c.scenarioD == r.scenarioD && c.marginD == r.marginD && c.allianceD == r.allianceD
    ensures c.scenarioE == r.scenarioE && c.marginE == r.marginE && c.allianceE == r.allianceE
    ensures c.tvkA == r.tvkA && c.dmkProjShare == r.dmkProjShare && c.admkProjShare == r.admkProjShare
  {
    Record(
      r.name,
      None, None,
      r.scenarioA, r.marginA, r.allianceA,
      r.scenarioC, r.marginC, r.allianceC,
      r.scenarioC, r.marginC, r.allianceC,
      r.incLayer.GetOr(IncLayer(0.0, 0.0)),
      r.constituencyRho.GetOr(0.0),
      r.confidenceA, r.dmkBlocA, r.admkBlocA, r.tvkA,
      r.scenarioD, r.marginD, r.allianceD,
      r.scenarioE, r.marginE, r.allianceE,
      r.crystallizationGap, r.dmkProjShare, r.admkProjShare)
  }

  function Max(a: real, b: real): (m: real)
    ensures m >= a && m >= b && (m == a || m == b)
  {
    if a >= b then a else b
  }

  /** Scenario D: a TVK seat where INC out-polls TVK becomes an INC seat if INC also
      beats both DMK and ADMK, and a joint INC+TVK seat otherwise; every TVK seat is
      put in the INC+TVK alliance. Only the D winner and D alliance change. */
  function MergeD(c: Record): (r: Record)
    ensures r.(scenarioD := c.scenarioD, allianceD := c.allianceD) == c
    ensures c.scenarioD != Some("TVK") ==> r == c
  {
    if c.scenarioD == Some("TVK") && c.incLayer.meanShare > c.tvkA.GetOr(0.0) then
      var maxOpponent := Max(c.dmkProjShare.GetOr(0.0), c.admkProjShare.GetOr(0.0));
      var winner := if c.incLayer.meanShare > maxOpponent then "INC" else "INC+TVK";
      c.(scenarioD := Some(winner), allianceD := Some("INC+TVK"))
    else if c.scenarioD == Some("TVK") then
      c.(allianceD := Some("INC+TVK"))
    else
      c
  }

  /** Scenario E: an INC seat filed under the DMK alliance is refiled under ADMK.
      Only the E alliance changes. */
  function ReframeE(c: Record): (r: Record)
    ensures r.(allianceE := c.allianceE) == c
  {
    if c.scenarioE == Some("INC") && c.allianceE == Some("DMK") then
      c.(allianceE := Some("ADMK"))
    else
      c
  }

  /** Both rewrite rules, D first. */
  function Rewrite(c: Record): Record {
    ReframeE(MergeD(c))
  }

  /** The 2026 shape of a loaded record: the row's name and INC layer, B equal to C,
      no actual result, every TVK seat in the INC+TVK alliance under D, other D
      results as filed, and no INC seat left in the DMK alliance under E. */
  predicate Shaped(raw: RawRecord, c: Record) {
    && c.name == raw.name
    && c.actualWinner.None? && c.actualMargin.None?
    && c.scenarioB == c.scenarioC && c.marginB == c.marginC && c.allianceB == c.allianceC
    && c.incLayer == raw.incLayer.GetOr(IncLayer(0.0, 0.0))
    && !(c.scenarioE == Some("INC") && c.allianceE == Some("DMK"))
    && (raw.scenarioD == Some("TVK") ==> c.allianceD == Some("INC+TVK"))
    && (raw.scenarioD != Some("TVK") ==> c.scenarioD == raw.scenarioD && c.allianceD == raw.allianceD)
  }

  /** The 2026 record list the dashboard loads. */
  function Load(raws: seq<RawRecord>): (rs: seq<Record>)
    ensures |rs| == |raws|
    ensures forall i :: 0 <= i < |raws| ==> rs[i] == Rewrite(FromRaw(raws[i]))
    ensures forall i :: 0 <= i < |raws| ==> Shaped(raws[i], rs[i])
  {
    AllShaped(raws);
    seq(|raws|, i requires 0 <= i < |raws| => Rewrite(FromRaw(raws[i])))
  }

  // ---------------------------------------------------------------------------
  // Properties of the rewrite.
  // ---------------------------------------------------------------------------

  /** The D outcome for a TVK seat, case by case. */
  lemma MergeDOutcome(c: Record)
    requires c.scenarioD == Some("TVK")
    ensures var share := c.incLayer.meanShare;
            var opp := Max(c.dmkProjShare.GetOr(0.0), c.admkProjShare.GetOr(0.0));
            && MergeD(c).allianceD == Some("INC+TVK")
            && (share > c.tvkA.GetOr(0.0) && share > opp ==> MergeD(c).scenarioD == Some("INC"))
            && (share > c.tvkA.GetOr(0.0) && share <= opp ==> MergeD(c).scenarioD == Some("INC+TVK"))
            && (share <= c.tvkA.GetOr(0.0) ==> MergeD(c).scenarioD == Some("TVK"))
  {
  }

  /** INC at 0.30 against TVK 0.20, DMK 0.25 and ADMK 0.22 takes the seat alone. */
  lemma MergeDExample(c: Record)
    requires c.scenarioD == Some("TVK")
    requires c.incLayer.meanShare == 0.30 && c.tvkA == Some(0.20)
    requires c.dmkProjShare == Some(0.25) && c.admkProjShare == Some(0.22)
    ensures MergeD(c).scenarioD == Some("INC")
    ensures MergeD(c).allianceD == Some("INC+TVK")
  {
  }

  /** The E alliance is changed exactly for INC seats filed under DMK, and then to ADMK. */
  lemma ReframeEExact(c: Record)
    ensures ReframeE(c).allianceE != c.allianceE <==> c.scenarioE == Some("INC") && c.allianceE == Some("DMK")
    ensures ReframeE(c).allianceE != c.allianceE ==> ReframeE(c).allianceE == Some("ADMK")
    ensures ReframeE(c).scenarioE == c.scenarioE && ReframeE(c).marginE == c.marginE
  {
  }

  /** Rewriting an already rewritten record changes nothing. */
  lemma RewriteIdempotent(c: Record)
    ensures Rewrite(Rewrite(c)) == Rewrite(c)
  {
    var m := MergeD(c);
    if c.scenarioD == Some("TVK") {
      assert m.scenarioD == Some("TVK") ==> m.incLayer.meanShare <= m.tvkA.GetOr(0.0);
    }
    assert MergeD(m) == m;
    assert MergeD(ReframeE(m)) == ReframeE(m);
  }

  /** Mapping and rewriting one row gives it the 2026 shape. */
  lemma RowShape(raw: RawRecord)
    ensures Shaped(raw, Rewrite(FromRaw(raw)))
  {
    var f := FromRaw(raw);
    if f.scenarioD == Some("TVK") {
      MergeDOutcome(f);
    }
  }

  lemma AllShaped(raws: seq<RawRecord>)
    ensures forall i :: 0 <= i < |raws| ==> Shaped(raws[i], Rewrite(FromRaw(raws[i])))
  {
    forall i | 0 <= i < |raws| {
      RowShape(raws[i]);
    }
  }
}
